=== FILE: README.md ===
# Orange tabular import/export, modelled in Dafny

This project models the tabular-text core of Orange's `Orange/data/io.py`:

- **Tab/CSV grammar.** The escaped split, the type row (`var_type`), the annotation row (`var_attribute`) and the one-row simplified header.
- **Column-kind heuristics.** `is_variable_cont`, `is_variable_discrete` and `is_variable_string`, plus the rule that resolves an untyped column from the values seen in it.
- **CSV loading.** The pure body of `load_csv`, from the rows the CSV reader yields to the streams of a table:
  - header, type and annotation row detection;
  - padding, truncation and missing-value translation of the data rows;
  - partition of the columns by role;
  - the class-conflict errors.
- **CSV saving.** The rows `save_csv` writes, and how its header rows read back through the grammar.
- **ARFF.** The line reader (`loadARFF_Weka`) and the writer (`toARFF`).
- **Other writers and readers.** The C4.5 writer (`toC50`), the R writer (`toR`) and the LibSVM reader (`loadLibSVM`).

Modules follow the components:

| module | component |
|---|---|
| `Wrappers` | `Option` and `Result` |
| `Text` | string helpers, `split_escaped_str` and its inverse |
| `Collate` | code-point string order, sorting |
| `Feature` | variables and label dictionaries |
| `TabGrammar` | tab/CSV cell grammar |
| `ColumnKind` | column-kind heuristics |
| `CsvLoad` | `load_csv` |
| `CsvSave` | `save_csv` |
| `Arff` | ARFF reader and writer |
| `C50` | C4.5 writer |
| `RExport` | R writer |
| `LibSvm` | LibSVM reader |

Exceptions the source raises become the `Failure` arm of a `Result`:

- `ValueError`, `VariableDefinitionError` and `StopIteration` on the CSV side;
- a malformed sparse item and an `int()` that fails in ARFF;
- a missing class variable, or an empty value list that `x[-1]` indexes, in the writers.

The code differs from the behaviour a reader of the format would expect in four places; the model follows the code:

- An ARFF sparse item keeps its value exactly as written. `{0 1.5, 2 'red'}` stores `'red'` with its quotes, because line 158 assigns `y[1]` without stripping.
- "All values numeric ⇒ continuous" fails for a column with no non-missing values. The `or 1e-30` of line 599 makes the ratio `1e-30 / 1`, below the cutoff `1.0` (`ColumnKind.AllNumericIsContinuous`). Such a column ends up discrete with no values (`ColumnKind.InferKindSpec`).
- A discrete variable with exactly one value is saved as a type cell that does not read back as that variable. The single word matches none of `var_type`'s keywords and is not a list of two or more words (`CsvSave.SingleValueNotReadBack`).
- A sparse ARFF index may be negative. Python's `r[i]` then counts from the end (`Arff.Position`).

Each writer escapes or quotes only some characters, so some values do not read back through the matching reader. The read-back properties below are stated for the values that do. For each kind that does not, the model either proves the mismatch or names it:

- A discrete value list whose first value starts with `python` is written as a type cell that reads back as a Python type. Lines 499-500 test the prefix before the value list (`CsvSave.PythonValueMisread`).
- A discrete value ending in a backslash escapes the space that follows it. The values `a\` and `b` are written `a\ b`, which reads back as the single word `a b` and is rejected (`CsvSave.BackslashValueMisread`).
- A label key or value holding a space or `=` is written unescaped by line 941. A value `a b` ends its item at the space, so the cell is rejected (`CsvSave.LabelSpaceMisread`). A key or value holding `=` splits into three parts and is rejected the same way.
- An ARFF name without a space is written unquoted. A real variable named `a{b}` is then read back as a discrete attribute with the value `b` (`Arff.BraceNameMisread`).
- An ARFF cell with a tab but no space is written bare, and the reader splits it at the tab into two cells (`Arff.TabCellSplits`).
- An ARFF name changes on reading back in three cases:
  - it holds a tab, which line 142 turns into a space;
  - it holds two spaces in a row, and line 179 drops the empty word between them;
  - it has a space or a quote at either end, or a word ending in a quote. Lines 188-195 strip quotes and spaces from the ends, and stop at the first word ending in a quote.
- An ARFF cell or list value holding a quote is read back without it. A list value also loses spaces at either end, and a `{`, `}` or `%` in it changes how the header line is read.

## Model

| member | source | states |
|---|---|---|
| `Text.Split` | Orange/data/io.py:206-207 | `str.split(c)`: the pieces contain no `c`, and joined with `c` they give back the text |
| `Text.SplitJoin` | Orange/data/io.py:206-207 | joining pieces that contain no separator with it, then splitting, gives the pieces back |
| `Text.EscapeRoundTrip` | Orange/data/io.py:468-471 | `split_escaped_str` inverts escaping each value and joining with the separator, for values without the escape character |
| `Text.SplitRawJoinEscaped` | Orange/data/io.py:468-470 | the unescaped-separator split of escaped, joined values yields exactly the escaped values |
| `Text.UnescapeEscape` | Orange/data/io.py:471 | replacing `\sep` by `sep` undoes escaping a value |
| `Text.SplitEscaped` | Orange/data/io.py:468-471 | at least one piece; what the pieces are is stated by `Text.EscapeRoundTrip` (it inverts escaping and joining) and `Text.EscapedSpaceJoins` |
| `Text.EscapedSpaceJoins` | Orange/data/io.py:468-471 | an escaped separator between two characters does not split them: the one piece keeps a plain separator |
| `Text.Words` | Orange/data/io.py:169-172 | `str.split()` yields non-empty words free of whitespace, and none exactly when the text is blank |
| `Text.WordsAtSpace` | Orange/data/io.py:169-172 | a white-space character splits the text: its words are those of each side, in order |
| `Text.WordsOfJoin` | Orange/data/io.py:169-172 | words free of whitespace, joined by single spaces, split back into those words |
| `Text.LStrip` | Orange/data/io.py:164 | stripping leading characters removes a prefix drawn from the set and stops at a character outside it |
| `Text.RStrip` | Orange/data/io.py:189 | stripping trailing characters removes a suffix drawn from the set and stops at a character outside it |
| `Text.ParseIntOfNatToString` | Orange/data/io.py:447 | `int()` reads back the decimal text of every natural number |
| `Text.ParseIntPadded` | Orange/data/io.py:155-158 | like `int()`, white space around the text is ignored |
| `Text.ParseIntPaddedNat` | Orange/data/io.py:447 | a rendered natural number with white space around it reads back as the number |
| `Text.ParseInt` | Orange/data/io.py:155-158 | no contract of its own: `Text.ParseIntPadded` states that white space around the text is ignored, and `Text.ParseIntOfNatToString` that every rendered natural number reads back |
| `Text.Lower` | Orange/data/io.py:183 | `str.lower` maps every character and keeps the length |
| `Collate.BelowTotal` | Orange/data/io.py:818 | the string order `sorted` uses is total |
| `Collate.BelowTransitive` | Orange/data/io.py:818 | the string order is transitive |
| `Collate.BelowIrreflexive` | Orange/data/io.py:818 | the string order is irreflexive |
| `Collate.SortedSet` | Orange/data/io.py:817-818 | `sorted(set(values))` is strictly ascending and holds exactly the values given |
| `Collate.AscendingUnique` | Orange/data/io.py:818 | two strictly ascending lists with the same elements are equal, so the sorted value list is unique |
| `Collate.AscendingCardinality` | Orange/data/io.py:608 | a strictly ascending list has as many distinct values as elements |
| `Collate.SortBy` | Orange/data/io.py:447 | `sorted(..., key=...)` yields a key-ordered permutation of its input |
| `Feature.Make` | Orange/data/io.py:774 | `make` yields a fresh unordered variable of the given name and kind with no labels |
| `Feature.DictOf` | Orange/data/io.py:560 | `dict(pairs)` has distinct keys, and each key maps to the value of its last pair |
| `Feature.DictOfDistinct` | Orange/data/io.py:560 | `dict(pairs)` keeps pairs whose keys are already distinct |
| `Feature.Put` | Orange/data/io.py:868 | `update` of one key sets it to the value, keeps keys distinct and leaves every other key unchanged |
| `Feature.PutFreshKey` | Orange/data/io.py:868 | a key not present is appended at the end |
| `TabGrammar.VarType` | Orange/data/io.py:490-506 | `c`/`continuous`, `d`/`discrete`, `s`/`string` give their types and the blank cell is unspecified; a cell is rejected, with its own text, exactly when it is no keyword, does not start with `python` and is a single word; otherwise a value list is the escaped split into two or more words |
| `TabGrammar.PythonPrefixFirst` | Orange/data/io.py:499-500 | a cell starting with `python` is a Python type, even when it has several words |
| `TabGrammar.VarTypes` | Orange/data/io.py:484-487 | the type row decodes exactly when every cell is a standard type definition; otherwise the error is that of the first bad cell |
| `TabGrammar.MapCells` | Orange/data/io.py:509-511 | `map` with a raising cell parser yields every result, or the error of the first cell it rejects |
| `TabGrammar.LabelParse` | Orange/data/io.py:531-536 | a label is valid exactly when its escaped split on `=` has two parts, which are its key and value |
| `TabGrammar.LabelsParse` | Orange/data/io.py:560 | the labels parse exactly when every item does, each item giving its own pair |
| `TabGrammar.VarAttribute` | Orange/data/io.py:539-562 | the empty cell is no role and no labels; otherwise the cell is accepted exactly when every word after a leading role keyword splits on `=` into two parts, the error names the first word that does not, and the result is the first word's role with the dictionary of the pairs, its keys distinct |
| `TabGrammar.VarAttributes` | Orange/data/io.py:514-528 | the annotation row decodes exactly when every cell is an annotation definition, cell by cell |
| `TabGrammar.RoleKeyword` | Orange/data/io.py:546-559 | no contract of its own: `TabGrammar.RoleKeywordAlone` states that a keyword alone in a cell gives its role and no labels, and `TabGrammar.VarAttribute` that the first word's keyword is the cell's role |
| `TabGrammar.RoleKeywordAlone` | Orange/data/io.py:546-559 | a lone role keyword gives that role and no labels |
| `TabGrammar.BareWordRejected` | Orange/data/io.py:560 | a single word that is neither a role keyword nor `key=value` is rejected with that word |
| `TabGrammar.TrailingSpaceRejected` | Orange/data/io.py:543-560 | an unescaped trailing space leaves an empty item, so the annotation cell is rejected |
| `TabGrammar.DecodeSpec` | Orange/data/io.py:629-637 | a simplified-header prefix decodes to a role and a type whose letters spell the prefix |
| `TabGrammar.SimplifiedCell` | Orange/data/io.py:622-637 | a matching cell is its role letter, type letter, `#` and name; a cell that does not match is all name, untyped and unannotated |
| `TabGrammar.ParseSimplifiedHeader` | Orange/data/io.py:622-639 | the three result lists align with the row, cell by cell |
| `TabGrammar.SimplifiedRoundTrip` | Orange/data/io.py:623-633 | writing a role and a type as letters before `#name` and parsing the cell gives back the name, type and role |
| `TabGrammar.DecodeSpecOfLetters` | Orange/data/io.py:629-633 | every non-empty letter pair of a role and a type matches the pattern and decodes to that role and type |
| `ColumnKind.NumericCount` | Orange/data/io.py:599 | the numeric count is at most the length; it equals the length exactly when all cells are numeric and is zero exactly when none is |
| `ColumnKind.IsVariableCont` | Orange/data/io.py:596-602 | no contract of its own: `ColumnKind.ContinuousShare` states it as a share test |
| `ColumnKind.IsVariableDiscrete` | Orange/data/io.py:605-611 | no contract of its own: `ColumnKind.DiscreteShare` states it |
| `ColumnKind.IsVariableString` | Orange/data/io.py:614-619 | no contract of its own: `ColumnKind.StringShare` states it |
| `ColumnKind.ContinuousShare` | Orange/data/io.py:596-602 | `is_variable_cont` holds exactly when some cell is numeric and the numeric cells reach `cutoff` times the row count |
| `ColumnKind.DiscreteShare` | Orange/data/io.py:605-611 | `is_variable_discrete` holds exactly when there are fewer than 20 distinct values and the share of numeric cells, if any, stays below `1 - cutoff` |
| `ColumnKind.StringShare` | Orange/data/io.py:614-619 | `is_variable_string` holds exactly when the distinct values exceed `cutoff` times the row count, an empty column counting as one row |
| `ColumnKind.AllNumericIsContinuous` | Orange/data/io.py:822 | with cutoff 1.0, a column is continuous exactly when it is non-empty and all numeric |
| `ColumnKind.InferKind` | Orange/data/io.py:821-830 | no contract of its own: `ColumnKind.InferKindSpec` states the deduction in plain terms |
| `ColumnKind.InferKindSpec` | Orange/data/io.py:821-830 | an untyped column is continuous exactly when non-empty and all numeric; otherwise discrete over its values below 20 distinct values, else string |
| `ColumnKind.FallbackUnreachable` | Orange/data/io.py:826-830 | a column that is neither continuous nor discrete always passes `is_variable_string`, so the final fallback is never reached |
| `CsvLoad.DefaultNames` | Orange/data/io.py:734-736 | the default header names the columns `F_0`, `F_1`, ... |
| `CsvLoad.TypesStep` | Orange/data/io.py:712-719 | a present type row is decoded and consumed; a bad one fails with the cell's error |
| `CsvLoad.AnnotationsStep` | Orange/data/io.py:726-732 | a present annotation row is decoded and consumed; a bad one fails with the cell's error |
| `CsvLoad.FillAnnotations` | Orange/data/io.py:742-749 | the annotations are padded with blanks to the header width, and every given annotation is kept in place |
| `CsvLoad.ReadLayout` | Orange/data/io.py:693-749 | explicit flags are obeyed, guesses need a header row, the skipped rows are exactly the header rows, a row follows them, and every column has an annotation slot |
| `CsvLoad.ExtraRows` | Orange/data/io.py:708-732 | type and annotation rows are present as flagged, or as guessed: the annotation row is guessed exactly when a header and a type row precede it and it decodes; each row decodes from its own position, and the skipped count is the header rows found |
| `CsvLoad.AfterTypes` | Orange/data/io.py:721-732 | the annotation row is present as flagged, or guessed exactly when a header and a type row precede it and it decodes; it then decodes from its own row and is consumed |
| `CsvLoad.ReadLayoutNames` | Orange/data/io.py:700-706 | the names are generated, the header row, or the simplified header's names; without type or annotation rows the columns are untyped and unannotated unless the simplified header says otherwise |
| `CsvLoad.ReadLayoutRows` | Orange/data/io.py:708-749 | the layout's types and annotations are the decoded type and annotation rows, and the annotation row is guessed only after a header and a type row |
| `CsvLoad.HeaderNames` | Orange/data/io.py:700-706 | names come from the header row, from the simplified header, or by default |
| `CsvLoad.LayoutOf` | Orange/data/io.py:734-749 | missing types become blank, and annotations are padded to the names |
| `CsvLoad.MissingFlags` | Orange/data/io.py:763 | the default missing flags, or the caller's text split on commas: no flag holds a comma and their comma join is the text |
| `CsvLoad.Translate` | Orange/data/io.py:763-765 | no contract of its own: `CsvLoad.NormalizeRow` states its effect, a missing flag read as `?` and any other cell kept |
| `CsvLoad.NormalizeRow` | Orange/data/io.py:797-808 | a stored row has the header width, with missing flags read as `?` and absent cells as `?` |
| `CsvLoad.NormalizedPrefix` | Orange/data/io.py:804-808 | a short row is padded with `?` and a long row is truncated |
| `CsvLoad.NonEmptyRows` | Orange/data/io.py:794-796 | exactly the non-empty rows are stored; a single row is kept exactly when it is not empty |
| `CsvLoad.NonEmptyRowsAppend` | Orange/data/io.py:794-796 | the rows of two parts keep the non-empty rows of each part, in order |
| `CsvLoad.NormalizeRows` | Orange/data/io.py:792-810 | one stored row per non-empty input row, each normalised cell by cell |
| `CsvLoad.Observed` | Orange/data/io.py:811-818 | a column's values are sorted and are exactly the non-missing values seen in it |
| `CsvLoad.WithoutMissing` | Orange/data/io.py:817 | set difference with the missing flags |
| `CsvLoad.FirstPython` | Orange/data/io.py:777-778 | finds the first Python-typed column, or none when no column has that type |
| `CsvLoad.ResolveKind` | Orange/data/io.py:768-830 | no contract of its own: `CsvLoad.BuildColumns` states its cases, and `ColumnKind.InferKindSpec` the untyped one |
| `CsvLoad.BuildColumns` | Orange/data/io.py:763-830 | each column keeps its name, role and labels; a declared type is kept; a bare discrete column gets its sorted observed values; an untyped column is inferred |
| `CsvLoad.ReadColumns` | Orange/data/io.py:691-830 | layout errors propagate, a Python-typed column fails, and otherwise the columns are built from the normalised data rows |
| `CsvLoad.IndicesFrom` | Orange/data/io.py:846-872 | the collected indices increase, carry the role and include every column of that role |
| `CsvLoad.Partition` | Orange/data/io.py:846-872 | every column goes to exactly the stream its role names, and the streams keep column order |
| `CsvLoad.IgnoredColumnsDropped` | Orange/data/io.py:862-863 | an ignored column reaches no stream |
| `CsvLoad.Project` | Orange/data/io.py:885-887 | picking indices yields the cells at those indices |
| `CsvLoad.Assemble` | Orange/data/io.py:874-877 | two class columns, or class together with multiclass, are errors, and only these are |
| `CsvLoad.TwoClassColumnsRejected` | Orange/data/io.py:874-875 | any two class columns abort the import |
| `CsvLoad.Streamed` | Orange/data/io.py:879-893 | the table's attributes, class, multiclass and metas are the columns of those roles in order; metas get distinct ids; each example holds its row's cells for each stream |
| `CsvLoad.MetaIds` | Orange/data/io.py:857-861 | each meta column gets its own id |
| `CsvLoad.ProjectRows` | Orange/data/io.py:885-887 | every row is projected onto the same columns |
| `CsvLoad.LoadCsv` | Orange/data/io.py:650-898 | no rows or a bad header is an error; a column error is the import's error; otherwise the table is the resolved columns partitioned by role, with one example per non-empty row after the header rows |
| `CsvLoad.LoadCsvCell` | Orange/data/io.py:792-893 | every attribute or class cell of an example is `?` or a cell, not a missing flag, of the matching non-empty row of the file |
| `CsvSave.MetasByIdDescending` | Orange/data/io.py:914-915 | metas are a permutation of the domain's metas, in descending id order |
| `CsvSave.AllVars` | Orange/data/io.py:912-916 | the written variables are the attributes, then the class if any, then the metas by descending id |
| `CsvSave.TypeCell` | Orange/data/io.py:921-933 | no contract of its own: `CsvSave.ScalarTypeCellsReadBack`, `CsvSave.DiscreteTypeCellReadBack`, `CsvSave.SingleValueNotReadBack` and `CsvSave.NoValuesReadsUnspecified` state how each cell reads back |
| `CsvSave.AnnotationCell` | Orange/data/io.py:942 | no contract of its own: `CsvSave.AttributeAnnotationReadBack` and `CsvSave.RolePrefixDropsLabels` state how the cell reads back with and without a role |
| `CsvSave.HeaderRows` | Orange/data/io.py:917-944 | as written: the names row, and with Orange-specific output the type row and the annotation row of line 942, one cell per written variable |
| `CsvSave.HeaderRowsIntended` | Orange/data/io.py:917-944 | the same rows with each annotation cell as the role prefix followed by the labels |
| `CsvSave.DataRow` | Orange/data/io.py:946-948 | an example is its own cells, then its meta values in meta order |
| `CsvSave.DataRows` | Orange/data/io.py:946-948 | one row per example, each of the full width |
| `CsvSave.SaveCsv` | Orange/data/io.py:908-948 | as written: the header rows of `CsvSave.HeaderRows` followed by the data rows |
| `CsvSave.SaveCsvIntended` | Orange/data/io.py:908-948 | the corrected header rows followed by the same data rows |
| `CsvSave.SortedMetasPresent` | Orange/data/io.py:947 | every written meta id is present in every example |
| `CsvSave.ScalarTypeCellsReadBack` | Orange/data/io.py:926-931 | `continuous`, `string` and `python` type cells read back as their types |
| `CsvSave.DiscreteTypeCellReadBack` | Orange/data/io.py:923-925 | for two or more values, none holding a backslash and the first not starting with `python`, the type cell of a discrete variable reads back as exactly those values |
| `CsvSave.PythonValueMisread` | Orange/data/io.py:499-500 | a discrete variable whose first value starts with `python` and holds no space is written as a type cell that reads back as a Python type |
| `CsvSave.BackslashValueMisread` | Orange/data/io.py:923-925 | the values `a\` and `b` are written as the type cell `a\ b`, which is rejected as an unknown type definition |
| `CsvSave.SingleValueNotReadBack` | Orange/data/io.py:923-925 | a one-value discrete variable's type cell does not read back as that variable |
| `CsvSave.NoValuesReadsUnspecified` | Orange/data/io.py:923-925 | a value-less discrete variable's type cell reads back as an unspecified type |
| `CsvSave.LabelItems` | Orange/data/io.py:941 | one `key=value` item per label, in order |
| `CsvSave.LabelItemsParse` | Orange/data/io.py:941 | label items without spaces or escapes parse back to the labels |
| `CsvSave.AttributeAnnotationReadBack` | Orange/data/io.py:941-942 | for distinct keys (as a dictionary has) whose keys and values hold no space, `=` or backslash, an attribute's annotation cell reads back as no role and its labels |
| `CsvSave.LabelSpaceMisread` | Orange/data/io.py:941 | a label value holding a space is written unescaped, so the cell `k=a b` is rejected, naming the word `b` |
| `CsvSave.RolePrefixDropsLabels` | Orange/data/io.py:942 | as written, a class or meta annotation cell holds only the role, so the labels are lost on reading back |
| `CsvSave.IntendedAnnotationReadBack` | Orange/data/io.py:937-942 | with the prefix joined before the labels, and for distinct keys whose keys and values hold no space, `=` or backslash, a class or meta cell reads back as its role and all its labels |
| `Arff.HeaderWords` | Orange/data/io.py:177-182 | the words of a header line are the non-empty pieces of its split on single spaces, none holding a space, and a non-blank line has one at least |
| `Arff.HeaderWordsOfJoin` | Orange/data/io.py:177-182 | space-free words joined by single spaces are the words of the line |
| `Arff.AttributeKind` | Orange/data/io.py:206-224 | a `{...}` list gives a discrete kind over the stripped non-empty items; otherwise the last word decides, continuous exactly for `numeric`, `integer` and `real` and string for the rest |
| `Arff.ItemValue` | Orange/data/io.py:213-215 | an item gives one value exactly when its text stripped of spaces and quotes is non-empty, and that value is the stripped text |
| `Arff.ListValues` | Orange/data/io.py:210-215 | no items give no values; one item gives its stripped text, or nothing when that is empty; every value is non-empty |
| `Arff.ListValuesAppend` | Orange/data/io.py:212-215 | the values of a list read in two parts are those of each part, in order |
| `Arff.TypeKind` | Orange/data/io.py:218-224 | continuous exactly for the numeric type words, string otherwise |
| `Arff.Keyword` | Orange/data/io.py:183 | no contract of its own: `Arff.AttributeKeyword` states that the keyword of `@attribute` is `attribute`, neither `data` nor `relation`, and `Arff.HeaderLine` what each keyword does |
| `Arff.HeaderLine` | Orange/data/io.py:176-227 | `@data` switches to the data section and changes nothing else; `@relation` names the relation after its stripped second word; `@attribute` appends exactly the variable of the line's name and kind, or fails as the kind does; a short line fails; any other keyword changes nothing |
| `Arff.Position` | Orange/data/io.py:158 | Python's list index: valid from `-n` to `n-1`, negative counting from the end |
| `Arff.SparseEntry` | Orange/data/io.py:155-158 | an item is valid exactly when it splits on single spaces into two words, the first an integer index into the row; the second word is its value, kept as written, at the position the index names |
| `Arff.Place` | Orange/data/io.py:154-158 | placing succeeds exactly when every item is valid, and keeps the row width |
| `Arff.PlaceIsLastAssigned` | Orange/data/io.py:154-158 | every position holds the value of the last item naming it, or stays missing |
| `Arff.SparseRow` | Orange/data/io.py:150-159 | a sparse row parses exactly when the list grammar accepts its inside and every item is valid; it has one cell per attribute, each the value of the last item naming it, or missing |
| `Arff.DenseCells` | Orange/data/io.py:163-174 | an item of spaces is `?`; an item starting, after spaces, with a quote is one value stripped of quotes; any other item gives its white-space separated words |
| `Arff.DenseAll` | Orange/data/io.py:162-174 | one item gives its own cells; `Arff.DenseAllAppend` states that the cells of two parts are those of each part, in order |
| `Arff.DenseAllAppend` | Orange/data/io.py:163-174 | the cells of items read in two parts are those of each part, in order |
| `Arff.DenseRow` | Orange/data/io.py:160-175 | a dense row parses exactly when the list grammar accepts it; its cells are those of the items in order, cut to the number of attributes |
| `Arff.CleanLine` | Orange/data/io.py:141-142 | the cleaned line holds no tab; it is a prefix of the raw line with tabs turned to spaces, and only `\n` and `\r` are dropped from the end |
| `Arff.IsSkipped` | Orange/data/io.py:143-145 | no contract of its own: `Arff.SkippedPrefix` states that a kept line is not blank, and `Arff.WrittenLineClean` that a written declaration is kept |
| `Arff.WrittenLineClean` | Orange/data/io.py:141-145 | a line starting with `@`, with no tab, `%` or line end, is kept as it is and not skipped |
| `Arff.SkippedPrefix` | Orange/data/io.py:143-145 | a line that is not skipped is not blank |
| `Arff.ReadLine` | Orange/data/io.py:140-175 | skipped lines change nothing; before `@data` a line is read as a header line; after it a line appends exactly one row, sparse when it starts with `{` and dense otherwise, or fails as that row does |
| `Arff.ReadLineConsistent` | Orange/data/io.py:140-227 | reading a line keeps every row no wider than the attributes |
| `Arff.ReadLines` | Orange/data/io.py:140-227 | reading the file keeps the rows consistent, and attributes stop changing after `@data` |
| `Arff.ReadLinesOne` | Orange/data/io.py:140-227 | reading a single line is one step of the line reader |
| `Arff.ReadLinesAppend` | Orange/data/io.py:140-227 | reading two runs of lines is reading the second from the state the first leaves; a failure in the first is the result |
| `Arff.LoadArff` | Orange/data/io.py:128-235 | rows are no wider than the attributes, and the last attribute is the class |
| `Arff.TableOf` | Orange/data/io.py:229-235 | the domain's class is its last attribute |
| `Arff.QuoteAll` | Orange/data/io.py:290-296 | each value is quoted exactly when it holds a space |
| `Arff.Quote` | Orange/data/io.py:270-271 | no contract of its own: `Arff.QuoteAll` applies it to each value, and `Arff.DenseCellRead` states that a quoted cell reads back as itself |
| `Arff.AttributeLine` | Orange/data/io.py:256-285 | fails, naming the variable, exactly for a discrete variable without values not written as real; otherwise `@attribute`, the quoted name and `real`, or the quoted values comma-joined between braces |
| `Arff.AttributeLines` | Orange/data/io.py:254-285 | one declaration per variable, or the failure of one |
| `Arff.ToArff` | Orange/data/io.py:245-299 | the relation line, one declaration per attribute and the class, `@data`, then one comma-joined quoted line per example |
| `Arff.QuotedTail` | Orange/data/io.py:190-194 | no contract of its own: `Arff.QuotedTailGathers` states what the loop gathers |
| `Arff.AttributeName` | Orange/data/io.py:188-205 | no contract of its own: `Arff.QuotedNameRead` states how a quoted name reads back, and `Arff.AttributeKind` what follows it |
| `Arff.QuotedTailGathers` | Orange/data/io.py:190-194 | the quoted-name loop gathers the words up to the first closing quote |
| `Arff.QuotedNameRead` | Orange/data/io.py:188-195 | a quoted multi-word name reads back as the words joined by spaces |
| `Arff.RealAttributeReadBack` | Orange/data/io.py:269-273 | for a name of one or more words joined by single spaces, each word free of quotes, white space, `{` and `%`, the `@attribute` line written for a real variable reads back as a continuous attribute of that name |
| `Arff.BraceNameMisread` | Orange/data/io.py:206-216 | a real variable named `a{b}` is written unquoted as `@attribute a{b} real`, which reads back as a discrete attribute over the single value `b` |
| `Arff.ListValuesRead` | Orange/data/io.py:275-285 | for non-empty values free of quotes, tabs, `{`, `}` and `%`, with no space at either end, the values written for a discrete variable, each quoted when it holds a space, read back value for value |
| `Arff.DiscreteAttributeReadBack` | Orange/data/io.py:275-285 | the `@attribute` line written for a discrete variable reads back as a discrete attribute of that name and those values, when the list grammar returns the written items |
| `Arff.DenseCellRead` | Orange/data/io.py:292-296 | a non-empty cell free of quotes, and free of all white space when it holds no space, reads back as itself, quoted or not |
| `Arff.TabCellSplits` | Orange/data/io.py:292-296 | a cell `a<tab>b` has no space, so it is written bare and reads back as the two cells `a` and `b` |
| `Arff.DenseAllRead` | Orange/data/io.py:297-299 | cells each meeting the hypothesis of `Arff.DenseCellRead`, written as an example, read back in order |
| `Arff.DataRowReadBack` | Orange/data/io.py:287-299 | for no more cells than attributes, each meeting the hypothesis of `Arff.DenseCellRead`, and a list grammar that returns the comma-separated items as written, a written data line reads back as the example's cells |
| `C50.Declaration` | Orange/data/io.py:326-349 | `name: continuous.` or `name: v1,...,vn.`; fails exactly for a value-less discrete variable not written as real |
| `C50.DeclarationReadBack` | Orange/data/io.py:340-349 | the declared text is `continuous`, or splits on commas back into the values |
| `C50.Declarations` | Orange/data/io.py:324-349 | one declaration per variable, or the failure of one |
| `C50.DataLine` | Orange/data/io.py:354-360 | no contract of its own: `C50.DataLineReadBack` states that it splits back into the values |
| `C50.DataLineReadBack` | Orange/data/io.py:354-360 | a data line splits on commas back into the example's values |
| `C50.NamesLines` | Orange/data/io.py:321-349 | the class name line, a blank line, then the declarations |
| `C50.DataLines` | Orange/data/io.py:353-360 | one comma-joined line per example |
| `C50.ToC50` | Orange/data/io.py:315-360 | no class variable is an error; otherwise both files, line by line |
| `RExport.Loop` | Orange/data/io.py:384-392 | no contract of its own: `RExport.LoopJoin` states it as a join followed by the closer |
| `RExport.LoopJoin` | Orange/data/io.py:384-392 | the writer's loop is the join followed by the closer, and nothing for no items |
| `RExport.Cell` | Orange/data/io.py:385-388 | no contract of its own: `RExport.Cells` applies it to every cell of a column |
| `RExport.Cells` | Orange/data/io.py:385-388 | one R value per cell, `NA` for a special value |
| `RExport.Levels` | Orange/data/io.py:398-404 | each level is written as `"x<value>"` |
| `RExport.Column` | Orange/data/io.py:381-415 | as written, fails exactly for a variable that is neither continuous nor discrete |
| `RExport.EmptyTableColumnOpen` | Orange/data/io.py:383-392 | as written, a continuous column of an empty table is left with one unclosed bracket |
| `RExport.ColumnIntended` | Orange/data/io.py:381-415 | the corrected column fails exactly where the original does |
| `RExport.ColumnAsIntended` | Orange/data/io.py:381-415 | on a non-empty table, with values for a discrete variable, the column as written equals the corrected one |
| `RExport.ColumnIntendedBalanced` | Orange/data/io.py:381-415 | every corrected column has balanced brackets |
| `RExport.CountAppend` | Orange/data/io.py:380-418 | bracket counts add over concatenation |
| `RExport.Columns` | Orange/data/io.py:381-417 | as written: one column per variable in order, each the column of `RExport.Column`, or the first variable R has no vector for |
| `RExport.ColumnsAs` | Orange/data/io.py:381-417 | the columns succeed exactly when every variable has an R vector, each column in order, or fail naming the first variable without one |
| `RExport.ColumnsIntended` | Orange/data/io.py:381-417 | the corrected columns, with the same failures |
| `RExport.ToR` | Orange/data/io.py:362-418 | as written: fails exactly when some variable has no R vector, naming the first; otherwise `data <- data.frame(`, the columns as written joined by `,\n`, and `)` |
| `RExport.Script` | Orange/data/io.py:362-418 | `data <- data.frame(`, the columns joined by `,\n` with none after the last, then `)` |
| `RExport.ToRIntended` | Orange/data/io.py:362-418 | the script with every column corrected, with the same failures |
| `RExport.ToRAsIntended` | Orange/data/io.py:362-418 | on a table with examples whose discrete variables all have values, the script as written is the corrected one |
| `LibSvm.Examples` | Orange/data/io.py:441 | at most one non-empty word list per line, none exactly when every line is blank; a single line gives its white-space separated words, or nothing when it is blank |
| `LibSvm.ExamplesAppend` | Orange/data/io.py:441 | the examples of two concatenated files are those of each, in order |
| `LibSvm.FeatureItem` | Orange/data/io.py:444 | an item is valid exactly when it splits on `:` into two parts, which rejoin into the item |
| `LibSvm.FeatureItemRoundTrip` | Orange/data/io.py:444 | `index:value` reads back as its index and value |
| `LibSvm.Features` | Orange/data/io.py:444 | an example's features parse exactly when each item does, item by item |
| `LibSvm.AllFeatures` | Orange/data/io.py:444 | every example's features after its label, or the first bad item |
| `LibSvm.IndexesOf` | Orange/data/io.py:442-444 | the collected indices are exactly those that occur in some example |
| `LibSvm.FirstSeen` | Orange/data/io.py:442 | first-use order keeps each index once |
| `LibSvm.IndexValues` | Orange/data/io.py:447 | `int(var.name)` of each index, failing exactly on an index that is not an integer |
| `LibSvm.Attributes` | Orange/data/io.py:447 | one continuous attribute per index, named by it, in ascending integer order |
| `LibSvm.SortedPairs` | Orange/data/io.py:447 | sorting keeps every index once and orders them by value |
| `LibSvm.AllDiscrete` | Orange/data/io.py:446 | no contract of its own: `LibSvm.ClassVariable` states that the class is discrete exactly when it holds |
| `LibSvm.ClassVariable` | Orange/data/io.py:445-448 | a discrete `class` over the sorted distinct labels exactly when no label holds a `.`, else a continuous `target` |
| `LibSvm.Row` | Orange/data/io.py:452 | each attribute's value from the example's last item naming it, or `?`, then the label |
| `LibSvm.Assemble` | Orange/data/io.py:451-452 | one row per example, over the given attributes, with the class of all labels |
| `LibSvm.Table` | Orange/data/io.py:447-452 | fails exactly on an index that is not an integer; otherwise the rows over attributes ordered by index |
| `LibSvm.LoadLibSvm` | Orange/data/io.py:428-454 | a bad item or a non-integer index fails; otherwise every index is an attribute, in ascending order, and every example a row |

## Left out

- File I/O, file-name handling, `csv.Sniffer`, the CSV dialect and quoting, and `splitlines`. The readers take lines or rows; the writers produce lines or rows. `has_header` is an input.
- `float()` parsing (`is_val_cont`, `try_numericize`) is the parameter `isNum`. ARFF's pyparsing list grammar (`delimitedList(content, ',')`) is the parameter `tokenize`.
- `Descriptor.make` and its reuse of existing variables across tables, and the load statuses it returns. Every variable is fresh.
- `new_meta_id` is a caller-supplied counter.
- Instance construction and value conversion (`var(val)`, `Instance(domain, ...)`): the tables hold the cell texts.
- Python dict iteration order is unspecified. Labels and LibSVM features are kept in first-use order.
- The search-path and extension registry (lines 998-1172), Mulan/XML loading, and `toLibSVM` (a foreign call).
- Partial writes on error. A writer that fails here returns an error, where the source may already have written part of the file.
- `save_csv`'s `TypeError` for an unknown variable type: `Kind` has no such case.
- The CSV warning for rows of the wrong width (a side effect only).
- `Arff.LoadArff`: states only the shape of the finished table. What each line contributes is stated by `Arff.ReadLine`, `Arff.HeaderLine`, `Arff.SparseRow` and `Arff.DenseRow`, and how lines compose by `Arff.ReadLinesOne` and `Arff.ReadLinesAppend`.
- `Arff.DiscreteAttributeReadBack`: proved for a one-word name and for values with no space at either end (the reader strips those). Multi-word quoted names are proved to read back for the `real` line only, by `Arff.RealAttributeReadBack`; the name is read by the same words either way.
- `CsvSave.DiscreteTypeCellReadBack`: needs values without a backslash, and a first value not starting with `python`. The writer does not escape either case. `CsvSave.BackslashValueMisread` and `CsvSave.PythonValueMisread` show what happens to them.
- `CsvSave.AttributeAnnotationReadBack`: needs keys and values without a space, `=` or backslash, because line 941 writes them unescaped (`CsvSave.LabelSpaceMisread`). Distinct keys are what the source's label dictionary has.
- `CsvSave.IntendedAnnotationReadBack`: the same hypothesis on the labels as `CsvSave.AttributeAnnotationReadBack`, for the same reason.
- `Arff.RealAttributeReadBack`: needs a name of words joined by single spaces, each word free of quotes, white space, `{` and `%`. A brace makes the reader take a list (`Arff.BraceNameMisread`). A `%` starts a comment. A tab, a double space, or a quote or space at either end changes the name read (lines 142, 179 and 188-195).
- `Arff.ListValuesRead`: needs non-empty values free of quotes, tabs, `{`, `}` and `%`, with no space at either end. The reader strips quotes and edge spaces, and a brace or `%` changes how the line is read.
- `Arff.DenseCellRead`: needs a non-empty cell free of quotes, and free of all white space unless it holds a space. A quote is stripped on reading, and a bare cell with a tab splits in two (`Arff.TabCellSplits`).
- `Arff.DenseAllRead`: the hypothesis of `Arff.DenseCellRead`, for every cell.
- `Arff.DataRowReadBack`: the hypothesis of `Arff.DenseCellRead` for every cell, no more cells than attributes, and a list grammar that returns the comma-separated items as written. The grammar is a parameter, so a comma inside a value is not modelled.
- `C50.ToC50`, `Arff.ToArff`, `RExport.ToR`: the examples are assumed to hold one rendered value per variable, as the `Table` type guarantees in the source.
- `LibSvm.LoadLibSvm`: does not convert the feature values with `float()`; cells keep their text.

## Findings

| source | as written | input that shows it | evidently intended | confidence | as-written member | corrected member |
|---|---|---|---|---|---|---|
| Orange/data/io.py:942 | `" ".join([spec] if spec else [] + labels)` parses as `[spec] if spec else ([] + labels)` | a class variable with labels `{"a": "1"}` is written as the cell `class` | the role prefix followed by the labels: `class a=1` | high; not executed | `CsvSave.RolePrefixDropsLabels` | `CsvSave.IntendedAnnotationReadBack` |
| Orange/data/io.py:383-392 | the closing `)` is written inside the loop over examples | a continuous variable over a table with no examples is written as `"x" = c(` | every vector closed: `"x" = c()` | high; not executed | `RExport.EmptyTableColumnOpen` | `RExport.ColumnIntendedBalanced` |

`CsvSave.HeaderRows`, `CsvSave.SaveCsv`, `RExport.Columns` and `RExport.ToR` model the code as written. `CsvSave.HeaderRowsIntended`, `CsvSave.SaveCsvIntended`, `RExport.ColumnsIntended` and `RExport.ToRIntended` are the corrected writers. `RExport.ToRAsIntended` shows the two R writers agree whenever the table has examples and every discrete variable has values.

=== FILE: arff.dfy ===
/** Weka's ARFF format as io.py reads it (`loadARFF_Weka`) and writes it
    (`toARFF`).  The reader is a line-by-line state machine: header lines
    (`@relation`, `@attribute`, `@data`) until `@data`, then one example per
    line, dense or sparse.  The comma-separated-list grammar of pyparsing
    (`delimitedList(content, ',').parseString`) is the parameter `tokenize`;
    `None` stands for its parse failure. */
module Arff {
  import opened Wrappers
  import opened Text
  import opened Feature

  type Tokenizer = string -> Option<seq<string>>

  datatype ArffError =
    | MissingField(line: string)       // `y[1]` of a one-word `@relation`/`@attribute` line
    | NoParse(text: string)            // the list grammar rejects the text
    | SparseItem(item: string)         // a sparse item that is not `index value`
    | BadIndex(text: string)           // `int()` of a sparse index fails
    | IndexOutOfRange(index: int)      // a sparse index outside the row

  /** The reader's state: relation name, attributes so far, whether `@data`
      was seen, and the rows read.  A cell is `None` where a sparse row gives
      no value. */
  datatype Reader = Reader(name: string, attributes: seq<Variable>, inData: bool, rows: seq<seq<Option<string>>>)

  const Start: Reader := Reader("", [], false, [])

  // ---------------------------------------------------------------------
  // Header lines
  // ---------------------------------------------------------------------

  /** The non-empty pieces of the line split on single spaces. */
  function HeaderWords(x: string): (y: seq<string>)
    ensures y == NonEmptyPieces(Split(x, ' '))
    ensures forall k :: 0 <= k < |y| ==> |y[k]| > 0 && ' ' !in y[k]
    ensures !IsBlank(x) ==> |y| > 0
  {
    NonBlankHasWords(x);
    NonEmptyPieces(Split(x, ' '))
  }

  /** Words free of spaces, joined by single spaces, are the words of the line. */
  lemma HeaderWordsOfJoin(ws: seq<string>)
    requires forall k :: 0 <= k < |ws| ==> |ws[k]| > 0 && ' ' !in ws[k]
    ensures HeaderWords(Join(ws, " ")) == ws
  {
    if |ws| == 0 {
      assert Split("", ' ') == [""];
    } else {
      SplitJoin(ws, ' ');
      NonEmptyPiecesAll(ws);
    }
  }

  lemma NonBlankHasWords(x: string)
    ensures !IsBlank(x) ==> |NonEmptyPieces(Split(x, ' '))| > 0
  {
    if !IsBlank(x) {
      var k :| 0 <= k < |x| && !IsSpace(x[k]);
      NonEmptyPiecesOfText(x, ' ', k);
    }
  }

  /** The loop that gathers a quoted attribute name: words are appended,
      space-separated, until one ends with the quote or the words run out. */
  function QuotedTail(y: seq<string>, idx: nat, q: char, atn: string): string
    requires idx < |y|
    requires forall k :: 0 <= k < |y| ==> |y[k]| > 0
    decreases |y| - idx
  {
    if Last(y[idx]) == q || idx + 1 == |y| then atn
    else QuotedTail(y, idx + 1, q, atn + " " + y[idx + 1])
  }

  /** The name of an `@attribute` line (lines 188-205): the second word, or
      the quoted words starting there, stripped of quotes and spaces. */
  function AttributeName(y: seq<string>): string
    requires |y| >= 2
    requires forall k :: 0 <= k < |y| ==> |y[k]| > 0
  {
    if y[1][0] == '\'' then Strip(QuotedTail(y, 1, '\'', Strip(y[1], "' ")), "' ")
    else if y[1][0] == '"' then Strip(QuotedTail(y, 1, '"', Strip(y[1], "\" ")), "\" ")
    else y[1]
  }

  /** The discrete values of a `{...}` list: each item stripped of spaces and quotes, empty ones dropped. */
  function ListValues(items: seq<string>): (vals: seq<string>)
    ensures forall k :: 0 <= k < |vals| ==> |vals[k]| > 0
    ensures |vals| <= |items|
    ensures |items| == 0 ==> vals == []
    // one item gives its stripped text, or nothing when that is empty
    ensures |items| == 1 ==> vals == ItemValue(items[0])
  {
    if |items| == 0 then [] else ItemValue(items[0]) + ListValues(items[1..])
  }

  /** One list item stripped of spaces and quotes, or nothing when that is empty. */
  function ItemValue(item: string): (r: seq<string>)
    ensures |r| <= 1
    ensures |r| == 1 <==> |Strip(item, " '\"")| > 0
    ensures |r| == 1 ==> r[0] == Strip(item, " '\"")
  {
    var v := Strip(item, " '\"");
    if |v| > 0 then [v] else []
  }

  /** The values of a list are those of its parts, in order: items are
      read one at a time and none is merged or dropped for a later one. */
  lemma {:induction false} ListValuesAppend(a: seq<string>, b: seq<string>)
    ensures ListValues(a + b) == ListValues(a) + ListValues(b)
    decreases |a|
  {
    if |a| > 0 {
      ListValuesAppend(a[1..], b);
      ListValuesStep(a[0], a[1..], b);
      assert [a[0]] + a[1..] == a;
    } else {
      assert a + b == b;
    }
  }

  /** The inductive step of `ListValuesAppend`: one more item in front. */
  lemma ListValuesStep(x: string, rest: seq<string>, b: seq<string>)
    requires ListValues(rest + b) == ListValues(rest) + ListValues(b)
    ensures ListValues([x] + rest + b) == ListValues([x] + rest) + ListValues(b)
  {
    ListValuesCons(x, rest + b);
    ListValuesCons(x, rest);
    Associative([x], rest, b);
    Associative(ItemValue(x), ListValues(rest), ListValues(b));
  }

  /** Concatenation regroups. */
  lemma Associative(h: seq<string>, p: seq<string>, q: seq<string>)
    ensures h + (p + q) == (h + p) + q
  {
  }

  lemma ListValuesCons(x: string, ys: seq<string>)
    ensures ListValues([x] + ys) == ItemValue(x) + ListValues(ys)
  {
    assert ([x] + ys)[1..] == ys;
  }

  predicate IsNumericType(dtype: string) {
    dtype == "numeric" || dtype == "integer" || dtype == "real"
  }

  /** Lines 206-224: a `{...}` after the last `{` makes a discrete attribute;
      otherwise the last word decides, and only the numeric types give a
      continuous one (dates and relations are read as strings). */
  function AttributeKind(x: string, y: seq<string>, tokenize: Tokenizer): (r: Result<Kind, ArffError>)
    requires |y| > 0
    ensures var z := Split(x, '{'); var w := Split(z[|z| - 1], '}');
      && (|z| > 1 && |w| > 1 ==>
            (r.Success? <==> tokenize(w[0]).Some?)
            && (r.Success? ==> r == Success(Discrete(ListValues(tokenize(w[0]).value)))))
      && (!(|z| > 1 && |w| > 1) ==>
            r.Success? && (r.value == Continuous <==> IsNumericType(Lower(y[|y| - 1])))
            && (r.value != Continuous ==> r.value == String))
  {
    match ListText(x)
    case Some(t) =>
      (match tokenize(t)
       case None => Failure(NoParse(t))
       case Some(items) => Success(Discrete(ListValues(items))))
    case None => Success(TypeKind(Lower(y[|y| - 1])))
  }

  /** The text between the last `{` of a line and the first `}` after it, if any. */
  function ListText(x: string): (t: Option<string>)
    ensures var z := Split(x, '{'); var w := Split(z[|z| - 1], '}');
      (t.Some? <==> |z| > 1 && |w| > 1) && (t.Some? ==> t.value == w[0])
  {
    var z := Split(x, '{');
    var w := Split(z[|z| - 1], '}');
    if |z| > 1 && |w| > 1 then Some(w[0]) else None
  }

  /** Lines 218-224: the kind a type word gives; only the numeric types are continuous. */
  function TypeKind(dtype: string): (k: Kind)
    ensures k == Continuous <==> IsNumericType(dtype)
    ensures k != Continuous ==> k == String
  {
    if dtype == "string" then String
    else if IsNumericType(dtype) then Continuous
    else String
  }

  /** The keyword of a header line: its first word without the `@`, lower-cased. */
  function Keyword(x: string): string
    requires !IsBlank(x)
  {
    var y := HeaderWords(x);
    Lower(y[0][1..])
  }

  /** Lines 176-227: one non-blank header line. */
  function HeaderLine(st: Reader, x: string, tokenize: Tokenizer): (r: Result<Reader, ArffError>)
    requires !IsBlank(x)
    // `@data` switches to the data section and changes nothing else
    ensures Keyword(x) == "data" ==> r == Success(st.(inData := true))
    // `@relation` names the relation after its second word, stripped
    ensures Keyword(x) == "relation" ==>
      r == if |HeaderWords(x)| < 2 then Failure(MissingField(x)) else Success(st.(name := StripSpace(HeaderWords(x)[1])))
    // `@attribute` appends one variable, named and typed by the line
    ensures Keyword(x) == "attribute" && |HeaderWords(x)| < 2 ==> r == Failure(MissingField(x))
    ensures Keyword(x) == "attribute" && |HeaderWords(x)| >= 2 ==>
      var y := HeaderWords(x);
      && (r.Success? <==> AttributeKind(x, y, tokenize).Success?)
      && (r.Success? ==> r.value == st.(attributes := st.attributes + [Make(AttributeName(y), AttributeKind(x, y, tokenize).value)]))
    // any other line is ignored
    ensures Keyword(x) !in ["data", "relation", "attribute"] ==> r == Success(st)
    ensures r.Success? ==> r.value.rows == st.rows
    ensures r.Success? ==> (r.value.attributes == st.attributes
                        || (|r.value.attributes| == |st.attributes| + 1 && r.value.attributes[..|st.attributes|] == st.attributes))
    ensures r.Success? && r.value.inData != st.inData ==> r.value.inData && r.value.attributes == st.attributes
    ensures r.Failure? ==> |HeaderWords(x)| < 2 || r.error.NoParse?
  {
    var y := HeaderWords(x);
    var key := Keyword(x);
    if key == "data" then Success(st.(inData := true))
    else if key == "relation" then
      if |y| < 2 then Failure(MissingField(x)) else Success(st.(name := StripSpace(y[1])))
    else if key == "attribute" then
      if |y| < 2 then Failure(MissingField(x))
      else
        var kind :- AttributeKind(x, y, tokenize);
        var a := Make(AttributeName(y), kind);
        assert (st.attributes + [a])[..|st.attributes|] == st.attributes;
        Success(st.(attributes := st.attributes + [a]))
    else Success(st)
  }

  // ---------------------------------------------------------------------
  // Data lines
  // ---------------------------------------------------------------------

  /** Python's `r[i]` index into a list of `n`: a negative index counts from the end. */
  function Position(i: int, n: nat): (p: Option<nat>)
    ensures p.Some? <==> -(n as int) <= i < n
    ensures p.Some? ==> p.value < n && (p.value as int == i || p.value as int == i + n)
  {
    if 0 <= i < n then Some(i) else if -(n as int) <= i < 0 then Some(i + n) else None
  }

  /** The row position and value one sparse item `index value` assigns, or why it cannot. */
  function SparseEntry(item: string, n: nat): (r: Result<(nat, string), ArffError>)
    // the item is two words separated by one space, the first an index into the row
    ensures var y := Split(item, ' ');
      r.Success? <==> |y| == 2 && ParseInt(y[0]).Some? && Position(ParseInt(y[0]).value, n).Some?
    // the second word is the value, kept as written, at the position the index names
    ensures var y := Split(item, ' ');
      r.Success? ==> r.value == (Position(ParseInt(y[0]).value, n).value, y[1])
    ensures r.Success? ==> r.value.0 < n
    ensures r.Failure? && |Split(item, ' ')| != 2 ==> r.error == SparseItem(item)
  {
    var y := Split(item, ' ');
    if |y| != 2 then Failure(SparseItem(item))
    else
      match ParseInt(y[0])
      case None => Failure(BadIndex(y[0]))
      case Some(i) =>
        match Position(i, n)
        case None => Failure(IndexOutOfRange(i))
        case Some(p) => Success((p, y[1]))
  }

  /** Lines 154-158: the items assigned one by one into the row. */
  function Place(row: seq<Option<string>>, items: seq<string>): (r: Result<seq<Option<string>>, ArffError>)
    ensures r.Success? <==> forall k :: 0 <= k < |items| ==> SparseEntry(items[k], |row|).Success?
    ensures r.Success? ==> |r.value| == |row|
    decreases |items|
  {
    if |items| == 0 then Success(row)
    else
      match SparseEntry(items[0], |row|)
      case Failure(e) => Failure(e)
      case Success((p, v)) =>
        var r := Place(row[p := Some(v)], items[1..]);
        assert forall k :: 0 < k < |items| ==> items[k] == items[1..][k - 1];
        if r.Failure? then
          assert !forall k :: 0 <= k < |items| - 1 ==> SparseEntry(items[1..][k], |row|).Success?;
          r
        else r
  }

  /** Reference reading of a sparse row: the value of the last item that
      names the position, or nothing when no item does. */
  function LastAssigned(items: seq<string>, n: nat, i: nat): Option<string>
  {
    if |items| == 0 then None
    else
      var rest := LastAssigned(items[1..], n, i);
      var e := SparseEntry(items[0], n);
      if rest.Some? then rest
      else if e.Success? && e.value.0 == i then Some(e.value.1)
      else None
  }

  /** Every position of a placed row holds what the last item naming it assigned. */
  lemma {:induction false} PlaceIsLastAssigned(row: seq<Option<string>>, items: seq<string>, i: nat)
    requires Place(row, items).Success? && i < |row|
    ensures Place(row, items).value[i] == (if LastAssigned(items, |row|, i).Some? then LastAssigned(items, |row|, i) else row[i])
    decreases |items|
  {
    if |items| > 0 {
      var e := SparseEntry(items[0], |row|);
      var next := row[e.value.0 := Some(e.value.1)];
      PlaceIsLastAssigned(next, items[1..], i);
    }
  }

  /** Lines 150-159: a sparse row `{i v, j w, ...}` over an all-missing row
      of one cell per attribute; the values are kept exactly as written. */
  function SparseRow(x: string, n: nat, tokenize: Tokenizer): (r: Result<seq<Option<string>>, ArffError>)
    ensures var inner := if |x| >= 2 then x[1..|x| - 1] else "";
      r.Success? <==> tokenize(inner).Some? && forall k :: 0 <= k < |tokenize(inner).value| ==> SparseEntry(tokenize(inner).value[k], n).Success?
    ensures r.Success? ==> |r.value| == n
    // each position holds the value of the last item naming it, or nothing
    ensures var inner := if |x| >= 2 then x[1..|x| - 1] else "";
      r.Success? ==> forall i :: 0 <= i < n ==> r.value[i] == LastAssigned(tokenize(inner).value, n, i)
  {
    var inner := if |x| >= 2 then x[1..|x| - 1] else "";
    match tokenize(inner)
    case None => Failure(NoParse(inner))
    case Some(items) =>
      var empty: seq<Option<string>> := seq(n, _ => None);
      var r := Place(empty, items);
      if r.Success? then
        forall i | 0 <= i < n
          ensures r.value[i] == LastAssigned(items, n, i)
        {
          PlaceIsLastAssigned(empty, items, i);
        }
        r
      else r
  }

  /** The cells one dense item contributes (lines 163-174): a blank item is
      `?`, a quoted one is stripped of quotes, any other is split into words. */
  function DenseCells(item: string): (cells: seq<string>)
    // an item of spaces only is a missing value
    ensures |Strip(item, " ")| == 0 ==> cells == ["?"]
    // an item that starts, after spaces, with a quote is one value, the quotes (not the spaces) stripped
    ensures |Strip(item, " ")| > 0 && Strip(item, " ")[0] in "'\"" ==> cells == [Strip(item, "'\"")]
    // any other item gives its white-space separated words
    ensures |Strip(item, " ")| > 0 && Strip(item, " ")[0] !in "'\"" ==> cells == Words(item)
    ensures |cells| > 0 || (|Strip(item, " ")| > 0 && IsBlank(item))
  {
    var y := Strip(item, " ");
    if |y| > 0 then
      if y[0] == '\'' || y[0] == '"' then [Strip(item, "'\"")] else Words(item)
    else ["?"]
  }

  /** The cells of the items, one item after another. */
  function DenseAll(items: seq<string>): (cells: seq<string>)
    ensures |items| == 1 ==> cells == DenseCells(items[0])
  {
    if |items| == 0 then [] else DenseCells(items[0]) + DenseAll(items[1..])
  }

  /** The items of a line read in two parts give the cells of the whole line. */
  lemma {:induction false} DenseAllAppend(a: seq<string>, b: seq<string>)
    ensures DenseAll(a + b) == DenseAll(a) + DenseAll(b)
    decreases |a|
  {
    if |a| > 0 {
      assert (a + b)[1..] == a[1..] + b;
      DenseAllAppend(a[1..], b);
    } else {
      assert a + b == b;
    }
  }

  /** Lines 160-175: a dense row, cut to the number of attributes. */
  function DenseRow(x: string, n: nat, tokenize: Tokenizer): (r: Result<seq<Option<string>>, ArffError>)
    ensures r.Success? ==> |r.value| <= n
    ensures r.Success? <==> tokenize(x).Some?
    // the cells of the items in order, the first `n` of them
    ensures r.Success? ==> var cells := DenseAll(tokenize(x).value);
      && |r.value| == (if |cells| < n then |cells| else n)
      && forall k :: 0 <= k < |r.value| ==> r.value[k] == Some(cells[k])
  {
    match tokenize(x)
    case None => Failure(NoParse(x))
    case Some(items) =>
      var cells := DenseAll(items);
      var m := if |cells| < n then |cells| else n;
      Success(seq(m, k requires 0 <= k < m => Some(cells[k])))
  }

  // ---------------------------------------------------------------------
  // The whole file
  // ---------------------------------------------------------------------

  /** `l.rstrip("\n\r").replace('\t', ' ')` */
  function CleanLine(raw: string): (l: string)
    ensures '\t' !in l
    // the kept prefix, tabs turned to spaces; only line ends are dropped
    ensures |l| <= |raw| && forall k :: 0 <= k < |l| ==> l[k] == (if raw[k] == '\t' then ' ' else raw[k])
    ensures forall k :: |l| <= k < |raw| ==> raw[k] == '\n' || raw[k] == '\r'
    ensures |l| > 0 ==> raw[|l| - 1] != '\n' && raw[|l| - 1] != '\r'
  {
    ReplaceChar(RStrip(raw, "\n\r"), '\t', ' ')
  }

  /** A line whose text before the first `%` is white space is skipped. */
  predicate IsSkipped(l: string) {
    IsBlank(Split(l, '%')[0])
  }

  lemma SkippedPrefix(l: string)
    ensures !IsSkipped(l) ==> !IsBlank(l)
  {
    var pieces := Split(l, '%');
    if !IsSkipped(l) {
      var k :| 0 <= k < |pieces[0]| && !IsSpace(pieces[0][k]);
      JoinFirstPiece(pieces, "%");
      assert l[k] == pieces[0][k];
    }
  }

  lemma JoinFirstPiece(parts: seq<string>, sep: string)
    requires |parts| > 0
    ensures StartsWith(Join(parts, sep), parts[0])
  {
  }

  /** Lines 140-227: one line of the file.  The whole line, comment
      included, is what the header and data rules see; a line that does not
      start with `@` before `@data` is still read as a header line. */
  function ReadLine(st: Reader, raw: string, tokenize: Tokenizer): (r: Result<Reader, ArffError>)
    ensures r.Success? && st.inData ==>
      && r.value.inData && r.value.name == st.name && r.value.attributes == st.attributes
      && |st.rows| <= |r.value.rows| <= |st.rows| + 1 && r.value.rows[..|st.rows|] == st.rows
      && forall k :: |st.rows| <= k < |r.value.rows| ==> |r.value.rows[k]| <= |st.attributes|
    ensures r.Success? && !st.inData ==> r.value.rows == st.rows
    ensures r.Success? ==> |st.attributes| <= |r.value.attributes| && r.value.attributes[..|st.attributes|] == st.attributes
    ensures IsSkipped(CleanLine(raw)) ==> r == Success(st)
    // before `@data` a line is a header line
    ensures var l := CleanLine(raw);
      !IsSkipped(l) && !IsBlank(l) && !st.inData ==> r == HeaderLine(st, l, tokenize)
    // after it, a line is one more row: sparse when it starts with `{`, dense otherwise
    ensures var l := CleanLine(raw);
      !IsSkipped(l) && !IsBlank(l) && st.inData ==>
        var row := if l[0] == '{' then SparseRow(l, |st.attributes|, tokenize) else DenseRow(l, |st.attributes|, tokenize);
        && (r.Success? <==> row.Success?)
        && (r.Success? ==> r.value == st.(rows := st.rows + [row.value]))
  {
    var l := CleanLine(raw);
    if IsSkipped(l) then Success(st)
    else
      SkippedPrefix(l);
      if st.inData then
        var row :- if l[0] == '{' then SparseRow(l, |st.attributes|, tokenize) else DenseRow(l, |st.attributes|, tokenize);
        assert (st.rows + [row])[..|st.rows|] == st.rows;
        Success(st.(rows := st.rows + [row]))
      else HeaderLine(st, l, tokenize)
  }

  /** No row is wider than the attribute list, and rows appear only after `@data`. */
  predicate Consistent(st: Reader) {
    && (forall k :: 0 <= k < |st.rows| ==> |st.rows[k]| <= |st.attributes|)
    && (!st.inData ==> st.rows == [])
  }

  /** One line keeps the reader consistent. */
  lemma ReadLineConsistent(st: Reader, raw: string, tokenize: Tokenizer)
    requires Consistent(st)
    ensures ReadLine(st, raw, tokenize).Success? ==> Consistent(ReadLine(st, raw, tokenize).value)
  {
    var r := ReadLine(st, raw, tokenize);
    if r.Success? && st.inData {
      forall k | 0 <= k < |r.value.rows|
        ensures |r.value.rows[k]| <= |r.value.attributes|
      {
        if k < |st.rows| {
          assert r.value.rows[k] == r.value.rows[..|st.rows|][k];
        }
      }
    }
  }

  /** The lines read in order from a reader state. */
  function ReadLines(st: Reader, lines: seq<string>, tokenize: Tokenizer): (r: Result<Reader, ArffError>)
    requires Consistent(st)
    ensures r.Success? ==> Consistent(r.value)
    ensures r.Success? && st.inData ==> r.value.attributes == st.attributes
    decreases |lines|
  {
    if |lines| == 0 then Success(st)
    else
      ReadLineConsistent(st, lines[0], tokenize);
      var next :- ReadLine(st, lines[0], tokenize);
      ReadLines(next, lines[1..], tokenize)
  }

  /** Reading one line is one step of the reader. */
  lemma ReadLinesOne(st: Reader, l: string, tokenize: Tokenizer)
    requires Consistent(st)
    ensures ReadLines(st, [l], tokenize) == ReadLine(st, l, tokenize)
  {
    assert [l][1..] == [];
  }

  /** Reading two runs of lines is reading the first, then the second from
      where the first left off; a failure in the first is the result. */
  lemma {:induction false} ReadLinesAppend(st: Reader, a: seq<string>, b: seq<string>, tokenize: Tokenizer)
    requires Consistent(st)
    ensures ReadLines(st, a + b, tokenize)
         == match ReadLines(st, a, tokenize)
            case Failure(e) => Failure(e)
            case Success(mid) => ReadLines(mid, b, tokenize)
    decreases |a|
  {
    if |a| > 0 {
      assert (a + b)[0] == a[0];
      assert (a + b)[1..] == a[1..] + b;
      ReadLineConsistent(st, a[0], tokenize);
      var next := ReadLine(st, a[0], tokenize);
      if next.Success? {
        ReadLinesAppend(next.value, a[1..], b, tokenize);
      }
    } else {
      assert a + b == b;
    }
  }

  /** What the reader builds: the domain takes the last attribute as class. */
  datatype ArffTable = ArffTable(name: string, attributes: seq<Variable>, classVar: Option<Variable>, rows: seq<seq<Option<string>>>)

  /** io.py `loadARFF_Weka` after reading the file's lines. */
  function LoadArff(lines: seq<string>, tokenize: Tokenizer): (r: Result<ArffTable, ArffError>)
    ensures r.Success? ==> forall k :: 0 <= k < |r.value.rows| ==> |r.value.rows[k]| <= |r.value.attributes|
    ensures r.Success? ==> (r.value.classVar.Some? <==> |r.value.attributes| > 0)
    ensures r.Success? && r.value.classVar.Some? ==> r.value.classVar.value == r.value.attributes[|r.value.attributes| - 1]
  {
    var st :- ReadLines(Start, lines, tokenize);
    Success(TableOf(st))
  }

  /** The table of a finished reader: the last attribute is the class. */
  function TableOf(st: Reader): (t: ArffTable)
    requires Consistent(st)
    ensures forall k :: 0 <= k < |t.rows| ==> |t.rows[k]| <= |t.attributes|
    ensures t.classVar.Some? <==> |t.attributes| > 0
    ensures t.classVar.Some? ==> t.classVar.value == t.attributes[|t.attributes| - 1]
  {
    var n := |st.attributes|;
    ArffTable(st.name, st.attributes, if n > 0 then Some(st.attributes[n - 1]) else None, st.rows)
  }

  // ---------------------------------------------------------------------
  // Writer
  // ---------------------------------------------------------------------

  /** A name or value with a space is written between single quotes. */
  function Quote(s: string): string {
    if ' ' in s then "'" + s + "'" else s
  }

  function QuoteAll(xs: seq<string>): (r: seq<string>)
    ensures |r| == |xs| && forall k :: 0 <= k < |xs| ==> r[k] == Quote(xs[k])
  {
    seq(|xs|, k requires 0 <= k < |xs| => Quote(xs[k]))
  }

  datatype ArffWriteError =
    | NoClassVariable                  // the relation is named after the class
    | EmptyValueList(name: string)     // `x[-1]` of a discrete attribute with no values

  /** Lines 256-285: the `@attribute` line of one variable. */
  function AttributeLine(v: Variable, tryNumericize: bool, isNum: string -> bool): (r: Result<string, ArffWriteError>)
    ensures r.Failure? <==> !WrittenReal(v, tryNumericize, isNum) && |v.kind.values| == 0
    ensures r.Failure? ==> r.error == EmptyValueList(v.name)
    // a variable written as real: the name, quoted when it holds a space, then `real`
    ensures WrittenReal(v, tryNumericize, isNum) ==> r == Success("@attribute " + Quote(v.name) + " real")
    // otherwise the values, each quoted when it holds a space, comma-separated between braces
    ensures !WrittenReal(v, tryNumericize, isNum) && r.Success? ==>
      r.value == "@attribute " + Quote(v.name) + " { " + Join(QuoteAll(v.kind.values), ",") + " }"
  {
    if WrittenReal(v, tryNumericize, isNum) then Success("@attribute " + Quote(v.name) + " real")
    else if |v.kind.values| == 0 then Failure(EmptyValueList(v.name))
    else Success("@attribute " + Quote(v.name) + " { " + Join(QuoteAll(v.kind.values), ",") + " }")
  }

  function AttributeLines(ats: seq<Variable>, tryNumericize: bool, isNum: string -> bool): (r: Result<seq<string>, ArffWriteError>)
    ensures r.Success? <==> forall k :: 0 <= k < |ats| ==> AttributeLine(ats[k], tryNumericize, isNum).Success?
    ensures r.Success? ==> (|r.value| == |ats|
      && forall k :: 0 <= k < |ats| ==> Success(r.value[k]) == AttributeLine(ats[k], tryNumericize, isNum))
  {
    if |ats| == 0 then Success([])
    else
      match AttributeLine(ats[0], tryNumericize, isNum)
      case Failure(e) => Failure(e)
      case Success(line) =>
        var rest := AttributeLines(ats[1..], tryNumericize, isNum);
        assert forall k :: 0 < k < |ats| ==> ats[k] == ats[1..][k - 1];
        if rest.Failure? then
          assert !forall k :: 0 <= k < |ats| - 1 ==> AttributeLine(ats[1..][k], tryNumericize, isNum).Success?;
          rest
        else Success([line] + rest.value)
  }

  /** io.py `toARFF`: the lines of the file, without their line ends.  Every
      example has one cell per attribute and one for the class. */
  function ToArff(attributes: seq<Variable>, classVar: Option<Variable>, rows: seq<seq<string>>,
                  tryNumericize: bool, isNum: string -> bool): (r: Result<seq<string>, ArffWriteError>)
    ensures classVar.None? ==> r == Failure(NoClassVariable)
    ensures r.Success? ==> var ats := attributes + [classVar.value];
      && |r.value| == 1 + |ats| + 1 + |rows|
      && r.value[0] == "@relation " + classVar.value.name
      && (forall k :: 0 <= k < |ats| ==> Success(r.value[1 + k]) == AttributeLine(ats[k], tryNumericize, isNum))
      && r.value[1 + |ats|] == "@data"
      && forall k :: 0 <= k < |rows| ==> r.value[2 + |ats| + k] == Join(QuoteAll(rows[k]), ",")
  {
    if classVar.None? then Failure(NoClassVariable)
    else
      var ats := attributes + [classVar.value];
      var header :- AttributeLines(ats, tryNumericize, isNum);
      Success(["@relation " + classVar.value.name] + header + ["@data"]
        + seq(|rows|, k requires 0 <= k < |rows| => Join(QuoteAll(rows[k]), ",")))
  }

  // ---------------------------------------------------------------------
  // Reading written lines back
  // ---------------------------------------------------------------------

  /** A word with no white space and no quote character. */
  predicate PlainWord(w: string) {
    |w| > 0 && '\'' !in w && '"' !in w && forall j :: 0 <= j < |w| ==> !IsSpace(w[j])
  }

  lemma PlainWordEnds(w: string)
    requires PlainWord(w)
    ensures ' ' !in w && '\t' !in w && w[0] !in "' " && Last(w) !in "' "
  {
    assert Last(w) == w[|w| - 1];
  }

  /** The quoted-name loop, started inside a quoted run of words, gathers
      the words up to the one carrying the closing quote. */
  lemma {:induction false} QuotedTailGathers(y: seq<string>, idx: nat, q: char, atn: string, j: nat)
    requires idx <= j < |y|
    requires forall k :: 0 <= k < |y| ==> |y[k]| > 0
    requires forall k :: idx <= k < j ==> Last(y[k]) != q
    requires Last(y[j]) == q
    ensures QuotedTail(y, idx, q, atn) == if j == idx then atn else atn + " " + Join(y[idx + 1..j + 1], " ")
    decreases j - idx
  {
    if j > idx {
      QuotedTailGathers(y, idx + 1, q, atn + " " + y[idx + 1], j);
      if j > idx + 1 {
        assert y[idx + 1..j + 1] == [y[idx + 1]] + y[idx + 2..j + 1];
      }
    }
  }

  /** The words of `@attribute '<w0 ... wm>' real`, the quote attached to the first and last word. */
  function WrittenWords(ws: seq<string>): (y: seq<string>)
    requires |ws| >= 2
    ensures |y| == |ws| + 2
    ensures y[0] == "@attribute" && y[1] == "'" + ws[0] && y[|ws|] == ws[|ws| - 1] + "'" && y[|ws| + 1] == "real"
    ensures forall k :: 2 <= k < |ws| ==> y[k] == ws[k - 1]
    ensures y == ["@attribute"] + y[1..|ws| + 1] + ["real"]
    ensures (forall k :: 0 <= k < |ws| ==> |ws[k]| > 0) ==> forall k :: 0 <= k < |y| ==> |y[k]| > 0
  {
    var m := |ws| - 1;
    var tail := ws[..m] + [ws[m] + "'"];
    ["@attribute"] + ([['\''] + tail[0]] + tail[1..]) + ["real"]
  }

  /** Written words of plain words are non-empty and hold no space. */
  lemma WrittenWordsPlain(ws: seq<string>)
    requires |ws| >= 2 && forall k :: 0 <= k < |ws| ==> PlainWord(ws[k])
    ensures var y := WrittenWords(ws); forall k :: 0 <= k < |y| ==> |y[k]| > 0 && ' ' !in y[k]
  {
    var y := WrittenWords(ws);
    forall k | 0 <= k < |y|
      ensures |y[k]| > 0 && ' ' !in y[k]
    {
      if k == 1 {
        PlainWordEnds(ws[0]);
      } else if k == |ws| {
        PlainWordEnds(ws[|ws| - 1]);
      } else if 2 <= k < |ws| {
        PlainWordEnds(ws[k - 1]);
      }
    }
  }

  /** The quoted run of words joins to the quoted name. */
  lemma QuotedRunJoin(ws: seq<string>)
    requires |ws| >= 2
    ensures Join(WrittenWords(ws)[1..|ws| + 1], " ") == "'" + Join(ws, " ") + "'"
  {
    var m := |ws| - 1;
    var tail := ws[..m] + [ws[m] + "'"];
    var mid := [['\''] + tail[0]] + tail[1..];
    assert WrittenWords(ws)[1..|ws| + 1] == mid;
    JoinLastExtended(ws, "'", " ");
    JoinConsFirst('\'', tail, " ");
  }

  /** A run of words between two more joins with spaces on both sides. */
  lemma JoinBetween(a: string, mid: seq<string>, b: string)
    requires |mid| >= 1
    ensures Join([a] + mid + [b], " ") == a + " " + Join(mid, " ") + " " + b
  {
    JoinAppend([a], mid, " ");
    JoinAppend([a] + mid, [b], " ");
  }

  /** The written line is its words joined by spaces. */
  lemma WrittenWordsJoin(ws: seq<string>)
    requires |ws| >= 2
    ensures Join(WrittenWords(ws), " ") == "@attribute " + ("'" + Join(ws, " ") + "'") + " real"
  {
    var y := WrittenWords(ws);
    var mid := y[1..|ws| + 1];
    QuotedRunJoin(ws);
    var q := Join(mid, " ");
    JoinBetween("@attribute", mid, "real");
    assert Join(y, " ") == "@attribute" + " " + q + " " + "real";
    RealShape(q);
  }

  /** The real declaration, regrouped around its name. */
  lemma RealShape(q: string)
    ensures "@attribute" + " " + q + " " + "real" == "@attribute " + q + " real"
  {
    assert "@attribute " == "@attribute" + " ";
    assert " real" == " " + "real";
  }

  /** Two or more words joined by spaces hold a space. */
  lemma JoinedHasSpace(ws: seq<string>)
    requires |ws| >= 2
    ensures ' ' in Join(ws, " ")
  {
    JoinAppend([ws[0]], ws[1..], " ");
    assert [ws[0]] + ws[1..] == ws;
    assert Join(ws, " ")[|ws[0]|] == ' ';
  }

  /** The written line is its words joined by spaces, so its words are those. */
  lemma QuotedWords(ws: seq<string>)
    requires |ws| >= 2 && forall k :: 0 <= k < |ws| ==> PlainWord(ws[k])
    ensures HeaderWords("@attribute " + Quote(Join(ws, " ")) + " real") == WrittenWords(ws)
  {
    var y := WrittenWords(ws);
    WrittenWordsJoin(ws);
    WrittenWordsPlain(ws);
    JoinedHasSpace(ws);
    assert "@attribute " + Quote(Join(ws, " ")) + " real" == Join(y, " ");
    SplitJoin(y, ' ');
    NonEmptyPiecesAll(y);
  }

  lemma RStripQuote(name: string)
    requires |name| > 0 && Last(name) !in "' "
    ensures RStrip(name + "'", "' ") == name
  {
    assert (name + "'")[..|name + "'"| - 1] == name;
  }

  /** The words of a joined name start with the first word's first character and end with the last word's last one. */
  lemma JoinEnds(ws: seq<string>)
    requires |ws| >= 1 && forall k :: 0 <= k < |ws| ==> |ws[k]| > 0
    ensures |Join(ws, " ")| > 0
    ensures Join(ws, " ")[0] == ws[0][0]
    ensures Last(Join(ws, " ")) == Last(ws[|ws| - 1])
  {
    if |ws| > 1 {
      JoinAppend([ws[0]], ws[1..], " ");
      assert [ws[0]] + ws[1..] == ws;
      JoinAppend(ws[..|ws| - 1], [ws[|ws| - 1]], " ");
      assert ws[..|ws| - 1] + [ws[|ws| - 1]] == ws;
    }
  }

  /** The name gathered from the words of a quoted name is the name. */
  lemma QuotedNameRead(ws: seq<string>)
    requires |ws| >= 2 && forall k :: 0 <= k < |ws| ==> PlainWord(ws[k])
    ensures var y := WrittenWords(ws);
      |y| >= 2 && (forall k :: 0 <= k < |y| ==> |y[k]| > 0) && AttributeName(y) == Join(ws, " ")
  {
    var y := WrittenWords(ws);
    NoEarlyClose(ws);
    OpeningWord(ws[0]);
    QuotedRun(ws);
    ClosedName(ws);
    assert y[1][0] == '\'';
  }

  /** The opening word, quote stripped, is the first word of the name. */
  lemma OpeningWord(w: string)
    requires PlainWord(w)
    ensures Strip("'" + w, "' ") == w
  {
    PlainWordEnds(w);
    assert ("'" + w)[1..] == w;
    StripKeeps(w, "' ");
  }

  /** The words gathered up to the closing quote are the name and the quote. */
  lemma QuotedRun(ws: seq<string>)
    requires |ws| >= 2 && forall k :: 0 <= k < |ws| ==> |ws[k]| > 0 && PlainWord(ws[k])
    ensures QuotedTail(WrittenWords(ws), 1, '\'', ws[0]) == Join(ws, " ") + "'"
  {
    var y := WrittenWords(ws);
    NoEarlyClose(ws);
    QuotedTailGathers(y, 1, '\'', ws[0], |ws|);
    GatheredName(ws);
  }

  /** Stripping the closing quote leaves the name. */
  lemma ClosedName(ws: seq<string>)
    requires |ws| >= 2 && forall k :: 0 <= k < |ws| ==> PlainWord(ws[k])
    ensures Strip(Join(ws, " ") + "'", "' ") == Join(ws, " ")
  {
    var name := Join(ws, " ");
    PlainWordEnds(ws[0]);
    PlainWordEnds(ws[|ws| - 1]);
    JoinEnds(ws);
    RStripQuote(name);
    assert LStrip(name + "'", "' ") == name + "'";
  }

  /** No word of the quoted run but the last ends with the quote. */
  lemma NoEarlyClose(ws: seq<string>)
    requires |ws| >= 2 && forall k :: 0 <= k < |ws| ==> PlainWord(ws[k])
    ensures var y := WrittenWords(ws);
      (forall k :: 0 <= k < |y| ==> |y[k]| > 0)
      && (forall k :: 1 <= k < |ws| ==> Last(y[k]) != '\'')
      && Last(y[|ws|]) == '\''
  {
    var y := WrittenWords(ws);
    forall k | 1 <= k < |ws|
      ensures Last(y[k]) != '\''
    {
      if k == 1 {
        PlainWordEnds(ws[0]);
        assert Last(y[1]) == Last(ws[0]);
      } else {
        PlainWordEnds(ws[k - 1]);
      }
    }
  }

  /** The gathered words, first quote dropped, are the name followed by the closing quote. */
  lemma GatheredName(ws: seq<string>)
    requires |ws| >= 2 && forall k :: 0 <= k < |ws| ==> |ws[k]| > 0
    ensures var y := WrittenWords(ws);
      ws[0] + " " + Join(y[2..|ws| + 1], " ") == Join(ws, " ") + "'"
  {
    var y := WrittenWords(ws);
    var run := y[1..|ws| + 1];
    QuotedRunJoin(ws);
    assert run[1..] == y[2..|ws| + 1];
    UnquoteRun(run, ws[0], Join(ws, " "));
  }

  /** A run of words whose join is a quoted name, and whose first word is a
      quote before `w0`, continues after `w0` with the rest of the name. */
  lemma UnquoteRun(run: seq<string>, w0: string, name: string)
    requires |run| >= 2 && run[0] == "'" + w0
    requires Join(run, " ") == "'" + name + "'"
    ensures w0 + " " + Join(run[1..], " ") == name + "'"
  {
    JoinHead(run, " ");
    var j := Join(run[1..], " ");
    assert "'" == ['\''];
    assert ("'" + w0) + " " + j == ['\''] + (w0 + " " + j);
    assert "'" + name + "'" == ['\''] + (name + "'");
    assert w0 + " " + j == (['\''] + (w0 + " " + j))[1..];
  }

  lemma JoinHead(parts: seq<string>, sep: string)
    requires |parts| >= 2
    ensures Join(parts, sep) == parts[0] + sep + Join(parts[1..], sep)
  {
  }

  /** The one-word case: the line `@attribute <name> real` has three words. */
  lemma PlainWords(w: string)
    requires PlainWord(w)
    ensures HeaderWords("@attribute " + Quote(w) + " real") == ["@attribute", w, "real"]
  {
    PlainWordEnds(w);
    var y := ["@attribute", w, "real"];
    assert Join(y[2..], " ") == "real";
    assert Join(y[1..], " ") == w + " " + "real";
    assert "@attribute " + Quote(w) + " real" == Join(y, " ");
    SplitJoin(y, ' ');
    NonEmptyPiecesAll(y);
  }

  /** The written line is kept as it is by the line clean-up and is not a comment. */
  lemma WrittenLineClean(line: string)
    requires |line| > 0 && line[0] == '@' && Last(line) != '\n' && Last(line) != '\r'
    requires '\t' !in line && '%' !in line
    ensures CleanLine(line) == line && !IsSkipped(line)
  {
    SplitNoSeparator(line, '%');
  }

  /** The characters of the written attribute line that the reader looks for. */
  lemma WrittenLineChars(ws: seq<string>)
    requires |ws| >= 1 && forall k :: 0 <= k < |ws| ==> PlainWord(ws[k]) && '{' !in ws[k] && '%' !in ws[k]
    ensures var line := "@attribute " + Quote(Join(ws, " ")) + " real";
      && '\t' !in line && '{' !in line && '%' !in line
      && |line| > 0 && line[0] == '@' && Last(line) == 'l'
  {
    var name := Join(ws, " ");
    forall k | 0 <= k < |ws|
      ensures '\t' !in ws[k]
    {
      PlainWordEnds(ws[k]);
    }
    JoinAvoids(ws, " ", '\t');
    JoinAvoids(ws, " ", '{');
    JoinAvoids(ws, " ", '%');
    var line := "@attribute " + Quote(name) + " real";
    assert line == "@attribute " + (Quote(name) + " real");
    assert Last(line) == Last(" real");
  }

  /** The words of the written attribute line: the keyword, a name that
      reads back, and the type. */
  lemma AttributeWords(ws: seq<string>)
    requires |ws| >= 1 && forall k :: 0 <= k < |ws| ==> PlainWord(ws[k])
    ensures var y := HeaderWords("@attribute " + Quote(Join(ws, " ")) + " real");
      |y| >= 2 && y[0] == "@attribute" && y[|y| - 1] == "real" && AttributeName(y) == Join(ws, " ")
  {
    if |ws| == 1 {
      assert Join(ws, " ") == ws[0];
      PlainWords(ws[0]);
      var y := ["@attribute", ws[0], "real"];
      assert AttributeName(y) == ws[0] by {
        PlainWordEnds(ws[0]);
        StripKeeps(ws[0], "' ");
      }
    } else {
      QuotedWords(ws);
      QuotedNameRead(ws);
    }
  }

  /** A header line whose words are `@attribute`, a name and `real`, and
      with no brace, appends a continuous attribute. */
  lemma RealHeaderLine(st: Reader, x: string, tokenize: Tokenizer)
    requires !IsBlank(x) && '{' !in x
    requires var y := HeaderWords(x); |y| >= 2 && y[0] == "@attribute" && y[|y| - 1] == "real"
    ensures HeaderLine(st, x, tokenize)
         == Success(st.(attributes := st.attributes + [Make(AttributeName(HeaderWords(x)), Continuous)]))
  {
    var y := HeaderWords(x);
    AttributeKeyword(y[0]);
    RealKind(x, y, tokenize);
  }

  lemma AttributeKeyword(w: string)
    requires w == "@attribute"
    ensures var key := Lower(w[1..]); key == "attribute" && key != "data" && key != "relation"
  {
    assert w[1..] == "attribute";
    LowerKeeps("attribute");
    assert "attribute"[0] != "data"[0];
    assert "attribute"[0] != "relation"[0];
  }

  lemma RealKind(x: string, y: seq<string>, tokenize: Tokenizer)
    requires '{' !in x && |y| > 0 && y[|y| - 1] == "real"
    ensures AttributeKind(x, y, tokenize) == Success(Continuous)
  {
    SplitNoSeparator(x, '{');
    LowerKeeps("real");
  }

  /** A variable written as `real` reads back as a continuous attribute of
      the same name, its name quoted and unquoted on the way when it holds
      spaces (the name is plain words separated by single spaces). */
  lemma RealAttributeReadBack(st: Reader, ws: seq<string>, tokenize: Tokenizer)
    requires !st.inData
    requires |ws| >= 1 && forall k :: 0 <= k < |ws| ==> PlainWord(ws[k]) && '{' !in ws[k] && '%' !in ws[k]
    ensures var line := "@attribute " + Quote(Join(ws, " ")) + " real";
      ReadLine(st, line, tokenize) == Success(st.(attributes := st.attributes + [Make(Join(ws, " "), Continuous)]))
  {
    var line := "@attribute " + Quote(Join(ws, " ")) + " real";
    WrittenLineChars(ws);
    WrittenLineClean(line);
    SkippedPrefix(line);
    AttributeWords(ws);
    RealHeaderLine(st, line, tokenize);
  }

  /** A discrete value the `{...}` reader gives back: a value the dense
      reader gives back, with no space at either end (the reader strips
      them) and none of the characters the line reader acts on. */
  predicate ListValue(v: string) {
    && WritableCell(v) && v[0] != ' ' && Last(v) != ' '
    && '\t' !in v && '{' !in v && '}' !in v && '%' !in v
  }

  /** One written value, quoted when it holds a space, reads back as itself. */
  lemma ItemValueRead(v: string)
    requires ListValue(v)
    ensures ItemValue(Quote(v)) == [v]
  {
    var chars := " '\"";
    if ' ' in v {
      LStripPrefix("'", v + "'", chars);
      assert "'" + v + "'" == "'" + (v + "'");
      RStripSuffix(v, "'", chars);
    } else {
      StripKeeps(v, chars);
    }
  }

  /** The written values of a discrete variable read back, value for value. */
  lemma {:induction false} ListValuesRead(vs: seq<string>)
    requires forall k :: 0 <= k < |vs| ==> ListValue(vs[k])
    ensures ListValues(QuoteAll(vs)) == vs
    decreases |vs|
  {
    if |vs| > 0 {
      calc {
        ListValues(QuoteAll(vs));
        == { QuoteAllCons(vs); }
        ListValues([Quote(vs[0])] + QuoteAll(vs[1..]));
        == { ListValuesCons(Quote(vs[0]), QuoteAll(vs[1..])); }
        ItemValue(Quote(vs[0])) + ListValues(QuoteAll(vs[1..]));
        == { ItemValueRead(vs[0]); ListValuesRead(vs[1..]); }
        [vs[0]] + vs[1..];
      }
    }
  }

  /** A character that is no quote, no comma and in no value is not in the written list. */
  lemma ValuesAvoid(vs: seq<string>, c: char)
    requires c != '\'' && c != ','
    requires forall k :: 0 <= k < |vs| ==> c !in vs[k]
    ensures c !in Join(QuoteAll(vs), ",")
  {
    JoinAvoids(QuoteAll(vs), ",", c);
  }

  /** The first two words of a line `@attribute <w> <rest>`. */
  lemma LeadingWords(w: string, rest: string)
    requires PlainWord(w)
    ensures var y := HeaderWords("@attribute " + w + " " + rest);
      |y| >= 2 && y[0] == "@attribute" && y[1] == w
  {
    PlainWordEnds(w);
    var key := "@attribute";
    var tail := w + " " + rest;
    assert "@attribute " + w + " " + rest == key + [' '] + tail;
    assert tail == w + [' '] + rest;
    SplitAtSeparator(w, rest, ' ');
    var after := [w] + Split(rest, ' ');
    assert Split(tail, ' ') == after;
    SplitAtSeparator(key, tail, ' ');
    var pieces := [key] + after;
    assert Split(key + [' '] + tail, ' ') == pieces;
    assert pieces[1..] == after && after[1..] == Split(rest, ' ');
    assert NonEmptyPieces(after) == [w] + NonEmptyPieces(Split(rest, ' '));
    assert NonEmptyPieces(pieces) == [key] + NonEmptyPieces(after);
  }

  /** The braces of a discrete declaration: one `{`, and one `}` closing the list. */
  lemma ListBraces(front: string, list: string)
    requires '{' !in front && '{' !in list && '}' !in list
    ensures var z := Split(front + "{" + list + "}", '{'); var w := Split(z[|z| - 1], '}');
      |z| == 2 && |w| == 2 && w[0] == list
  {
    assert front + "{" + list + "}" == front + ['{'] + (list + "}");
    SplitAtSeparator(front, list + "}", '{');
    assert '{' !in list + "}";
    SplitNoSeparator(list + "}", '{');
    assert list + "}" == list + ['}'] + "";
    SplitAtSeparator(list, "", '}');
  }

  /** A variable written with its list of values reads back as a discrete
      attribute of the same name and values, provided the list grammar
      returns the comma-separated items as written (the name is one plain
      word; the values hold no comma). */
  lemma DiscreteAttributeReadBack(st: Reader, v: Variable, tryNumericize: bool, isNum: string -> bool, tokenize: Tokenizer)
    requires !st.inData && !WrittenReal(v, tryNumericize, isNum) && |v.kind.values| > 0
    requires PlainWord(v.name) && '{' !in v.name && '}' !in v.name && '%' !in v.name
    requires forall k :: 0 <= k < |v.kind.values| ==> ListValue(v.kind.values[k])
    requires tokenize(" " + Join(QuoteAll(v.kind.values), ",") + " ") == Some(QuoteAll(v.kind.values))
    ensures AttributeLine(v, tryNumericize, isNum).Success?
    ensures ReadLine(st, AttributeLine(v, tryNumericize, isNum).value, tokenize)
         == Success(st.(attributes := st.attributes + [Make(v.name, v.kind)]))
  {
    var vs := v.kind.values;
    var j := Join(QuoteAll(vs), ",");
    var line := "@attribute " + Quote(v.name) + " { " + j + " }";
    assert AttributeLine(v, tryNumericize, isNum) == Success(line);
    PlainWordEnds(v.name);
    assert Quote(v.name) == v.name;
    DiscreteLineChars(v.name, vs);
    WrittenLineClean(line);
    SkippedPrefix(line);
    DiscreteHeaderLine(st, v.name, vs, tokenize);
  }

  /** The characters of the written discrete line that the reader looks for. */
  lemma DiscreteLineChars(w: string, vs: seq<string>)
    requires PlainWord(w) && '{' !in w && '}' !in w && '%' !in w
    requires forall k :: 0 <= k < |vs| ==> ListValue(vs[k])
    ensures var j := Join(QuoteAll(vs), ",");
      && '{' !in j && '}' !in j
      && var line := "@attribute " + w + " { " + j + " }";
      && '\t' !in line && '%' !in line && |line| > 0 && line[0] == '@' && Last(line) == '}'
  {
    var j := Join(QuoteAll(vs), ",");
    ValuesAvoid(vs, '{');
    ValuesAvoid(vs, '}');
    ValuesAvoid(vs, '%');
    ValuesAvoid(vs, '\t');
    PlainWordEnds(w);
    assert '\t' !in w;
    var line := "@attribute " + w + " { " + j + " }";
    assert line == "@attribute " + w + " { " + (j + " }");
    assert Last(line) == Last(" }");
  }

  /** The discrete declaration as a header line: its name, then its values. */
  lemma DiscreteHeaderLine(st: Reader, w: string, vs: seq<string>, tokenize: Tokenizer)
    requires PlainWord(w) && '{' !in w && '}' !in w && '%' !in w
    requires forall k :: 0 <= k < |vs| ==> ListValue(vs[k])
    requires tokenize(" " + Join(QuoteAll(vs), ",") + " ") == Some(QuoteAll(vs))
    ensures var line := "@attribute " + w + " { " + Join(QuoteAll(vs), ",") + " }";
      !IsBlank(line)
      && HeaderLine(st, line, tokenize) == Success(st.(attributes := st.attributes + [Make(w, Discrete(vs))]))
  {
    var line := "@attribute " + w + " { " + Join(QuoteAll(vs), ",") + " }";
    DiscreteLineWords(w, Join(QuoteAll(vs), ","));
    DiscreteKind(w, vs, HeaderWords(line), tokenize);
  }

  /** The words of the discrete declaration: the keyword, then the name. */
  lemma DiscreteLineWords(w: string, j: string)
    requires PlainWord(w)
    ensures var line := "@attribute " + w + " { " + j + " }"; var y := HeaderWords(line);
      !IsBlank(line) && |y| >= 2 && Keyword(line) == "attribute" && AttributeName(y) == w
  {
    var line := "@attribute " + w + " { " + j + " }";
    assert line[0] == '@';
    LeadingWords(w, "{ " + j + " }");
    assert line == "@attribute " + w + " " + ("{ " + j + " }");
    var y := HeaderWords(line);
    AttributeKeyword(y[0]);
    PlainWordEnds(w);
  }

  /** The braces of the discrete declaration hold the written values, which read back. */
  lemma DiscreteKind(w: string, vs: seq<string>, y: seq<string>, tokenize: Tokenizer)
    requires PlainWord(w) && '{' !in w && '}' !in w && '%' !in w
    requires forall k :: 0 <= k < |vs| ==> ListValue(vs[k])
    requires tokenize(" " + Join(QuoteAll(vs), ",") + " ") == Some(QuoteAll(vs))
    requires |y| > 0
    ensures AttributeKind("@attribute " + w + " { " + Join(QuoteAll(vs), ",") + " }", y, tokenize) == Success(Discrete(vs))
  {
    DiscreteLineChars(w, vs);
    DiscreteBraces(w, Join(QuoteAll(vs), ","));
    ListValuesRead(vs);
  }

  /** The text between the braces of the discrete declaration is the list as written. */
  lemma DiscreteBraces(w: string, j: string)
    requires PlainWord(w) && '{' !in w && '{' !in j && '}' !in j
    ensures var z := Split("@attribute " + w + " { " + j + " }", '{'); var b := Split(z[|z| - 1], '}');
      |z| == 2 && |b| == 2 && b[0] == " " + j + " "
  {
    var list := " " + j + " ";
    var front := "@attribute " + w + " ";
    assert '{' !in front;
    assert '{' !in list && '}' !in list;
    ListBraces(front, list);
    BracedShape("@attribute " + w, j);
  }

  /** The discrete declaration, regrouped around its braces. */
  lemma BracedShape(a: string, j: string)
    ensures a + " { " + j + " }" == (a + " ") + "{" + (" " + j + " ") + "}"
  {
    assert " { " == " " + "{" + " ";
    assert " }" == " " + "}";
  }

  /** A name without a space is written unquoted, so a real variable named
      `a{b}` is declared `@attribute a{b} real`, which the reader takes for a
      discrete attribute whose only value is the text between the braces. */
  lemma BraceNameMisread(st: Reader, a: string, b: string, tryNumericize: bool, isNum: string -> bool, tokenize: Tokenizer)
    requires !st.inData
    requires PlainWord(a) && '{' !in a && '}' !in a && '%' !in a
    requires PlainWord(b) && '{' !in b && '}' !in b && '%' !in b
    requires tokenize(b) == Some([b])
    ensures var name := a + "{" + b + "}";
      AttributeLine(Make(name, Continuous), tryNumericize, isNum) == Success("@attribute " + name + " real")
    ensures var name := a + "{" + b + "}";
      ReadLine(st, "@attribute " + name + " real", tokenize)
        == Success(st.(attributes := st.attributes + [Make(name, Discrete([b]))]))
  {
    var name := a + "{" + b + "}";
    var line := "@attribute " + name + " real";
    BraceName(a, b);
    assert Quote(name) == name;
    BraceLineChars(name);
    WrittenLineClean(line);
    SkippedPrefix(line);
    BraceHeaderLine(st, a, b, tokenize);
  }

  /** The declaration of `a{b}` as a header line. */
  lemma BraceHeaderLine(st: Reader, a: string, b: string, tokenize: Tokenizer)
    requires PlainWord(a) && '{' !in a && '%' !in a
    requires PlainWord(b) && '{' !in b && '}' !in b && '%' !in b
    requires tokenize(b) == Some([b])
    ensures var name := a + "{" + b + "}"; var line := "@attribute " + name + " real";
      !IsBlank(line)
      && HeaderLine(st, line, tokenize) == Success(st.(attributes := st.attributes + [Make(name, Discrete([b]))]))
  {
    var name := a + "{" + b + "}";
    var line := "@attribute " + name + " real";
    BraceName(a, b);
    assert line[0] == '@';
    LeadingWords(name, "real");
    RealSpace("@attribute " + name);
    var y := HeaderWords(line);
    AttributeKeyword(y[0]);
    assert AttributeName(y) == name;
    BraceNameKind(a, b, y, tokenize);
  }

  /** The name `a{b}` is one plain word, starting as `a` does. */
  lemma BraceName(a: string, b: string)
    requires PlainWord(a) && PlainWord(b) && '%' !in a && '%' !in b
    ensures var name := a + "{" + b + "}";
      PlainWord(name) && name[0] == a[0] && '%' !in name
  {
    var name := a + "{" + b + "}";
    forall j | 0 <= j < |name|
      ensures !IsSpace(name[j]) && name[j] != '\'' && name[j] != '"' && name[j] != '%'
    {
      if j < |a| {
        assert name[j] == a[j];
      } else if j == |a| {
        assert name[j] == '{';
      } else if j < |a| + 1 + |b| {
        assert name[j] == b[j - |a| - 1];
      } else {
        assert name[j] == '}';
      }
    }
  }

  /** The characters of a `real` declaration of a plain name that the reader looks for. */
  lemma BraceLineChars(name: string)
    requires PlainWord(name) && '%' !in name
    ensures var line := "@attribute " + name + " real";
      '\t' !in line && '%' !in line && |line| > 0 && line[0] == '@' && Last(line) == 'l'
  {
    PlainWordEnds(name);
    assert '\t' !in name;
    var line := "@attribute " + name + " real";
    assert line == "@attribute " + (name + " real");
    assert Last(line) == Last(" real");
  }

  lemma RealSpace(a: string)
    ensures a + " real" == a + " " + "real"
  {
    assert " real" == " " + "real";
  }

  /** The brace in the name opens the value list `b`. */
  lemma BraceNameKind(a: string, b: string, y: seq<string>, tokenize: Tokenizer)
    requires PlainWord(b) && '{' !in a && '{' !in b && '}' !in b
    requires |y| > 0 && tokenize(b) == Some([b])
    ensures AttributeKind("@attribute " + (a + "{" + b + "}") + " real", y, tokenize) == Success(Discrete([b]))
  {
    var front, back := "@attribute " + a, b + "} real";
    BraceShape(a, b);
    assert '{' !in front && '{' !in back;
    SplitAtSeparator(front, back, '{');
    SplitNoSeparator(back, '{');
    assert back == b + ['}'] + " real";
    SplitAtSeparator(b, " real", '}');
    PlainWordEnds(b);
    StripKeeps(b, " '\"");
    assert ListValues([b]) == ItemValue(b) == [b];
  }

  /** The `real` declaration of `a{b}`, regrouped around its brace. */
  lemma BraceShape(a: string, b: string)
    ensures "@attribute " + (a + "{" + b + "}") + " real" == ("@attribute " + a) + ['{'] + (b + "} real")
  {
    assert "}" + " real" == "} real";
  }

  /** A value with a tab but no space is written bare, and the reader splits
      it at the tab into two cells. */
  lemma TabCellSplits(a: string, b: string)
    requires PlainWord(a) && PlainWord(b)
    ensures Quote(a + "\t" + b) == a + "\t" + b
    ensures DenseCells(a + "\t" + b) == [a, b]
  {
    var c := a + "\t" + b;
    TabCellShape(a, b);
    StripKeeps(c, " ");
    TabCellWords(a, b);
  }

  /** The cell `a<tab>b` has no space, and starts and ends with its words' ends. */
  lemma TabCellShape(a: string, b: string)
    requires PlainWord(a) && PlainWord(b)
    ensures var c := a + "\t" + b;
      && ' ' !in c && |c| > 0 && c[0] == a[0] && c[|c| - 1] == Last(b)
      && c[0] !in " '\"" && c[|c| - 1] != ' '
  {
    var c := a + "\t" + b;
    PlainWordEnds(a);
    PlainWordEnds(b);
    assert forall j :: 0 <= j < |c| ==> c[j] == (if j < |a| then a[j] else if j == |a| then '\t' else b[j - |a| - 1]);
  }

  /** A tab between two words splits them. */
  lemma TabCellWords(a: string, b: string)
    requires PlainWord(a) && PlainWord(b)
    ensures Words(a + "\t" + b) == [a, b]
  {
    assert a + "\t" + b == a + ['\t'] + b;
    WordsAtSpace(a, '\t', b);
    WordsOfJoin([a]);
    WordsOfJoin([b]);
  }

  /** A value `toARFF` writes that the dense reader gives back: non-empty,
      free of quote characters, and either holding a space (so it is written
      quoted) or holding no white space at all. */
  predicate WritableCell(c: string) {
    && |c| > 0 && '\'' !in c && '"' !in c
    && (' ' !in c ==> forall j :: 0 <= j < |c| ==> !IsSpace(c[j]))
  }

  /** Stripping the quotes from a quoted value gives the value back. */
  lemma UnquoteCell(c: string)
    requires |c| > 0 && '\'' !in c && '"' !in c
    ensures Strip("'" + c + "'", "'\"") == c
  {
    var q := "'" + c + "'";
    assert q[1..] == c + "'";
    assert LStrip(c + "'", "'\"") == c + "'" by {
      assert (c + "'")[0] == c[0];
    }
    assert (c + "'")[..|c|] == c;
    assert RStrip(c, "'\"") == c by {
      assert c[|c| - 1] in c;
    }
  }

  /** One written value reads back as exactly that value. */
  lemma DenseCellRead(c: string)
    requires WritableCell(c)
    ensures DenseCells(Quote(c)) == [c]
  {
    if ' ' in c {
      QuotedCellRead(c);
    } else {
      BareCellRead(c);
    }
  }

  /** A value holding a space is written quoted and read back unquoted. */
  lemma QuotedCellRead(c: string)
    requires WritableCell(c) && ' ' in c
    ensures DenseCells("'" + c + "'") == [c]
  {
    var q := "'" + c + "'";
    assert q[0] == '\'' && q[|q| - 1] == '\'';
    StripKeeps(q, " ");
    UnquoteCell(c);
  }

  /** A value without white space is written as it is and read back as one word. */
  lemma BareCellRead(c: string)
    requires WritableCell(c) && ' ' !in c
    ensures DenseCells(c) == [c]
  {
    BareEnds(c);
    StripKeeps(c, " ");
    WordsOfWord(c, "");
    assert "" + c == c;
    DenseWord(c);
  }

  lemma BareEnds(c: string)
    requires WritableCell(c) && ' ' !in c
    ensures c[0] != '\'' && c[0] != '"' && c[0] != ' ' && c[|c| - 1] != ' '
    ensures forall j :: 0 <= j < |c| ==> !IsSpace(c[j])
  {
    assert c[0] in c && c[|c| - 1] in c;
  }

  /** An unquoted item with no surrounding spaces is read as its words. */
  lemma DenseWord(item: string)
    requires |item| > 0 && item[0] != '\'' && item[0] != '"' && Strip(item, " ") == item
    ensures DenseCells(item) == Words(item)
  {
    DenseUnquoted(item, Strip(item, " "));
  }

  lemma DenseUnquoted(item: string, y: string)
    requires y == Strip(item, " ") && |y| > 0 && y[0] != '\'' && y[0] != '"'
    ensures DenseCells(item) == Words(item)
  {
  }

  /** A written row of values reads back, value for value. */
  lemma {:induction false} DenseAllRead(cells: seq<string>)
    requires forall k :: 0 <= k < |cells| ==> WritableCell(cells[k])
    ensures DenseAll(QuoteAll(cells)) == cells
    decreases |cells|
  {
    if |cells| > 0 {
      var first, rest := cells[0], cells[1..];
      calc {
        DenseAll(QuoteAll(cells));
        == { QuoteAllCons(cells); }
        DenseAll([Quote(first)] + QuoteAll(rest));
        == { DenseAllCons(Quote(first), QuoteAll(rest)); }
        DenseCells(Quote(first)) + DenseAll(QuoteAll(rest));
        == { DenseCellRead(first); DenseAllRead(rest); }
        [first] + rest;
      }
    }
  }

  lemma QuoteAllCons(xs: seq<string>)
    requires |xs| > 0
    ensures QuoteAll(xs) == [Quote(xs[0])] + QuoteAll(xs[1..])
  {
  }

  lemma DenseAllCons(x: string, ys: seq<string>)
    ensures DenseAll([x] + ys) == DenseCells(x) + DenseAll(ys)
  {
    assert ([x] + ys)[1..] == ys;
  }

  /** A data line `toARFF` writes reads back as the row it was written
      from, provided the list grammar returns the comma-separated items as
      written (values hold no comma). */
  lemma DataRowReadBack(cells: seq<string>, n: nat, tokenize: Tokenizer)
    requires |cells| <= n && forall k :: 0 <= k < |cells| ==> WritableCell(cells[k])
    requires tokenize(Join(QuoteAll(cells), ",")) == Some(QuoteAll(cells))
    ensures DenseRow(Join(QuoteAll(cells), ","), n, tokenize)
         == Success(seq(|cells|, k requires 0 <= k < |cells| => Some(cells[k])))
  {
    DenseAllRead(cells);
  }
}

=== FILE: c50.dfy ===
/** The C4.5/C5.0 writer of io.py (`toC50`, lines 315-360): a `.names`
    file declaring the class and every variable, and a `.data` file with one
    comma-separated line per example.  Values are the text `'%s' % value`
    gives, passed in already rendered. */
module C50 {
  import opened Wrappers
  import opened Text
  import opened Feature

  datatype C50Error =
    | NoClassVariable             // `t.domain.class_var.name` of a class-less table
    | EmptyValueList(name: string) // `x[-1]` of a discrete variable written with no values

  /** The lines of the two files, without line ends. */
  datatype C50Files = C50Files(names: seq<string>, data: seq<string>)

  /** Lines 326-349: the declaration of one variable, either `name: continuous.`
      or `name: v1,v2,...,vn.`. */
  function Declaration(v: Variable, tryNumericize: bool, isNum: string -> bool): (r: Result<string, C50Error>)
    ensures r.Failure? <==> !WrittenReal(v, tryNumericize, isNum) && |v.kind.values| == 0
    ensures r.Failure? ==> r.error == EmptyValueList(v.name)
    ensures r.Success? ==> StartsWith(r.value, v.name + ": ") && |r.value| > |v.name| + 2 && Last(r.value) == '.'
  {
    if WrittenReal(v, tryNumericize, isNum) then
      var line := v.name + ": " + "continuous.";
      assert line[..|v.name + ": "|] == v.name + ": ";
      Success(line)
    else if |v.kind.values| == 0 then Failure(EmptyValueList(v.name))
    else
      var line := v.name + ": " + Join(v.kind.values, ",") + ".";
      assert line[..|v.name + ": "|] == v.name + ": ";
      Success(line)
  }

  /** The text a declaration gives after `name: ` and before the final `.`. */
  function DeclaredText(name: string, line: string): string
    requires StartsWith(line, name + ": ") && |line| > |name| + 2
  {
    line[|name| + 2..|line| - 1]
  }

  /** A discrete variable's declaration lists its values: splitting the
      declared text on `,` gives them back when no value holds a comma.  A
      variable written as a number declares `continuous`. */
  lemma DeclarationReadBack(v: Variable, tryNumericize: bool, isNum: string -> bool)
    requires Declaration(v, tryNumericize, isNum).Success?
    requires v.kind.Discrete? ==> forall j :: 0 <= j < |v.kind.values| ==> ',' !in v.kind.values[j]
    ensures var line := Declaration(v, tryNumericize, isNum).value;
      && (WrittenReal(v, tryNumericize, isNum) ==> DeclaredText(v.name, line) == "continuous")
      && (!WrittenReal(v, tryNumericize, isNum) ==> Split(DeclaredText(v.name, line), ',') == v.kind.values)
  {
    var line := Declaration(v, tryNumericize, isNum).value;
    var head := v.name + ": ";
    if WrittenReal(v, tryNumericize, isNum) {
      assert line == head + "continuous.";
      assert DeclaredText(v.name, line) == (head + "continuous.")[|head|..|head| + 10];
    } else {
      var body := Join(v.kind.values, ",");
      assert line == head + body + ".";
      assert DeclaredText(v.name, line) == (head + body + ".")[|head|..|head| + |body|];
      SplitJoin(v.kind.values, ',');
    }
  }

  function Declarations(ats: seq<Variable>, tryNumericize: bool, isNum: string -> bool): (r: Result<seq<string>, C50Error>)
    ensures r.Success? <==> forall k :: 0 <= k < |ats| ==> Declaration(ats[k], tryNumericize, isNum).Success?
    ensures r.Success? ==> (|r.value| == |ats|
      && forall k :: 0 <= k < |ats| ==> Success(r.value[k]) == Declaration(ats[k], tryNumericize, isNum))
    ensures r.Failure? ==> exists k :: 0 <= k < |ats| && Declaration(ats[k], tryNumericize, isNum) == Failure(r.error)
  {
    if |ats| == 0 then Success([])
    else
      var first :- Declaration(ats[0], tryNumericize, isNum);
      var rest :- Declarations(ats[1..], tryNumericize, isNum);
      assert forall k :: 0 < k < |ats| ==> ats[k] == ats[1..][k - 1];
      Success([first] + rest)
  }

  /** Lines 354-360: one example, its values separated by commas. */
  function DataLine(cells: seq<string>): string
    requires |cells| > 0
  {
    Join(cells, ",")
  }

  /** A data line splits back into its values when no value holds a comma. */
  lemma DataLineReadBack(cells: seq<string>)
    requires |cells| > 0 && forall k :: 0 <= k < |cells| ==> ',' !in cells[k]
    ensures Split(DataLine(cells), ',') == cells
  {
    SplitJoin(cells, ',');
  }

  /** io.py `toC50`: the `.names` file starts with the class name and a
      blank line and declares every attribute and then the class; the
      `.data` file has one line per example.  Every example holds one
      rendered value per attribute and one for the class. */
  function ToC50(attributes: seq<Variable>, classVar: Option<Variable>, rows: seq<seq<string>>,
                 tryNumericize: bool, isNum: string -> bool): (r: Result<C50Files, C50Error>)
    requires classVar.Some? ==> forall k :: 0 <= k < |rows| ==> |rows[k]| == |attributes| + 1
    ensures classVar.None? ==> r == Failure(NoClassVariable)
    ensures classVar.Some? ==> var ats := attributes + [classVar.value];
      && (r.Success? <==> forall k :: 0 <= k < |ats| ==> Declaration(ats[k], tryNumericize, isNum).Success?)
      && (r.Success? ==>
            && |r.value.names| == 2 + |ats|
            && r.value.names[0] == classVar.value.name + "." && r.value.names[1] == ""
            && (forall k :: 0 <= k < |ats| ==> Success(r.value.names[2 + k]) == Declaration(ats[k], tryNumericize, isNum))
            && |r.value.data| == |rows|
            && (forall k :: 0 <= k < |rows| ==> r.value.data[k] == DataLine(rows[k])))
  {
    if classVar.None? then Failure(NoClassVariable)
    else
      match Declarations(attributes + [classVar.value], tryNumericize, isNum)
      case Failure(e) => Failure(e)
      case Success(decls) => Success(C50Files(NamesLines(classVar.value.name, decls), DataLines(rows)))
  }

  /** Lines 317-349: the `.names` file, the class name and a blank line before the declarations. */
  function NamesLines(className: string, decls: seq<string>): (lines: seq<string>)
    ensures |lines| == 2 + |decls| && lines[0] == className + "." && lines[1] == ""
    ensures forall k :: 0 <= k < |decls| ==> lines[2 + k] == decls[k]
  {
    [className + ".", ""] + decls
  }

  /** Lines 354-360: the `.data` file, one line per example. */
  function DataLines(rows: seq<seq<string>>): (lines: seq<string>)
    requires forall k :: 0 <= k < |rows| ==> |rows[k]| > 0
    ensures |lines| == |rows| && forall k :: 0 <= k < |rows| ==> lines[k] == DataLine(rows[k])
  {
    seq(|rows|, k requires 0 <= k < |rows| => DataLine(rows[k]))
  }
}

=== FILE: collate.dfy ===
/** Python's ordering of strings and the two sorts the readers and writers use:
    `sorted(set(values))` over strings, and a stable sort by an integer key. */
module Collate {

  /** Python's `a < b` on strings: code-point lexicographic order, a proper
      prefix coming first. */
  predicate Below(a: string, b: string)
    decreases |a|
  {
    if |a| == 0 then |b| > 0
    else if |b| == 0 then false
    else a[0] < b[0] || (a[0] == b[0] && Below(a[1..], b[1..]))
  }

  lemma {:induction false} BelowIrreflexive(a: string)
    ensures !Below(a, a)
    decreases |a|
  {
    if |a| > 0 {
      BelowIrreflexive(a[1..]);
    }
  }

  lemma {:induction false} BelowTransitive(a: string, b: string, c: string)
    requires Below(a, b) && Below(b, c)
    ensures Below(a, c)
    decreases |a|
  {
    if |a| > 0 && a[0] == b[0] && b[0] == c[0] {
      BelowTransitive(a[1..], b[1..], c[1..]);
    }
  }

  /** Any two different strings are ordered one way or the other. */
  lemma {:induction false} BelowTotal(a: string, b: string)
    ensures a == b || Below(a, b) || Below(b, a)
    decreases |a|
  {
    if |a| > 0 && |b| > 0 && a[0] == b[0] {
      BelowTotal(a[1..], b[1..]);
      if a[1..] == b[1..] {
        assert a == [a[0]] + a[1..] && b == [b[0]] + b[1..];
      }
    }
  }

  lemma BelowAsymmetric(a: string, b: string)
    requires Below(a, b)
    ensures !Below(b, a)
  {
    if Below(b, a) {
      BelowTransitive(a, b, a);
      BelowIrreflexive(a);
    }
  }

  /** Strictly increasing, hence free of duplicates. */
  predicate Ascending(s: seq<string>) {
    forall i, j :: 0 <= i < j < |s| ==> Below(s[i], s[j])
  }

  /** Inserts `x` into an ascending list unless it is already there. */
  function Insert(x: string, s: seq<string>): (r: seq<string>)
    requires Ascending(s)
    ensures Ascending(r)
    ensures forall v :: v in r <==> v == x || v in s
  {
    if |s| == 0 then [x]
    else if x == s[0] then s
    else if Below(x, s[0]) then
      InsertFrontAscending(x, s);
      [x] + s
    else
      BelowTotal(x, s[0]);
      var tail := Insert(x, s[1..]);
      InsertAfterHeadAscending(s[0], tail, x, s[1..]);
      [s[0]] + tail
  }

  lemma InsertFrontAscending(x: string, s: seq<string>)
    requires Ascending(s) && |s| > 0 && Below(x, s[0])
    ensures Ascending([x] + s)
  {
    var r := [x] + s;
    forall i, j | 0 <= i < j < |r|
      ensures Below(r[i], r[j])
    {
      if i == 0 {
        assert r[j] == s[j - 1];
        if j > 1 {
          BelowTransitive(x, s[0], s[j - 1]);
        }
      } else {
        assert r[i] == s[i - 1] && r[j] == s[j - 1];
      }
    }
  }

  lemma InsertAfterHeadAscending(h: string, tail: seq<string>, x: string, s: seq<string>)
    requires Ascending([h] + s) && Ascending(tail) && Below(h, x)
    requires forall v :: v in tail <==> v == x || v in s
    ensures Ascending([h] + tail)
  {
    var r := [h] + tail;
    forall i, j | 0 <= i < j < |r|
      ensures Below(r[i], r[j])
    {
      if i == 0 {
        var v := tail[j - 1];
        assert r[j] == v && r[i] == h;
        assert v in tail;
        if v != x {
          var k :| 0 <= k < |s| && s[k] == v;
          assert ([h] + s)[k + 1] == v && ([h] + s)[0] == h;
        }
      } else {
        assert r[i] == tail[i - 1] && r[j] == tail[j - 1];
      }
    }
  }

  /** `sorted(set(values))`. */
  function SortedSet(values: seq<string>): (r: seq<string>)
    ensures Ascending(r)
    ensures forall v :: v in r <==> v in values
  {
    if |values| == 0 then []
    else
      var r := Insert(values[|values| - 1], SortedSet(values[..|values| - 1]));
      assert forall v :: v in values <==> v == values[|values| - 1] || v in values[..|values| - 1] by {
        assert values == values[..|values| - 1] + [values[|values| - 1]];
      }
      r
  }

  lemma HeadIsLeast(a: seq<string>, v: string)
    requires Ascending(a) && v in a
    ensures v == a[0] || Below(a[0], v)
  {
    var k :| 0 <= k < |a| && a[k] == v;
  }

  lemma FirstIsElement(a: seq<string>)
    ensures |a| > 0 ==> a[0] in a
  {
  }

  lemma BelowAntisymmetric(a: string, b: string)
    ensures !(Below(a, b) && Below(b, a))
  {
    if Below(a, b) {
      BelowAsymmetric(a, b);
    }
  }

  /** An ascending list is determined by its elements: `SortedSet` is the one
      sorted, duplicate-free arrangement of the values. */
  lemma {:induction false} AscendingUnique(a: seq<string>, b: seq<string>)
    requires Ascending(a) && Ascending(b)
    requires forall v :: v in a <==> v in b
    ensures a == b
  {
    if |a| > 0 {
      assert a[0] in b;
      HeadIsLeast(a, b[0]);
      HeadIsLeast(b, a[0]);
      BelowAntisymmetric(a[0], b[0]);
      assert a[0] == b[0];
      forall v | v in a[1..]
        ensures v in b[1..]
      {
        var k :| 1 <= k < |a| && a[k] == v;
        assert v in b;
        var m :| 0 <= m < |b| && b[m] == v;
        BelowIrreflexive(v);
        assert m != 0;
      }
      forall v | v in b[1..]
        ensures v in a[1..]
      {
        var k :| 1 <= k < |b| && b[k] == v;
        assert v in a;
        var m :| 0 <= m < |a| && a[m] == v;
        BelowIrreflexive(v);
        assert m != 0;
      }
      AscendingUnique(a[1..], b[1..]);
      assert a == [a[0]] + a[1..] && b == [b[0]] + b[1..];
    } else {
      FirstIsElement(b);
    }
  }

  /** A duplicate-free list has as many distinct elements as entries. */
  lemma {:induction false} AscendingCardinality(s: seq<string>)
    requires Ascending(s)
    ensures |set v | v in s| == |s|
  {
    if |s| > 0 {
      var init := s[..|s| - 1];
      var last := s[|s| - 1];
      AscendingCardinality(init);
      assert (set v | v in s) == (set v | v in init) + {last} by {
        assert s == init + [last];
      }
      if last in init {
        var k :| 0 <= k < |init| && init[k] == last;
        BelowIrreflexive(last);
      }
    }
  }

  // ---------------------------------------------------------------------
  // Stable sort by an integer key
  // ---------------------------------------------------------------------

  predicate SortedBy<T>(s: seq<T>, key: T -> int) {
    forall i, j :: 0 <= i < j < |s| ==> key(s[i]) <= key(s[j])
  }

  /** Inserts `x` after every element whose key is not larger than its own. */
  function InsertBy<T>(x: T, s: seq<T>, key: T -> int): (r: seq<T>)
    requires SortedBy(s, key)
    ensures SortedBy(r, key)
    ensures multiset(r) == multiset(s) + multiset{x}
  {
    if |s| == 0 then [x]
    else if key(x) < key(s[0]) then [x] + s
    else
      var tail := InsertBy(x, s[1..], key);
      assert s == [s[0]] + s[1..];
      assert forall v :: v in tail ==> key(s[0]) <= key(v) by {
        forall v | v in tail
          ensures key(s[0]) <= key(v)
        {
          assert v in multiset(tail);
          if v != x {
            assert v in multiset(s[1..]);
            var k :| 0 <= k < |s[1..]| && s[1..][k] == v;
            assert s[k + 1] == v;
          }
        }
      }
      [s[0]] + tail
  }

  /** Python's stable `sorted(s, key=key)`. */
  function SortBy<T>(s: seq<T>, key: T -> int): (r: seq<T>)
    ensures SortedBy(r, key)
    ensures multiset(r) == multiset(s)
  {
    if |s| == 0 then []
    else
      assert s == s[..|s| - 1] + [s[|s| - 1]];
      InsertBy(s[|s| - 1], SortBy(s[..|s| - 1], key), key)
  }
}

=== FILE: column_kind.dfy ===
/** The column-kind heuristics of io.py (`is_variable_cont`,
    `is_variable_discrete`, `is_variable_string`) and the deduction of a
    column's kind from the values observed in it.  Ratios are exact reals.
    Whether a cell parses as a number (`is_val_cont`, i.e. `float(cell)`)
    is the parameter `isNum`. */
module ColumnKind {
  import opened Feature
  import opened Collate

  /** The `1e-30` that stands in for a zero count of numeric cells. */
  const Epsilon: real := 0.000_000_000_000_000_000_000_000_000_001

  /** Default cutoffs of the three heuristics and the cardinality bound. */
  const ContCutoff: real := 0.5
  const DiscreteCutoff: real := 0.3
  const StringCutoff: real := 0.75
  const MaxDiscreteValues: nat := 20

  /** `sum(map(is_val_cont, values))` */
  function NumericCount(values: seq<string>, isNum: string -> bool): (n: nat)
    ensures n <= |values|
    ensures n == |values| <==> forall i :: 0 <= i < |values| ==> isNum(values[i])
    ensures n == 0 <==> forall i :: 0 <= i < |values| ==> !isNum(values[i])
  {
    if |values| == 0 then 0
    else
      var rest := NumericCount(values[1..], isNum);
      assert forall i :: 0 < i < |values| ==> values[i] == values[1..][i - 1];
      (if isNum(values[0]) then 1 else 0) + rest
  }

  /** `len(set(values))` */
  function DistinctCount(values: seq<string>): nat {
    |set v | v in values|
  }

  /** `len(values) or 1`: the row count, with an empty column counted as one row. */
  function RowCount(values: seq<string>): (n: real)
    ensures n >= 1.0
  {
    if |values| == 0 then 1.0 else |values| as real
  }

  /** io.py `is_variable_cont(values, cutoff=cutoff)` */
  function IsVariableCont(values: seq<string>, isNum: string -> bool, cutoff: real): bool
  {
    var count := NumericCount(values, isNum);
    var cont: real := if count == 0 then Epsilon else count as real;
    cont / RowCount(values) >= cutoff
  }

  /** io.py `is_variable_discrete(values, cutoff=cutoff)` */
  function IsVariableDiscrete(values: seq<string>, isNum: string -> bool, cutoff: real): bool
  {
    if DistinctCount(values) >= MaxDiscreteValues then false
    else !IsVariableCont(values, isNum, 1.0 - cutoff)
  }

  /** io.py `is_variable_string(values, cutoff=cutoff)` */
  function IsVariableString(values: seq<string>, cutoff: real): bool
  {
    (DistinctCount(values) as real) / RowCount(values) > cutoff
  }

  /** With a positive cutoff above the `1e-30` guard, a column is continuous
      exactly when its share of numeric cells reaches the cutoff; a column
      with no numeric cell never is. */
  lemma ContinuousShare(values: seq<string>, isNum: string -> bool, cutoff: real)
    requires cutoff > Epsilon
    ensures IsVariableCont(values, isNum, cutoff)
        <==> NumericCount(values, isNum) > 0 && (NumericCount(values, isNum) as real) >= cutoff * RowCount(values)
  {
    ShareRule(NumericCount(values, isNum), RowCount(values), cutoff);
  }

  /** `is_variable_discrete`: fewer than 20 distinct values, and the share
      of numeric cells below the complementary cutoff `1 - cutoff`. */
  lemma DiscreteShare(values: seq<string>, isNum: string -> bool, cutoff: real)
    requires cutoff < 1.0 - Epsilon
    ensures IsVariableDiscrete(values, isNum, cutoff)
        <==> DistinctCount(values) < MaxDiscreteValues
             && !(NumericCount(values, isNum) > 0
                  && (NumericCount(values, isNum) as real) / RowCount(values) >= 1.0 - cutoff)
  {
    if NumericCount(values, isNum) == 0 {
      ShareAtLeast(Epsilon, RowCount(values), 1.0 - cutoff);
      GuardBelow(RowCount(values), 1.0 - cutoff);
    }
  }

  /** `is_variable_string`: the distinct values exceed `cutoff` times the row count. */
  lemma StringShare(values: seq<string>, cutoff: real)
    ensures IsVariableString(values, cutoff)
        <==> (DistinctCount(values) as real) > cutoff * RowCount(values)
  {
    ShareAbove(DistinctCount(values) as real, RowCount(values), cutoff);
  }

  /** A share exceeds a cutoff exactly when the part exceeds that fraction of the whole. */
  lemma ShareAbove(part: real, whole: real, cutoff: real)
    requires whole >= 1.0
    ensures part / whole > cutoff <==> part > cutoff * whole
  {
  }

  /** The share test of `is_variable_cont` on a count and a row count. */
  lemma ShareRule(count: nat, n: real, cutoff: real)
    requires n >= 1.0 && cutoff > Epsilon
    ensures ((if count == 0 then Epsilon else count as real) / n >= cutoff)
        <==> count > 0 && (count as real) >= cutoff * n
  {
    if count == 0 {
      ShareAtLeast(Epsilon, n, cutoff);
      GuardBelow(n, cutoff);
    } else {
      ShareAtLeast(count as real, n, cutoff);
    }
  }

  /** A share reaches a cutoff exactly when the part reaches that fraction of the whole. */
  lemma ShareAtLeast(part: real, whole: real, cutoff: real)
    requires whole >= 1.0
    ensures part / whole >= cutoff <==> part >= cutoff * whole
  {
  }

  /** The `1e-30` guard stays below any cutoff above it, scaled by a row count. */
  lemma GuardBelow(n: real, cutoff: real)
    requires n >= 1.0 && cutoff > Epsilon
    ensures Epsilon < cutoff * n
  {
    assert cutoff * n >= cutoff * 1.0;
  }

  /** With cutoff 1.0 (the resolver's call), a column is continuous exactly
      when it is non-empty and every value is numeric. */
  lemma AllNumericIsContinuous(values: seq<string>, isNum: string -> bool)
    ensures IsVariableCont(values, isNum, 1.0)
        <==> |values| > 0 && forall i :: 0 <= i < |values| ==> isNum(values[i])
  {
    ContinuousShare(values, isNum, 1.0);
  }

  /** The kind `load_csv` deduces for a column of unknown type, from its
      sorted distinct non-missing values (io.py lines 822-830). */
  function InferKind(values: seq<string>, isNum: string -> bool): Kind
  {
    if IsVariableCont(values, isNum, 1.0) then Continuous
    else if IsVariableDiscrete(values, isNum, 0.0) then Discrete(values)
    else if IsVariableString(values, StringCutoff) then String
    else String
  }

  /** The deduction in plain terms: all-numeric and non-empty is continuous;
      otherwise fewer than 20 distinct values is discrete with those values
      (an all-missing column is discrete with no values); otherwise string. */
  lemma InferKindSpec(values: seq<string>, isNum: string -> bool)
    requires Ascending(values)
    ensures var k := InferKind(values, isNum);
      && (k == Continuous <==> |values| > 0 && forall i :: 0 <= i < |values| ==> isNum(values[i]))
      && (k == Discrete(values) <==> k != Continuous && |values| < MaxDiscreteValues)
      && (k == String <==> k != Continuous && |values| >= MaxDiscreteValues)
      && (|values| == 0 ==> k == Discrete([]))
  {
    AllNumericIsContinuous(values, isNum);
    AscendingCardinality(values);
    assert 1.0 - 0.0 == 1.0;
  }

  /** The last branch of the deduction ("treat it as a string anyway") is
      never taken: a column that is neither continuous nor discrete has at
      least 20 distinct values, all different, so its uniqueness ratio is 1. */
  lemma FallbackUnreachable(values: seq<string>, isNum: string -> bool)
    requires Ascending(values)
    requires !IsVariableCont(values, isNum, 1.0)
    requires !IsVariableDiscrete(values, isNum, 0.0)
    ensures IsVariableString(values, StringCutoff)
  {
    assert DistinctCount(values) >= MaxDiscreteValues by {
      assert 1.0 - 0.0 == 1.0;
    }
    assert DistinctCount(values) == |values| by {
      AscendingCardinality(values);
    }
    RatioOne(|values|);
  }

  /** A whole share: a count divided by itself, as a row count, is 1. */
  lemma RatioOne(n: nat)
    requires n > 0
    ensures (n as real) / (n as real) == 1.0
  {
  }
}

=== FILE: csv_load.dfy ===
/** The pure body of io.py `load_csv`: given the rows the CSV reader yields
    and the caller's flags, decide which header, type and annotation rows are
    present, normalise the data rows, resolve the column types and partition
    the columns by role into the streams of a table. */
module CsvLoad {
  import opened Wrappers
  import opened Text
  import opened Feature
  import opened Collate
  import opened TabGrammar
  import opened ColumnKind

  /** The caller's options.  `hasHeader` is already decided (the sniffer is
      not modelled); `None` for the other two means "guess from the rows";
      `dk` is the comma-separated list of missing-value flags. */
  datatype Flags = Flags(
    hasHeader: bool,
    hasTypes: Option<bool>,
    hasAnnotations: Option<bool>,
    hasSimplifiedHeader: bool,
    dk: Option<string>)

  datatype LoadError =
    | NoMoreRows                            // `reader.next()` past the last row
    | ExclusiveHeaderFlags                  // simplified header with explicit type/annotation rows
    | VariableDefinition(cause: GrammarError)
    | PythonColumn(column: nat)             // Python-typed columns are not supported
    | MultipleClassVariables
    | ClassAndMultiClass

  /** The decoded header: one name, type and annotation per column, and the
      number of leading rows that are not data. */
  datatype Layout = Layout(
    names: seq<string>,
    types: seq<TypeDef>,
    annotations: seq<Option<Annotation>>,
    hasTypesRow: bool,
    hasAnnotationsRow: bool,
    skip: nat)

  function Count(b: bool): nat {
    if b then 1 else 0
  }

  /** `["F_%i" % i for i in range(n)]` */
  function DefaultNames(n: nat): (names: seq<string>)
    ensures |names| == n
    ensures forall i :: 0 <= i < n ==> names[i] == "F_" + NatToString(i)
  {
    seq(n, i requires 0 <= i < n => "F_" + NatToString(i))
  }

  /** The type row, when present: its parse, then the row after it must exist. */
  function TypesStep(rows: seq<seq<string>>, pos: nat, present: bool, given: Option<seq<TypeDef>>)
    : (r: Result<(Option<seq<TypeDef>>, nat), LoadError>)
    requires pos < |rows|
    ensures r.Success? ==> r.value.1 == pos + Count(present) && r.value.1 < |rows|
    ensures r.Success? && present ==> VarTypes(rows[pos]).Success? && r.value.0 == Some(VarTypes(rows[pos]).value)
    ensures r.Success? && !present ==> r.value.0 == given
    ensures present && !IsVarTypesRow(rows[pos]) ==> r == Failure(VariableDefinition(VarTypes(rows[pos]).error))
  {
    if !present then Success((given, pos))
    else
      match VarTypes(rows[pos])
      case Failure(e) => Failure(VariableDefinition(e))
      case Success(ts) => if pos + 1 >= |rows| then Failure(NoMoreRows) else Success((Some(ts), pos + 1))
  }

  /** The annotation row, when present: its parse, then the row after it must exist. */
  function AnnotationsStep(rows: seq<seq<string>>, pos: nat, present: bool, given: Option<seq<Annotation>>)
    : (r: Result<(Option<seq<Annotation>>, nat), LoadError>)
    requires pos < |rows|
    ensures r.Success? ==> r.value.1 == pos + Count(present) && r.value.1 < |rows|
    ensures r.Success? && present ==> VarAttributes(rows[pos]).Success? && r.value.0 == Some(VarAttributes(rows[pos]).value)
    ensures r.Success? && !present ==> r.value.0 == given
    ensures present && !IsVarAttributesRow(rows[pos]) ==> r == Failure(VariableDefinition(VarAttributes(rows[pos]).error))
  {
    if !present then Success((given, pos))
    else
      match VarAttributes(rows[pos])
      case Failure(e) => Failure(VariableDefinition(e))
      case Success(anns) => if pos + 1 >= |rows| then Failure(NoMoreRows) else Success((Some(anns), pos + 1))
  }

  /** Pads annotations with "no annotation" up to the header width (the tab
      format allows a short annotation row); a blank row means none at all. */
  function FillAnnotations(given: Option<seq<Annotation>>, width: nat): (r: seq<Option<Annotation>>)
    ensures |r| >= width
    ensures given.Some? && |given.value| > 0 ==>
      |r| == Max(|given.value|, width) && forall i :: 0 <= i < |given.value| ==> r[i] == Some(given.value[i])
    ensures forall i :: 0 <= i < |r| && (given.None? || |given.value| == 0 || i >= |given.value|) ==> r[i] == None
  {
    if given.None? || |given.value| == 0 then seq(width, _ => None)
    else
      var anns := given.value;
      seq(|anns|, i requires 0 <= i < |anns| => Some(anns[i])) + seq(width - Min(|anns|, width), _ => None)
  }

  function Min(a: nat, b: nat): nat {
    if a <= b then a else b
  }

  function Max(a: nat, b: nat): nat {
    if a >= b then a else b
  }

  /** Lines 691-749 of io.py: which leading rows are header, type and annotation rows. */
  function ReadLayout(rows: seq<seq<string>>, f: Flags): (r: Result<Layout, LoadError>)
    ensures |rows| == 0 ==> r == Failure(NoMoreRows)
    ensures |rows| > 0 && f.hasSimplifiedHeader && (f.hasTypes == Some(true) || f.hasAnnotations == Some(true))
            ==> r == Failure(ExclusiveHeaderFlags)
    ensures r.Success? ==> var l := r.value;
      // the rows skipped before the data are exactly the header rows found, and a row follows them
      && l.skip == Count(f.hasHeader) + Count(l.hasTypesRow) + Count(l.hasAnnotationsRow)
      && l.skip < |rows|
      // an explicit flag is obeyed; a guess needs a header row (and a type row for annotations)
      && (f.hasTypes.Some? ==> l.hasTypesRow == f.hasTypes.value)
      && (f.hasAnnotations.Some? ==> l.hasAnnotationsRow == f.hasAnnotations.value)
      && (f.hasTypes.None? && !f.hasHeader ==> !l.hasTypesRow)
      && (f.hasAnnotations.None? && l.hasAnnotationsRow ==> l.hasTypesRow && f.hasHeader)
      && (f.hasSimplifiedHeader ==> !l.hasTypesRow && !l.hasAnnotationsRow)
      && (f.hasHeader && !f.hasSimplifiedHeader && f.hasTypes.None? ==> (l.hasTypesRow <==> IsVarTypesRow(rows[1])))
      // every column has an annotation slot
      && |l.annotations| >= |l.names|
      && (!f.hasHeader ==> |l.names| == |rows[0]|)
  {
    if |rows| == 0 then Failure(NoMoreRows)
    else if f.hasSimplifiedHeader && (f.hasTypes == Some(true) || f.hasAnnotations == Some(true)) then
      Failure(ExclusiveHeaderFlags)
    else if Count(f.hasHeader) >= |rows| then Failure(NoMoreRows)
    else
      var simple := ParseSimplifiedHeader(rows[0]);
      var fromSimple := f.hasHeader && f.hasSimplifiedHeader;
      match ExtraRows(rows, f, if fromSimple then Some(simple.1) else None, if fromSimple then Some(simple.2) else None)
      case Failure(err) => Failure(err)
      case Success(e) => Success(LayoutOf(HeaderNames(rows[0], f, simple.0), e))
  }

  /** The extra rows of a layout that `ReadLayout` decoded. */
  function FoundExtra(rows: seq<seq<string>>, f: Flags): (e: Extra)
    requires ReadLayout(rows, f).Success?
    ensures Count(f.hasHeader) < |rows|
    ensures var simple := ParseSimplifiedHeader(rows[0]); var fromSimple := f.hasHeader && f.hasSimplifiedHeader;
      && ExtraRows(rows, f, if fromSimple then Some(simple.1) else None, if fromSimple then Some(simple.2) else None) == Success(e)
      && ReadLayout(rows, f).value == LayoutOf(HeaderNames(rows[0], f, simple.0), e)
    ensures var pos := Count(f.hasHeader); var at := pos + Count(e.hasTypesRow);
      && at < |rows|
      && (e.hasTypesRow ==> VarTypes(rows[pos]).Success? && e.types == Some(VarTypes(rows[pos]).value))
      && (e.hasAnnotationsRow ==> VarAttributes(rows[at]).Success? && e.annotations == Some(VarAttributes(rows[at]).value))
      && (f.hasAnnotations.None? && !f.hasSimplifiedHeader ==>
            (e.hasAnnotationsRow <==> f.hasHeader && e.hasTypesRow && IsVarAttributesRow(rows[at])))
  {
    var simple := ParseSimplifiedHeader(rows[0]);
    var fromSimple := f.hasHeader && f.hasSimplifiedHeader;
    ExtraRows(rows, f, if fromSimple then Some(simple.1) else None, if fromSimple then Some(simple.2) else None).value
  }

  /** The names of a decoded layout come from the header row, its simplified
      form, or are generated; without type or annotation rows, the columns
      are untyped and unannotated unless the simplified header says otherwise. */
  lemma ReadLayoutNames(rows: seq<seq<string>>, f: Flags)
    requires ReadLayout(rows, f).Success?
    ensures var l := ReadLayout(rows, f).value;
      && (!f.hasHeader ==> l.names == DefaultNames(|rows[0]|))
      && (f.hasHeader && !f.hasSimplifiedHeader ==> l.names == rows[0])
      && (f.hasHeader && f.hasSimplifiedHeader ==> l.names == ParseSimplifiedHeader(rows[0]).0)
      && (!l.hasTypesRow && !(f.hasHeader && f.hasSimplifiedHeader) ==> l.types == seq(|l.names|, _ => TUnspecified))
      && (!l.hasAnnotationsRow && !(f.hasHeader && f.hasSimplifiedHeader) ==> l.annotations == seq(|l.names|, _ => None))
      && (f.hasHeader && f.hasSimplifiedHeader && |rows[0]| > 0 ==>
            && l.types == ParseSimplifiedHeader(rows[0]).1
            && l.annotations == FillAnnotations(Some(ParseSimplifiedHeader(rows[0]).2), |l.names|))
  {
    var e := FoundExtra(rows, f);
    var simple := ParseSimplifiedHeader(rows[0]);
    if f.hasHeader && !f.hasSimplifiedHeader && |rows[0]| == 0 {
      assert DefaultNames(0) == rows[0];
    }
    if f.hasHeader && f.hasSimplifiedHeader && |rows[0]| == 0 {
      assert DefaultNames(0) == simple.0;
    }
  }

  /** The type and annotation rows of a decoded layout decode from their own
      rows, and the annotation row is guessed only after a type row. */
  lemma ReadLayoutRows(rows: seq<seq<string>>, f: Flags)
    requires ReadLayout(rows, f).Success?
    ensures var l := ReadLayout(rows, f).value; var pos := Count(f.hasHeader);
      && pos + Count(l.hasTypesRow) < |rows|
      && (l.hasTypesRow ==>
            VarTypes(rows[pos]).Success? && (|rows[pos]| > 0 ==> l.types == VarTypes(rows[pos]).value))
      && (l.hasAnnotationsRow ==>
            var at := pos + Count(l.hasTypesRow);
            VarAttributes(rows[at]).Success? && l.annotations == FillAnnotations(Some(VarAttributes(rows[at]).value), |l.names|))
      && (f.hasAnnotations.None? && !f.hasSimplifiedHeader ==>
            (l.hasAnnotationsRow <==> f.hasHeader && l.hasTypesRow && IsVarAttributesRow(rows[pos + Count(l.hasTypesRow)])))
  {
    var e := FoundExtra(rows, f);
    var simple := ParseSimplifiedHeader(rows[0]);
    LayoutOfRows(HeaderNames(rows[0], f, simple.0), e, ReadLayout(rows, f).value);
  }

  lemma LayoutOfRows(names: seq<string>, e: Extra, l: Layout)
    requires l == LayoutOf(names, e)
    ensures l.hasTypesRow == e.hasTypesRow && l.hasAnnotationsRow == e.hasAnnotationsRow && l.names == names
    ensures e.types.Some? && |e.types.value| > 0 ==> l.types == e.types.value
    ensures l.annotations == FillAnnotations(e.annotations, |names|)
  {
  }

  /** Lines 700-706 and 734-736: the column names, from the header row (or its simplified
      form) when there is one, else `F_0`, `F_1`, ... for the first row's width. */
  function HeaderNames(first: seq<string>, f: Flags, simpleNames: seq<string>): (names: seq<string>)
    ensures !f.hasHeader ==> names == DefaultNames(|first|)
    ensures f.hasHeader && !f.hasSimplifiedHeader ==> names == first
    ensures f.hasHeader && f.hasSimplifiedHeader ==>
      names == (if |simpleNames| == 0 then DefaultNames(|first|) else simpleNames)
  {
    var header: Option<seq<string>> :=
      if !f.hasHeader then None else if f.hasSimplifiedHeader then Some(simpleNames) else Some(first);
    if header.None? || |header.value| == 0 then DefaultNames(|first|) else header.value
  }

  /** The layout of the names and the rows after them: a type per name (none
      declared means "deduce") and an annotation slot per name. */
  function LayoutOf(names: seq<string>, e: Extra): (l: Layout)
    ensures l.names == names && |l.annotations| >= |names|
    ensures l.hasTypesRow == e.hasTypesRow && l.hasAnnotationsRow == e.hasAnnotationsRow && l.skip == e.skip
    ensures e.types.Some? && |e.types.value| > 0 ==> l.types == e.types.value
    ensures e.types.None? || |e.types.value| == 0 ==> l.types == seq(|names|, _ => TUnspecified)
    ensures l.annotations == FillAnnotations(e.annotations, |names|)
  {
    var typeList := if e.types.None? || |e.types.value| == 0 then seq(|names|, _ => TUnspecified) else e.types.value;
    Layout(names, typeList, FillAnnotations(e.annotations, |names|), e.hasTypesRow, e.hasAnnotationsRow, e.skip)
  }

  /** The type and annotation rows found after the header row, and the rows they take. */
  datatype Extra = Extra(
    hasTypesRow: bool,
    types: Option<seq<TypeDef>>,
    hasAnnotationsRow: bool,
    annotations: Option<seq<Annotation>>,
    skip: nat)

  /** Lines 708-732: whether a type row and an annotation row follow the
      header (explicitly, or guessed when the flag is `None`), their parse,
      and the number of leading rows up to the first data row. */
  function ExtraRows(rows: seq<seq<string>>, f: Flags, typesGiven: Option<seq<TypeDef>>, annotationsGiven: Option<seq<Annotation>>)
    : (r: Result<Extra, LoadError>)
    requires Count(f.hasHeader) < |rows|
    requires f.hasSimplifiedHeader ==> f.hasTypes != Some(true) && f.hasAnnotations != Some(true)
    ensures r.Success? ==> var e := r.value; var pos := Count(f.hasHeader);
      && e.skip == pos + Count(e.hasTypesRow) + Count(e.hasAnnotationsRow)
      && e.skip < |rows|
      && (f.hasTypes.Some? ==> e.hasTypesRow == f.hasTypes.value)
      && (f.hasAnnotations.Some? ==> e.hasAnnotationsRow == f.hasAnnotations.value)
      && (f.hasTypes.None? && !f.hasHeader ==> !e.hasTypesRow)
      && (f.hasAnnotations.None? && e.hasAnnotationsRow ==> e.hasTypesRow && f.hasHeader)
      && (f.hasSimplifiedHeader ==> !e.hasTypesRow && !e.hasAnnotationsRow)
      && (f.hasHeader && !f.hasSimplifiedHeader && f.hasTypes.None? ==> (e.hasTypesRow <==> IsVarTypesRow(rows[1])))
      && (e.hasTypesRow ==> VarTypes(rows[pos]).Success? && e.types == Some(VarTypes(rows[pos]).value))
      && (!e.hasTypesRow ==> e.types == typesGiven)
      && (e.hasAnnotationsRow ==>
            var at := pos + Count(e.hasTypesRow);
            VarAttributes(rows[at]).Success? && e.annotations == Some(VarAttributes(rows[at]).value))
      && (!e.hasAnnotationsRow ==> e.annotations == annotationsGiven)
      // the annotation row is guessed from the row after the type row, and only after a type row
      && (f.hasAnnotations.None? && !f.hasSimplifiedHeader ==>
            (e.hasAnnotationsRow <==> f.hasHeader && e.hasTypesRow && IsVarAttributesRow(rows[pos + Count(e.hasTypesRow)])))
  {
    var pos := Count(f.hasHeader);
    var hasTypes :=
      if f.hasTypes.None? && !f.hasSimplifiedHeader then f.hasHeader && IsVarTypesRow(rows[pos])
      else f.hasTypes == Some(true);
    match TypesStep(rows, pos, hasTypes, typesGiven)
    case Failure(err) => Failure(err)
    case Success((types, pos2)) => AfterTypes(rows, f, hasTypes, types, pos2, annotationsGiven)
  }

  /** Lines 721-732: the annotation row, once the type row (if any) is
      decoded and `pos` is the row after it. */
  function AfterTypes(rows: seq<seq<string>>, f: Flags, hasTypes: bool, types: Option<seq<TypeDef>>, pos: nat,
                      annotationsGiven: Option<seq<Annotation>>)
    : (r: Result<Extra, LoadError>)
    requires pos < |rows|
    requires f.hasSimplifiedHeader ==> f.hasAnnotations != Some(true)
    ensures r.Success? ==> var e := r.value;
      && e.hasTypesRow == hasTypes && e.types == types
      && e.skip == pos + Count(e.hasAnnotationsRow) && e.skip < |rows|
      && (f.hasAnnotations.Some? ==> e.hasAnnotationsRow == f.hasAnnotations.value)
      && (f.hasSimplifiedHeader ==> !e.hasAnnotationsRow)
      && (e.hasAnnotationsRow ==> VarAttributes(rows[pos]).Success? && e.annotations == Some(VarAttributes(rows[pos]).value))
      && (!e.hasAnnotationsRow ==> e.annotations == annotationsGiven)
      // guessed from the row itself, and only after a header and a type row
      && (f.hasAnnotations.None? && !f.hasSimplifiedHeader ==>
            (e.hasAnnotationsRow <==> f.hasHeader && hasTypes && IsVarAttributesRow(rows[pos])))
  {
    var hasAnnotations :=
      if f.hasAnnotations.None? && !f.hasSimplifiedHeader then f.hasHeader && hasTypes && IsVarAttributesRow(rows[pos])
      else f.hasAnnotations == Some(true);
    match AnnotationsStep(rows, pos, hasAnnotations, annotationsGiven)
    case Failure(err) => Failure(err)
    case Success((annotations, next)) => Success(Extra(hasTypes, types, hasAnnotations, annotations, next))
  }

  // ---------------------------------------------------------------------
  // Data rows
  // ---------------------------------------------------------------------

  const DefaultMissing: seq<string> := ["?", "", "NA", "~", "*"]

  /** `DK.split(",")` when given, else the default flags. */
  function MissingFlags(dk: Option<string>): (flags: seq<string>)
    ensures dk.None? ==> flags == DefaultMissing
    ensures dk.Some? ==> Join(flags, ",") == dk.value
    ensures dk.Some? ==> forall k :: 0 <= k < |flags| ==> ',' !in flags[k]
  {
    if dk.Some? then Split(dk.value, ',') else DefaultMissing
  }

  /** `missing_translate`: every missing flag becomes `?`. */
  function Translate(cell: string, missing: seq<string>): string {
    if cell in missing then "?" else cell
  }

  /** A non-empty row, translated, then padded with `?` or cut to `width` cells. */
  function NormalizeRow(row: seq<string>, width: nat, missing: seq<string>): (r: seq<string>)
    ensures |r| == width
    ensures forall i :: 0 <= i < width ==>
      r[i] == (if i < |row| then (if row[i] in missing then "?" else row[i]) else "?")
  {
    seq(width, i requires 0 <= i < width => if i < |row| then Translate(row[i], missing) else "?")
  }

  /** The rows the reader yields that are not empty (a blank line yields `[]`). */
  function NonEmptyRows(rows: seq<seq<string>>): (r: seq<seq<string>>)
    ensures |r| <= |rows|
    ensures forall k :: 0 <= k < |r| ==> |r[k]| > 0 && r[k] in rows
    ensures forall row :: row in rows && |row| > 0 ==> row in r
    // one row is kept exactly when it is not empty
    ensures |rows| == 0 ==> r == []
    ensures |rows| == 1 ==> r == if |rows[0]| > 0 then rows else []
  {
    if |rows| == 0 then []
    else if |rows[0]| == 0 then NonEmptyRows(rows[1..])
    else [rows[0]] + NonEmptyRows(rows[1..])
  }

  /** Rows read in two parts keep, in order, the non-empty rows of each part:
      together with the one-row cases, every non-empty row is kept once and
      in place. */
  lemma {:induction false} NonEmptyRowsAppend(a: seq<seq<string>>, b: seq<seq<string>>)
    ensures NonEmptyRows(a + b) == NonEmptyRows(a) + NonEmptyRows(b)
    decreases |a|
  {
    if |a| > 0 {
      assert (a + b)[1..] == a[1..] + b;
      assert (a + b)[0] == a[0];
      NonEmptyRowsAppend(a[1..], b);
    } else {
      assert a + b == b;
    }
  }

  /** Lines 792-810 of io.py: the stored data rows. */
  function NormalizeRows(rows: seq<seq<string>>, width: nat, missing: seq<string>): (data: seq<seq<string>>)
    ensures |data| == |NonEmptyRows(rows)|
    ensures forall k :: 0 <= k < |data| ==> |data[k]| == width
    ensures forall k, i :: 0 <= k < |data| && 0 <= i < width ==>
      var src := NonEmptyRows(rows)[k];
      data[k][i] == (if i < |src| then (if src[i] in missing then "?" else src[i]) else "?")
  {
    var src := NonEmptyRows(rows);
    seq(|src|, k requires 0 <= k < |src| => NormalizeRow(src[k], width, missing))
  }

  /** A stored row keeps the original cells of its prefix, missing flags
      turned into `?`, and nothing else. */
  lemma NormalizedPrefix(row: seq<string>, width: nat, missing: seq<string>)
    requires forall i :: 0 <= i < |row| ==> row[i] !in missing
    ensures var r := NormalizeRow(row, width, missing);
      |row| <= width ==> r == row + seq(width - |row|, _ => "?")
    ensures var r := NormalizeRow(row, width, missing);
      |row| >= width ==> r == row[..width]
  {
  }

  // ---------------------------------------------------------------------
  // Type resolution
  // ---------------------------------------------------------------------

  function ColumnValues(data: seq<seq<string>>, i: nat): (col: seq<string>)
    requires forall k :: 0 <= k < |data| ==> i < |data[k]|
    ensures |col| == |data|
  {
    seq(|data|, k requires 0 <= k < |data| => data[k][i])
  }

  function WithoutMissing(values: seq<string>, missing: seq<string>): (r: seq<string>)
    ensures forall v :: v in r <==> v in values && v !in missing
  {
    if |values| == 0 then []
    else if values[0] in missing then WithoutMissing(values[1..], missing)
    else [values[0]] + WithoutMissing(values[1..], missing)
  }

  /** `sorted(var_def.values - set(missing_flags))` for column `i`. */
  function Observed(data: seq<seq<string>>, i: nat, missing: seq<string>): (vs: seq<string>)
    requires forall k :: 0 <= k < |data| ==> i < |data[k]|
    ensures Ascending(vs)
    ensures forall v :: v in vs <==> v !in missing && exists k :: 0 <= k < |data| && data[k][i] == v
  {
    var col := ColumnValues(data, i);
    var vs := SortedSet(WithoutMissing(col, missing));
    assert forall v :: v in col <==> exists k :: 0 <= k < |data| && data[k][i] == v by {
      forall v | v in col
        ensures exists k :: 0 <= k < |data| && data[k][i] == v
      {
        var k :| 0 <= k < |col| && col[k] == v;
      }
      forall v | exists k :: 0 <= k < |data| && data[k][i] == v
        ensures v in col
      {
        var k :| 0 <= k < |data| && data[k][i] == v;
        assert col[k] == v;
      }
    }
    vs
  }

  /** Lines 768-790 and 816-830: the kind a column ends with. */
  function ResolveKind(t: TypeDef, observed: seq<string>, isNum: string -> bool): Kind
    requires t != TPython
  {
    match t
    case TContinuous => Continuous
    case TString => String
    case TDiscreteList(vs) => Discrete(vs)
    case TDiscrete => Discrete(observed)
    case TUnspecified => InferKind(observed, isNum)
  }

  /** The first Python-typed column, if any. */
  function FirstPython(types: seq<TypeDef>): (r: Option<nat>)
    ensures r.None? <==> forall i :: 0 <= i < |types| ==> types[i] != TPython
    ensures r.Some? ==> r.value < |types| && types[r.value] == TPython
                        && forall j :: 0 <= j < r.value ==> types[j] != TPython
  {
    if |types| == 0 then None
    else if types[0] == TPython then Some(0)
    else
      match FirstPython(types[1..])
      case None => None
      case Some(i) => Some(i + 1)
  }

  // ---------------------------------------------------------------------
  // Role partition
  // ---------------------------------------------------------------------

  function RoleOf(a: Option<Annotation>): Option<Role> {
    if a.Some? then a.value.role else None
  }

  function LabelsOf(a: Option<Annotation>): Labels {
    if a.Some? then a.value.labels else []
  }

  predicate Increasing(idx: seq<nat>) {
    forall k, l :: 0 <= k < l < |idx| ==> idx[k] < idx[l]
  }

  /** The columns, from `from` on, whose role is `target`, in column order. */
  function IndicesFrom(roles: seq<Option<Role>>, target: Option<Role>, from: nat): (r: seq<nat>)
    requires from <= |roles|
    ensures Increasing(r)
    ensures forall k :: 0 <= k < |r| ==> from <= r[k] < |roles| && roles[r[k]] == target
    ensures forall i :: from <= i < |roles| && roles[i] == target ==> i in r
    decreases |roles| - from
  {
    if from == |roles| then []
    else
      var rest := IndicesFrom(roles, target, from + 1);
      if roles[from] == target then [from] + rest else rest
  }

  /** The column indices of each stream. */
  datatype Streams = Streams(
    attributes: seq<nat>,
    classes: seq<nat>,
    multiclass: seq<nat>,
    metas: seq<nat>,
    ignored: seq<nat>)

  /** Lines 846-872: every column goes to exactly one stream, chosen by its
      role (no role means attribute), and each stream keeps column order. */
  function Partition(roles: seq<Option<Role>>): (s: Streams)
    ensures Increasing(s.attributes) && Increasing(s.classes) && Increasing(s.multiclass)
         && Increasing(s.metas) && Increasing(s.ignored)
    ensures forall i :: 0 <= i < |roles| ==>
      && (i in s.attributes <==> roles[i] == None)
      && (i in s.classes <==> roles[i] == Some(Class))
      && (i in s.multiclass <==> roles[i] == Some(MultiClass))
      && (i in s.metas <==> roles[i] == Some(Meta))
      && (i in s.ignored <==> roles[i] == Some(Ignore))
    ensures forall k :: 0 <= k < |s.attributes| ==> s.attributes[k] < |roles|
    ensures forall k :: 0 <= k < |s.classes| ==> s.classes[k] < |roles|
    ensures forall k :: 0 <= k < |s.multiclass| ==> s.multiclass[k] < |roles|
    ensures forall k :: 0 <= k < |s.metas| ==> s.metas[k] < |roles|
    ensures forall k :: 0 <= k < |s.ignored| ==> s.ignored[k] < |roles|
  {
    Streams(
      IndicesFrom(roles, None, 0),
      IndicesFrom(roles, Some(Class), 0),
      IndicesFrom(roles, Some(MultiClass), 0),
      IndicesFrom(roles, Some(Meta), 0),
      IndicesFrom(roles, Some(Ignore), 0))
  }

  function Project<T>(xs: seq<T>, idx: seq<nat>): (r: seq<T>)
    requires forall k :: 0 <= k < |idx| ==> idx[k] < |xs|
    ensures |r| == |idx|
    ensures forall k :: 0 <= k < |idx| ==> r[k] == xs[idx[k]]
  {
    seq(|idx|, k requires 0 <= k < |idx| => xs[idx[k]])
  }

  // ---------------------------------------------------------------------
  // The table
  // ---------------------------------------------------------------------

  /** The typed table: the domain's variables and, per data row, the cells
      of the normal part (attributes then class), the meta part and the
      multi-class part.  Meta variables are keyed by fresh ids. */
  datatype Table = Table(
    attributes: seq<Variable>,
    classVar: Option<Variable>,
    classVars: seq<Variable>,
    metas: seq<(int, Variable)>,
    normal: seq<seq<string>>,
    metaValues: seq<seq<string>>,
    classValues: seq<seq<string>>)

  /** The columns with their resolved variables and roles, and the stored rows. */
  datatype Columns = Columns(vars: seq<Variable>, roles: seq<Option<Role>>, data: seq<seq<string>>)

  predicate WellFormed(c: Columns) {
    |c.vars| == |c.roles| && forall k :: 0 <= k < |c.data| ==> |c.vars| <= |c.data[k]|
  }

  /** Lines 763-830: one variable per column, its kind resolved from the
      declared type and, when needed, from the stored values. */
  function BuildColumns(l: Layout, data: seq<seq<string>>, missing: seq<string>, isNum: string -> bool): (c: Columns)
    requires |l.annotations| >= |l.names|
    requires forall i :: 0 <= i < Min(|l.names|, |l.types|) ==> l.types[i] != TPython
    requires forall k :: 0 <= k < |data| ==> |data[k]| == |l.names|
    ensures WellFormed(c) && c.data == data
    ensures |c.vars| == Min(|l.names|, |l.types|)
    ensures forall i :: 0 <= i < |c.vars| ==>
      && c.vars[i].name == l.names[i]
      && !c.vars[i].ordered
      && c.vars[i].labels == LabelsOf(l.annotations[i])
      && c.roles[i] == RoleOf(l.annotations[i])
    // explicitly typed columns keep their declared type
    ensures forall i :: 0 <= i < |c.vars| ==>
      && (l.types[i] == TContinuous ==> c.vars[i].kind == Continuous)
      && (l.types[i] == TString ==> c.vars[i].kind == String)
      && (l.types[i].TDiscreteList? ==> c.vars[i].kind == Discrete(l.types[i].values))
    // a bare discrete column takes the sorted distinct values seen in it, missing flags excluded
    ensures forall i :: 0 <= i < |c.vars| && l.types[i] == TDiscrete ==>
      && c.vars[i].kind.Discrete?
      && Ascending(c.vars[i].kind.values)
      && forall v :: v in c.vars[i].kind.values <==>
           (v !in missing && exists k :: 0 <= k < |data| && data[k][i] == v)
    // an untyped column is deduced from the same values
    ensures forall i :: 0 <= i < |c.vars| && l.types[i] == TUnspecified ==>
      c.vars[i].kind == InferKind(Observed(data, i, missing), isNum)
  {
    var n := Min(|l.names|, |l.types|);
    var vars := seq(n, i requires 0 <= i < n =>
      Variable(l.names[i], ResolveKind(l.types[i], Observed(data, i, missing), isNum), false, LabelsOf(l.annotations[i])));
    var roles := seq(n, i requires 0 <= i < n => RoleOf(l.annotations[i]));
    Columns(vars, roles, data)
  }

  /** Lines 691-830: the header, the stored rows and every column resolved
      to a variable; a Python-typed column is refused. */
  function ReadColumns(rows: seq<seq<string>>, f: Flags, isNum: string -> bool): (r: Result<Columns, LoadError>)
    ensures ReadLayout(rows, f).Failure? ==> r == Failure(ReadLayout(rows, f).error)
    ensures ReadLayout(rows, f).Success? ==> var l := ReadLayout(rows, f).value;
      (r.Failure? <==> exists i :: 0 <= i < Min(|l.names|, |l.types|) && l.types[i] == TPython)
    ensures r.Success? ==> var l := ReadLayout(rows, f).value; var missing := MissingFlags(f.dk);
      r.value == BuildColumns(l, NormalizeRows(rows[l.skip..], |l.names|, missing), missing, isNum)
  {
    var l :- ReadLayout(rows, f);
    var n := Min(|l.names|, |l.types|);
    var py := FirstPython(l.types[..n]);
    if py.Some? then Failure(PythonColumn(py.value))
    else
      assert forall i :: 0 <= i < n ==> l.types[i] == l.types[..n][i];
      var missing := MissingFlags(f.dk);
      Success(BuildColumns(l, NormalizeRows(rows[l.skip..], |l.names|, missing), missing, isNum))
  }

  /** Lines 846-893: partition by role, reject class conflicts, build the streams. */
  function Assemble(c: Columns, firstMetaId: int): (r: Result<Table, LoadError>)
    requires WellFormed(c)
    ensures var s := Partition(c.roles);
      && (|s.classes| > 1 ==> r == Failure(MultipleClassVariables))
      && (|s.classes| == 1 && |s.multiclass| > 0 ==> r == Failure(ClassAndMultiClass))
      && (r.Success? <==> |s.classes| <= 1 && (|s.classes| == 0 || |s.multiclass| == 0))
    ensures r.Success? ==> r.value == Streamed(c, Partition(c.roles), firstMetaId)
  {
    var s := Partition(c.roles);
    if |s.classes| > 1 then Failure(MultipleClassVariables)
    else if |s.classes| > 0 && |s.multiclass| > 0 then Failure(ClassAndMultiClass)
    else Success(Streamed(c, s, firstMetaId))
  }

  /** Lines 874-893: the table once the roles are consistent. */
  function Streamed(c: Columns, s: Streams, firstMetaId: int): (t: Table)
    requires WellFormed(c) && s == Partition(c.roles) && |s.classes| <= 1
    ensures t.attributes == Project(c.vars, s.attributes)
    ensures t.classVars == Project(c.vars, s.multiclass)
    ensures t.classVar.Some? <==> |s.classes| == 1
    ensures t.classVar.Some? ==> t.classVar.value == c.vars[s.classes[0]]
    ensures |t.metas| == |s.metas|
    ensures forall j :: 0 <= j < |t.metas| ==> t.metas[j].1 == c.vars[s.metas[j]]
    ensures forall j, m :: 0 <= j < m < |t.metas| ==> t.metas[j].0 != t.metas[m].0
    ensures |t.normal| == |t.metaValues| == |t.classValues| == |c.data|
    ensures forall k :: 0 <= k < |c.data| ==>
      && |t.normal[k]| == |t.attributes| + (if t.classVar.Some? then 1 else 0)
      && (forall j :: 0 <= j < |s.attributes| ==> t.normal[k][j] == c.data[k][s.attributes[j]])
      && (t.classVar.Some? ==> t.normal[k][|s.attributes|] == c.data[k][s.classes[0]])
      && t.metaValues[k] == Project(c.data[k], s.metas)
      && t.classValues[k] == Project(c.data[k], s.multiclass)
  {
    var w := |c.vars|;
    var normal := ProjectRows(c.data, s.attributes + s.classes, w);
    assert forall k :: 0 <= k < |c.data| ==> normal[k] == Project(c.data[k], s.attributes + s.classes);
    Table(
      Project(c.vars, s.attributes),
      if |s.classes| == 1 then Some(c.vars[s.classes[0]]) else None,
      Project(c.vars, s.multiclass),
      MetaIds(c.vars, s.metas, firstMetaId),
      normal,
      ProjectRows(c.data, s.metas, w),
      ProjectRows(c.data, s.multiclass, w))
  }

  /** Lines 857-861: each meta column with a fresh id, counting down from `firstMetaId`. */
  function MetaIds(vars: seq<Variable>, metas: seq<nat>, firstMetaId: int): (r: seq<(int, Variable)>)
    requires forall k :: 0 <= k < |metas| ==> metas[k] < |vars|
    ensures |r| == |metas|
    ensures forall j :: 0 <= j < |r| ==> r[j].1 == vars[metas[j]]
    ensures forall j, m :: 0 <= j < m < |r| ==> r[j].0 != r[m].0
  {
    seq(|metas|, j requires 0 <= j < |metas| => (firstMetaId - j, vars[metas[j]]))
  }

  /** The chosen cells of every row, each row at least `width` wide. */
  function ProjectRows(data: seq<seq<string>>, idx: seq<nat>, width: nat): (r: seq<seq<string>>)
    requires forall k :: 0 <= k < |data| ==> width <= |data[k]|
    requires forall j :: 0 <= j < |idx| ==> idx[j] < width
    ensures |r| == |data|
    ensures forall k :: 0 <= k < |data| ==> r[k] == Project(data[k], idx)
  {
    seq(|data|, k requires 0 <= k < |data| => Project(data[k], idx))
  }

  /** io.py `load_csv` after tokenisation.  `new_meta_id` is modelled as a
      counter starting at `firstMetaId`. */
  function LoadCsv(rows: seq<seq<string>>, f: Flags, isNum: string -> bool, firstMetaId: int): (r: Result<Table, LoadError>)
    ensures |rows| == 0 ==> r == Failure(NoMoreRows)
    ensures ReadLayout(rows, f).Failure? ==> r == Failure(ReadLayout(rows, f).error)
    // every non-empty row after the header rows becomes one example
    ensures r.Success? ==>
      && ReadLayout(rows, f).Success?
      && |r.value.normal| == |NonEmptyRows(rows[ReadLayout(rows, f).value.skip..])|
    // the table is the resolved columns, partitioned by role
    ensures ReadColumns(rows, f, isNum).Failure? ==> r == Failure(ReadColumns(rows, f, isNum).error)
    ensures ReadColumns(rows, f, isNum).Success? ==> r == Assemble(ReadColumns(rows, f, isNum).value, firstMetaId)
  {
    var c :- ReadColumns(rows, f, isNum);
    Assemble(c, firstMetaId)
  }

  /** Every cell of an example's attributes and class is `?` or a cell,
      not a missing flag, of the matching non-empty row of the file. */
  lemma LoadCsvCell(rows: seq<seq<string>>, f: Flags, isNum: string -> bool, firstMetaId: int, k: nat, j: nat)
    requires LoadCsv(rows, f, isNum, firstMetaId).Success?
    requires k < |LoadCsv(rows, f, isNum, firstMetaId).value.normal|
    requires j < |LoadCsv(rows, f, isNum, firstMetaId).value.normal[k]|
    ensures ReadLayout(rows, f).Success?
    ensures var src := NonEmptyRows(rows[ReadLayout(rows, f).value.skip..]);
      var v := LoadCsv(rows, f, isNum, firstMetaId).value.normal[k][j];
      && k < |src|
      && (v == "?" || (v in src[k] && v !in MissingFlags(f.dk)))
  {
    var c := ReadColumns(rows, f, isNum).value;
    var l := ReadLayout(rows, f).value;
    var missing := MissingFlags(f.dk);
    var data := NormalizeRows(rows[l.skip..], |l.names|, missing);
    assert c == BuildColumns(l, data, missing, isNum);
    var i := AssembledCell(c, firstMetaId, k, j);
    NormalizedCell(rows[l.skip..], |l.names|, missing, k, i);
  }

  /** A cell of the normal part is a cell of the same stored row. */
  lemma AssembledCell(c: Columns, firstMetaId: int, k: nat, j: nat) returns (i: nat)
    requires WellFormed(c) && Assemble(c, firstMetaId).Success?
    requires k < |Assemble(c, firstMetaId).value.normal|
    requires j < |Assemble(c, firstMetaId).value.normal[k]|
    ensures k < |c.data| && i < |c.vars| && Assemble(c, firstMetaId).value.normal[k][j] == c.data[k][i]
  {
    var s := Partition(c.roles);
    i := if j < |s.attributes| then s.attributes[j] else s.classes[0];
  }

  /** A stored cell is `?` or a cell of its source row that is not a missing flag. */
  lemma NormalizedCell(rows: seq<seq<string>>, width: nat, missing: seq<string>, k: nat, i: nat)
    requires k < |NormalizeRows(rows, width, missing)| && i < width
    ensures var v := NormalizeRows(rows, width, missing)[k][i];
      k < |NonEmptyRows(rows)| && (v == "?" || (v in NonEmptyRows(rows)[k] && v !in missing))
  {
  }

  /** Ignored columns reach no stream of the table, and no column reaches two. */
  lemma IgnoredColumnsDropped(roles: seq<Option<Role>>, i: nat)
    requires i < |roles| && roles[i] == Some(Ignore)
    ensures var s := Partition(roles);
      i !in s.attributes + s.classes && i !in s.multiclass && i !in s.metas
  {
  }

  /** Two class columns abort the import, whatever else the header says. */
  lemma TwoClassColumnsRejected(c: Columns, i: nat, j: nat, firstMetaId: int)
    requires WellFormed(c)
    requires i < j < |c.roles| && c.roles[i] == Some(Class) && c.roles[j] == Some(Class)
    ensures Assemble(c, firstMetaId) == Failure(MultipleClassVariables)
  {
    var s := Partition(c.roles);
    assert i in s.classes && j in s.classes;
    var a :| 0 <= a < |s.classes| && s.classes[a] == i;
    var b :| 0 <= b < |s.classes| && s.classes[b] == j;
  }
}

=== FILE: csv_save.dfy ===
/** io.py `save_csv`: the rows the tab/CSV writer emits for a table (the CSV
    quoting of each cell is the writer's business and is not modelled), and
    how the header rows read back through the tab grammar. */
module CsvSave {
  import opened Wrappers
  import opened Text
  import opened Feature
  import opened Collate
  import opened TabGrammar

  /** An example of the table: its attribute and class cells, and its meta values by id. */
  datatype Instance = Instance(cells: seq<string>, metas: map<int, string>)

  /** What `save_csv` reads of a table: the domain and the examples. */
  datatype SaveTable = SaveTable(
    attributes: seq<Variable>,
    classVar: Option<Variable>,
    metas: seq<(int, Variable)>,
    instances: seq<Instance>)

  function ClassCount(t: SaveTable): nat {
    if t.classVar.Some? then 1 else 0
  }

  /** Every example has one cell per attribute and class, and a value for every meta id. */
  predicate WellFormed(t: SaveTable) {
    forall k :: 0 <= k < |t.instances| ==>
      && |t.instances[k].cells| == |t.attributes| + ClassCount(t)
      && forall j :: 0 <= j < |t.metas| ==> t.metas[j].0 in t.instances[k].metas
  }

  /** `sorted(domain.get_metas().items(), reverse=True)`: metas by id, largest first. */
  function MetasByIdDescending(metas: seq<(int, Variable)>): (r: seq<(int, Variable)>)
    ensures multiset(r) == multiset(metas)
    ensures forall i, j :: 0 <= i < j < |r| ==> r[i].0 >= r[j].0
  {
    var key := (p: (int, Variable)) => -p.0;
    var r := SortBy(metas, key);
    assert forall i, j :: 0 <= i < j < |r| ==> key(r[i]) <= key(r[j]);
    r
  }

  /** `attrs + [class_var] + metas`, the columns in the order they are written. */
  function AllVars(t: SaveTable): (vs: seq<Variable>)
    ensures var n := |t.attributes| + ClassCount(t); var ms := MetasByIdDescending(t.metas);
      && |ms| == |t.metas|
      && |vs| == n + |t.metas|
      && vs[..|t.attributes|] == t.attributes
      && (t.classVar.Some? ==> vs[|t.attributes|] == t.classVar.value)
      && forall j :: 0 <= j < |ms| ==> vs[n + j] == ms[j].1
  {
    var ms := MetasByIdDescending(t.metas);
    assert |ms| == |multiset(ms)| == |multiset(t.metas)| == |t.metas|;
    t.attributes + (if t.classVar.Some? then [t.classVar.value] else [])
      + seq(|ms|, j requires 0 <= j < |ms| => ms[j].1)
  }

  /** `[instance[m] for m in metas]` */
  function MetaValues(inst: Instance, ms: seq<(int, Variable)>): (r: seq<string>)
    requires forall j :: 0 <= j < |ms| ==> ms[j].0 in inst.metas
    ensures |r| == |ms|
    ensures forall j :: 0 <= j < |ms| ==> r[j] == inst.metas[ms[j].0]
  {
    seq(|ms|, j requires 0 <= j < |ms| => inst.metas[ms[j].0])
  }

  /** Every meta id of the table, in the written order, has a value in every example of a well-formed table. */
  lemma SortedMetasPresent(t: SaveTable)
    requires WellFormed(t)
    ensures var ms := MetasByIdDescending(t.metas);
      forall k, j :: 0 <= k < |t.instances| && 0 <= j < |ms| ==> ms[j].0 in t.instances[k].metas
  {
    var ms := MetasByIdDescending(t.metas);
    forall k, j | 0 <= k < |t.instances| && 0 <= j < |ms|
      ensures ms[j].0 in t.instances[k].metas
    {
      assert ms[j] in multiset(t.metas);
      var i :| 0 <= i < |t.metas| && t.metas[i] == ms[j];
    }
  }

  /** The type-row cell of a variable (lines 921-933). */
  function TypeCell(k: Kind): string
  {
    match k
    case Discrete(vs) => Join(EscapeAll(vs, ' ', Esc), " ")
    case Continuous => "continuous"
    case String => "string"
    case Python => "python"
  }

  function LabelItem(p: (string, string)): string {
    p.0 + "=" + p.1
  }

  function LabelItems(labels: Labels): (items: seq<string>)
    ensures |items| == |labels|
    ensures forall i :: 0 <= i < |labels| ==> items[i] == LabelItem(labels[i])
  {
    seq(|labels|, i requires 0 <= i < |labels| => LabelItem(labels[i]))
  }

  /** Line 942 as written: `" ".join([spec] if spec else [] + labels)`.  The
      conditional binds weaker than `+`, so a role prefix replaces the labels
      instead of preceding them. */
  function AnnotationCell(spec: string, labels: Labels): string
  {
    if spec != "" then spec else Join(LabelItems(labels), " ")
  }

  /** The cell the format describes: the role prefix, then the labels. */
  function AnnotationCellIntended(spec: string, labels: Labels): string
  {
    Join((if spec != "" then [spec] else []) + LabelItems(labels), " ")
  }

  /** The role prefix of each written column: none for attributes, `class`, `m` for metas. */
  function Specs(t: SaveTable): (specs: seq<string>)
    ensures |specs| == |AllVars(t)|
  {
    seq(|t.attributes|, _ => "")
      + (if t.classVar.Some? then ["class"] else [])
      + seq(|t.metas|, _ => "m")
  }

  /** The names, type and annotation rows (lines 912-944), each annotation
      cell built from the column's role prefix and labels by `annotate`. */
  function HeaderRowsBy(t: SaveTable, orangeSpecific: bool, annotate: (string, Labels) -> string): (rows: seq<seq<string>>)
    ensures var vs := AllVars(t);
      && |rows| == (if orangeSpecific then 3 else 1)
      && |rows[0]| == |vs| && (forall i :: 0 <= i < |vs| ==> rows[0][i] == vs[i].name)
      && (orangeSpecific ==>
            && |rows[1]| == |vs| && (forall i :: 0 <= i < |vs| ==> rows[1][i] == TypeCell(vs[i].kind))
            && |rows[2]| == |vs| && (forall i :: 0 <= i < |vs| ==> rows[2][i] == annotate(Specs(t)[i], vs[i].labels)))
  {
    var vs := AllVars(t);
    var specs := Specs(t);
    var names := seq(|vs|, i requires 0 <= i < |vs| => vs[i].name);
    if orangeSpecific then
      [names,
       seq(|vs|, i requires 0 <= i < |vs| => TypeCell(vs[i].kind)),
       seq(|vs|, i requires 0 <= i < |vs| => annotate(specs[i], vs[i].labels))]
    else [names]
  }

  /** The header rows as io.py writes them: the annotation row is built by
      line 942 as written, so a class or meta column carries its role only. */
  function HeaderRows(t: SaveTable, orangeSpecific: bool): (rows: seq<seq<string>>)
    ensures var vs := AllVars(t);
      && |rows| == (if orangeSpecific then 3 else 1)
      && |rows[0]| == |vs| && (forall i :: 0 <= i < |vs| ==> rows[0][i] == vs[i].name)
      && (orangeSpecific ==>
            && |rows[1]| == |vs| && (forall i :: 0 <= i < |vs| ==> rows[1][i] == TypeCell(vs[i].kind))
            && |rows[2]| == |vs| && (forall i :: 0 <= i < |vs| ==> rows[2][i] == AnnotationCell(Specs(t)[i], vs[i].labels)))
  {
    HeaderRowsBy(t, orangeSpecific, AnnotationCell)
  }

  /** The header rows with the annotation cells as the format describes them
      (see `AnnotationCellIntended`). */
  function HeaderRowsIntended(t: SaveTable, orangeSpecific: bool): (rows: seq<seq<string>>)
    ensures var vs := AllVars(t);
      && |rows| == (if orangeSpecific then 3 else 1)
      && |rows[0]| == |vs| && (forall i :: 0 <= i < |vs| ==> rows[0][i] == vs[i].name)
      && (orangeSpecific ==>
            && |rows[1]| == |vs| && (forall i :: 0 <= i < |vs| ==> rows[1][i] == TypeCell(vs[i].kind))
            && |rows[2]| == |vs| && (forall i :: 0 <= i < |vs| ==> rows[2][i] == AnnotationCellIntended(Specs(t)[i], vs[i].labels)))
  {
    HeaderRowsBy(t, orangeSpecific, AnnotationCellIntended)
  }

  /** One written example: its own cells, then its meta values in the given order. */
  function DataRow(inst: Instance, ms: seq<(int, Variable)>): (row: seq<string>)
    requires forall j :: 0 <= j < |ms| ==> ms[j].0 in inst.metas
    ensures |row| == |inst.cells| + |ms|
    ensures row[..|inst.cells|] == inst.cells
    ensures forall j :: 0 <= j < |ms| ==> row[|inst.cells| + j] == inst.metas[ms[j].0]
  {
    inst.cells + MetaValues(inst, ms)
  }

  /** The examples, each with its meta values in the written order. */
  function DataRows(t: SaveTable): (rows: seq<seq<string>>)
    requires WellFormed(t)
    ensures |rows| == |t.instances|
    ensures var n := |t.attributes| + ClassCount(t); var ms := MetasByIdDescending(t.metas);
      forall k :: 0 <= k < |t.instances| ==>
        && |rows[k]| == n + |ms|
        && rows[k][..n] == t.instances[k].cells
        && forall j :: 0 <= j < |ms| ==> ms[j].0 in t.instances[k].metas && rows[k][n + j] == t.instances[k].metas[ms[j].0]
  {
    var ms := MetasByIdDescending(t.metas);
    SortedMetasPresent(t);
    seq(|t.instances|, k requires 0 <= k < |t.instances| => DataRow(t.instances[k], ms))
  }

  /** io.py `save_csv`: the header rows, then every example with its meta
      values appended in header order. */
  function SaveCsv(t: SaveTable, orangeSpecific: bool): (rows: seq<seq<string>>)
    requires WellFormed(t)
    ensures var h := if orangeSpecific then 3 else 1;
      && |rows| == h + |t.instances|
      && rows[..h] == HeaderRows(t, orangeSpecific)
      && rows[h..] == DataRows(t)
  {
    HeaderRows(t, orangeSpecific) + DataRows(t)
  }

  /** `save_csv` with the annotation row as the format describes it. */
  function SaveCsvIntended(t: SaveTable, orangeSpecific: bool): (rows: seq<seq<string>>)
    requires WellFormed(t)
    ensures var h := if orangeSpecific then 3 else 1;
      && |rows| == h + |t.instances|
      && rows[..h] == HeaderRowsIntended(t, orangeSpecific)
      && rows[h..] == DataRows(t)
  {
    HeaderRowsIntended(t, orangeSpecific) + DataRows(t)
  }

  // ---------------------------------------------------------------------
  // Reading the header cells back
  // ---------------------------------------------------------------------

  /** Text without separator is its own escape. */
  lemma {:induction false} EscapeIdentity(v: string, sep: char, esc: char)
    requires sep !in v
    ensures Escape(v, sep, esc) == v
  {
    if |v| > 0 {
      EscapeIdentity(v[1..], sep, esc);
      assert [v[0]] + v[1..] == v;
    }
  }

  /** Words free of spaces and backslashes, joined by spaces, split back into themselves. */
  lemma SplitJoinedWords(items: seq<string>, sep: char)
    requires |items| >= 1 && sep != Esc
    requires forall k :: 0 <= k < |items| ==> sep !in items[k] && Esc !in items[k]
    ensures SplitEscaped(Join(items, [sep]), sep, Esc) == items
  {
    forall k | 0 <= k < |items|
      ensures EscapeAll(items, sep, Esc)[k] == items[k]
    {
      EscapeIdentity(items[k], sep, Esc);
    }
    assert EscapeAll(items, sep, Esc) == items;
    EscapeRoundTrip(items, sep, Esc);
  }

  /** The keyword cells read back as the kind they were written from. */
  lemma ScalarTypeCellsReadBack()
    ensures VarType(TypeCell(Continuous)) == Success(TContinuous)
    ensures VarType(TypeCell(String)) == Success(TString)
    ensures VarType(TypeCell(Python)) == Success(TPython)
  {
    PythonPrefixFirst("python");
  }

  /** The first characters of an escaped value followed by a space-led
      remainder spell a space-free, backslash-free word only if the value
      itself starts with that word. */
  lemma {:induction false} EscapedPrefix(v: string, t: string, p: string)
    requires ' ' !in p && Esc !in p
    requires |t| == 0 || t[0] == ' '
    ensures StartsWith(Escape(v, ' ', Esc) + t, p) ==> StartsWith(v, p)
    decreases |p|
  {
    if |p| > 0 {
      assert p[0] in p;
      var e := Escape(v, ' ', Esc) + t;
      if |v| == 0 {
        assert e == t;
      } else if v[0] == ' ' {
        assert e[0] == Esc;
      } else {
        var e' := Escape(v[1..], ' ', Esc) + t;
        assert e == [v[0]] + e';
        EscapedPrefix(v[1..], t, p[1..]);
        if StartsWith(e, p) {
          assert e'[..|p| - 1] == e[1..|p|];
          assert p[1..] == p[1..|p|];
          assert StartsWith(v[1..], p[1..]);
          assert v[..|p|] == [v[0]] + v[1..][..|p| - 1];
        }
      }
    }
  }

  /** A discrete variable with two or more values reads back as exactly those
      values, provided none contains a backslash and the first does not start
      with `python` (which the type grammar tests first). */
  lemma DiscreteTypeCellReadBack(vs: seq<string>)
    requires |vs| >= 2
    requires forall k :: 0 <= k < |vs| ==> Esc !in vs[k]
    requires !StartsWith(vs[0], "python")
    ensures VarType(TypeCell(Discrete(vs))) == Success(TDiscreteList(vs))
  {
    var es := EscapeAll(vs, ' ', Esc);
    var cell := Join(es, " ");
    EscapeRoundTrip(vs, ' ', Esc);
    assert SplitEscaped(cell, ' ', Esc) == vs;
    var t := " " + Join(es[1..], " ");
    assert cell == Escape(vs[0], ' ', Esc) + t;
    if StartsWith(cell, "python") {
      EscapedPrefix(vs[0], t, "python");
    }
    if cell == "c" || cell == "d" || cell == "s" || cell == "continuous" || cell == "discrete" || cell == "string" || cell == "" {
      SplitEscapedNoSeparator(cell, ' ', Esc);
    }
  }

  /** A discrete variable with a single value is never read back as a value
      list: its type cell is one token, which the grammar takes as a keyword
      or rejects. */
  lemma SingleValueNotReadBack(v: string)
    requires Esc !in v
    ensures VarType(TypeCell(Discrete([v]))) != Success(TDiscreteList([v]))
  {
    EscapeRoundTrip([v], ' ', Esc);
  }

  /** A discrete variable whose first value starts with `python` is written
      as a type cell the grammar reads as a Python variable, not as its
      values: `var_type` tests the prefix before the value list. */
  lemma PythonValueMisread(vs: seq<string>)
    requires |vs| >= 1 && StartsWith(vs[0], "python") && ' ' !in vs[0]
    ensures VarType(TypeCell(Discrete(vs))) == Success(TPython)
  {
    var es := EscapeAll(vs, ' ', Esc);
    EscapeKeeps(vs[0], ' ', Esc);
    var cell := Join(es, " ");
    assert StartsWith(cell, es[0]);
    assert cell[..6] == es[0][..6];
    PythonPrefixFirst(cell);
  }

  /** A value ending in a backslash escapes the space that joins it to the
      next: `["a\\", "b"]` is written `a\ b`, one escaped word, which the
      grammar rejects as an unknown type. */
  lemma BackslashValueMisread()
    ensures TypeCell(Discrete(["a\\", "b"])) == "a\\ b"
    ensures VarType("a\\ b") == Failure(UnknownTypeDefinition("a\\ b"))
  {
    var es := EscapeAll(["a\\", "b"], ' ', Esc);
    EscapeKeeps("a\\", ' ', Esc);
    EscapeKeeps("b", ' ', Esc);
    assert es == ["a\\", "b"];
    var cell := "a\\ b";
    EscapedSpaceJoins('a', 'b', ' ', Esc);
    assert cell == ['a', Esc, ' ', 'b'];
    assert SplitEscaped(cell, ' ', Esc) == ["a b"];
  }

  /** A discrete variable with no values is written as a blank type cell,
      which reads back as "deduce from the data". */
  lemma NoValuesReadsUnspecified()
    ensures VarType(TypeCell(Discrete([]))) == Success(TUnspecified)
  {
  }

  /** Labels whose keys and values hold no space, `=` or backslash. */
  predicate PlainLabels(labels: Labels) {
    forall i :: 0 <= i < |labels| ==>
      && ' ' !in labels[i].0 && '=' !in labels[i].0 && Esc !in labels[i].0
      && ' ' !in labels[i].1 && '=' !in labels[i].1 && Esc !in labels[i].1
  }

  /** The label items, split on spaces and then on `=`, give back the labels. */
  lemma LabelItemsParse(labels: Labels)
    requires PlainLabels(labels)
    ensures forall i :: 0 <= i < |labels| ==> ' ' !in LabelItem(labels[i]) && Esc !in LabelItem(labels[i])
    ensures LabelsParse(LabelItems(labels)) == Success(labels)
  {
    var items := LabelItems(labels);
    forall i | 0 <= i < |labels|
      ensures LabelParse(items[i]) == Success(labels[i])
    {
      var (k, v) := labels[i];
      assert Join([k, v], "=") == items[i];
      SplitJoinedWords([k, v], '=');
    }
    var r := LabelsParse(items);
    assert r.Success?;
    assert forall i :: 0 <= i < |labels| ==> r.value[i] == labels[i];
    assert r.value == labels;
  }

  /** An attribute's annotation cell reads back as no role and the same labels. */
  lemma AttributeAnnotationReadBack(labels: Labels)
    requires DistinctKeys(labels) && PlainLabels(labels)
    ensures VarAttribute(AnnotationCell("", labels)) == Success(Annotation(None, labels))
  {
    var items := LabelItems(labels);
    LabelItemsParse(labels);
    DictOfDistinct(labels);
    if |labels| > 0 {
      SplitJoinedWords(items, ' ');
      LabelItemNoRole(labels[0]);
      JoinFirst(items, " ");
      VarAttributeOfLabels(Join(items, " "), items, labels);
    }
  }

  /** Line 941 writes a label value unescaped, so a value holding a space
      ends its item there: the label `k` with value `a b` is written
      `k=a b`, whose second word `b` is no `key=value` pair. */
  lemma LabelSpaceMisread(k: string, a: string, b: string)
    requires ' ' !in k && '=' !in k && Esc !in k
    requires ' ' !in a && '=' !in a && Esc !in a
    requires ' ' !in b && '=' !in b && Esc !in b
    ensures AnnotationCell("", [(k, a + " " + b)]) == k + "=" + a + " " + b
    ensures VarAttribute(k + "=" + a + " " + b) == Failure(InvalidLabelDefinition(b))
  {
    var w := LabelItem((k, a));
    var cell := k + "=" + a + " " + b;
    assert LabelItem((k, a + " " + b)) == cell;
    assert LabelItems([(k, a + " " + b)])[0] == cell;
    assert Join([w, b], " ") == cell;
    assert ' ' !in w && Esc !in w;
    SplitJoinedWords([w, b], ' ');
    LabelItemNoRole((k, a));
    assert LabelWords(cell) == [w, b];
    assert Join([k, a], "=") == w;
    SplitJoinedWords([k, a], '=');
    SplitEscapedNoSeparator(b, '=', Esc);
  }

  /** A `key=value` item is never a role keyword. */
  lemma LabelItemNoRole(p: (string, string))
    ensures |LabelItem(p)| > 0 && RoleKeyword(LabelItem(p)).None?
  {
    assert LabelItem(p)[|p.0|] == '=';
  }

  /** A non-blank cell whose first word is no role keyword is read as labels only. */
  lemma VarAttributeOfLabels(cell: string, items: seq<string>, labels: Labels)
    requires cell != "" && SplitEscaped(cell, ' ', Esc) == items
    requires RoleKeyword(items[0]).None?
    requires LabelsParse(items) == Success(labels) && DictOf(labels) == labels
    ensures VarAttribute(cell) == Success(Annotation(None, labels))
  {
  }

  lemma JoinFirst(parts: seq<string>, sep: string)
    requires |parts| > 0
    ensures |Join(parts, sep)| >= |parts[0]|
  {
  }

  /** As written, a class or meta column's labels are not written: its
      annotation cell reads back as the bare role. */
  lemma RolePrefixDropsLabels(labels: Labels)
    ensures VarAttribute(AnnotationCell("class", labels)) == Success(Annotation(Some(Class), []))
    ensures VarAttribute(AnnotationCell("m", labels)) == Success(Annotation(Some(Meta), []))
  {
    assert AnnotationCell("class", labels) == "class";
    RoleKeywordAlone("class");
    assert AnnotationCell("m", labels) == "m";
    RoleKeywordAlone("m");
  }

  /** The intended cell of a class or meta column keeps its labels: it reads
      back as the role and the same labels. */
  lemma IntendedAnnotationReadBack(spec: string, labels: Labels)
    requires spec == "class" || spec == "m"
    requires DistinctKeys(labels) && PlainLabels(labels)
    ensures VarAttribute(AnnotationCellIntended(spec, labels))
         == Success(Annotation(RoleKeyword(spec), labels))
  {
    var items := LabelItems(labels);
    var all := [spec] + items;
    assert all[1..] == items && all[0] == spec;
    RoleSpec(spec);
    var cell := Join(all, " ");
    assert AnnotationCellIntended(spec, labels) == cell;
    JoinFirst(all, " ");
    LabelItemsParse(labels);
    SplitJoinedWords(all, ' ');
    DictOfDistinct(labels);
    VarAttributeOfRole(cell, all, RoleKeyword(spec).value, labels);
  }

  /** The role prefixes a writer emits are plain words naming a role. */
  lemma RoleSpec(spec: string)
    requires spec == "class" || spec == "m"
    ensures spec != "" && ' ' !in spec && Esc !in spec && RoleKeyword(spec).Some?
  {
  }

  /** A non-blank cell whose first word is a role keyword is read as that
      role and the labels after it. */
  lemma VarAttributeOfRole(cell: string, items: seq<string>, role: Role, labels: Labels)
    requires cell != "" && |items| > 0 && SplitEscaped(cell, ' ', Esc) == items
    requires RoleKeyword(items[0]) == Some(role)
    requires LabelsParse(items[1..]) == Success(labels) && DictOf(labels) == labels
    ensures VarAttribute(cell) == Success(Annotation(Some(role), labels))
  {
  }
}

=== FILE: feature.dfy ===
/** Variable descriptors (Orange.feature) as the readers create them, and the
    label dictionary `var.attributes` attached to each. */
module Feature {
  import opened Wrappers

  /** The kind of a resolved variable.  `Python` is the pass-through kind the
      tab writer knows about but the readers never produce. */
  datatype Kind = Continuous | Discrete(values: seq<string>) | String | Python

  /** Labels are the items of a Python dict, in iteration order; keys are distinct. */
  type Labels = seq<(string, string)>

  /** A variable descriptor.  `Descriptor.make` is modelled as building a
      fresh descriptor every time: no reuse of variables across tables. */
  datatype Variable = Variable(name: string, kind: Kind, ordered: bool, labels: Labels)

  function Make(name: string, kind: Kind): (v: Variable)
    ensures v.name == name && v.kind == kind && !v.ordered && v.labels == []
  {
    Variable(name, kind, false, [])
  }

  /** The writers' `try_numericize` rule: a discrete variable is written as
      a number only when numericizing is asked for and every value parses as
      a number; every other kind always is. */
  predicate WrittenReal(v: Variable, tryNumericize: bool, isNum: string -> bool) {
    if v.kind.Discrete? then tryNumericize && forall j :: 0 <= j < |v.kind.values| ==> isNum(v.kind.values[j])
    else true
  }

  predicate DistinctKeys(d: Labels) {
    forall i, j :: 0 <= i < j < |d| ==> d[i].0 != d[j].0
  }

  function Keys(d: Labels): set<string> {
    set i | 0 <= i < |d| :: d[i].0
  }

  /** `d[key] = value`: overwrites in place when the key is present, appends otherwise. */
  function Put(d: Labels, key: string, value: string): (r: Labels)
    requires DistinctKeys(d)
    ensures DistinctKeys(r)
    ensures Keys(r) == Keys(d) + {key}
    ensures Get(r, key) == Some(value)
    ensures forall k :: k != key ==> Get(r, k) == Get(d, k)
  {
    if |d| == 0 then [(key, value)]
    else if d[0].0 == key then
      assert Keys([(key, value)] + d[1..]) == Keys(d) by {
        assert forall i :: 0 < i < |d| ==> ([(key, value)] + d[1..])[i] == d[i];
      }
      [(key, value)] + d[1..]
    else
      var tail := Put(d[1..], key, value);
      var r := [d[0]] + tail;
      KeysCons(d[0], d[1..]);
      assert [d[0]] + d[1..] == d;
      KeysCons(d[0], tail);
      assert forall k :: k in Keys(tail) ==> k != d[0].0 by {
        forall k | k in Keys(tail)
          ensures k != d[0].0
        {
          var i :| 0 <= i < |tail| && tail[i].0 == k;
          assert k in Keys(d[1..]) + {key};
          if k in Keys(d[1..]) {
            var j :| 0 <= j < |d[1..]| && d[1..][j].0 == k;
            assert d[j + 1].0 == k;
          }
        }
      }
      assert forall k :: Get(r, k) == (if k == d[0].0 then Some(d[0].1) else Get(tail, k));
      r
  }

  lemma KeysCons(p: (string, string), d: Labels)
    ensures Keys([p] + d) == {p.0} + Keys(d)
  {
    var r := [p] + d;
    forall k | k in Keys(r)
      ensures k in {p.0} + Keys(d)
    {
      var i :| 0 <= i < |r| && r[i].0 == k;
      if i > 0 {
        assert d[i - 1].0 == k;
      }
    }
    forall k | k in Keys(d)
      ensures k in Keys(r)
    {
      var i :| 0 <= i < |d| && d[i].0 == k;
      assert r[i + 1].0 == k;
    }
    assert r[0].0 == p.0;
  }

  /** The value stored under `key`. */
  function Get(d: Labels, key: string): Option<string>
  {
    if |d| == 0 then None else if d[0].0 == key then Some(d[0].1) else Get(d[1..], key)
  }

  /** `dict(pairs)`: later pairs override earlier ones with the same key. */
  function DictOf(pairs: seq<(string, string)>): (d: Labels)
    ensures DistinctKeys(d)
    ensures forall k :: Get(d, k) == LastValue(pairs, k)
  {
    if |pairs| == 0 then []
    else
      var init := pairs[..|pairs| - 1];
      var last := pairs[|pairs| - 1];
      assert forall k :: LastValue(pairs, k) == (if k == last.0 then Some(last.1) else LastValue(init, k));
      Put(DictOf(init), last.0, last.1)
  }

  /** Reference reading of `dict(pairs)[key]`: the value of the last pair with that key. */
  function LastValue(pairs: seq<(string, string)>, key: string): Option<string>
  {
    if |pairs| == 0 then None
    else if pairs[|pairs| - 1].0 == key then Some(pairs[|pairs| - 1].1)
    else LastValue(pairs[..|pairs| - 1], key)
  }

  /** Building a dict from pairs whose keys are already distinct keeps the pairs as they are. */
  lemma {:induction false} DictOfDistinct(pairs: seq<(string, string)>)
    requires DistinctKeys(pairs)
    ensures DictOf(pairs) == pairs
  {
    if |pairs| > 0 {
      var init := pairs[..|pairs| - 1];
      var last := pairs[|pairs| - 1];
      assert DistinctKeys(init);
      DictOfDistinct(init);
      PutFreshKey(init, last.0, last.1);
      assert init + [last] == pairs;
    }
  }

  lemma {:induction false} PutFreshKey(d: Labels, key: string, value: string)
    requires DistinctKeys(d)
    requires forall i :: 0 <= i < |d| ==> d[i].0 != key
    ensures Put(d, key, value) == d + [(key, value)]
  {
    if |d| > 0 {
      assert DistinctKeys(d[1..]);
      PutFreshKey(d[1..], key, value);
      assert [d[0]] + (d[1..] + [(key, value)]) == d + [(key, value)];
    }
  }
}

=== FILE: libsvm.dfy ===
/** The LibSVM reader of io.py (`loadLibSVM`, lines 427-454): one example
    per non-blank line, the class label first and then `index:value`
    features.  Every index becomes a continuous attribute named by the index
    text; attributes are ordered by the integer value of their index; the
    class is discrete over the sorted distinct labels unless some label holds
    a `.`, in which case it is a continuous `target`. */
module LibSvm {
  import opened Wrappers
  import opened Text
  import opened Feature
  import opened Collate

  datatype LibSvmError =
    | BadItem(item: string)    // a feature item that does not split on `:` into two parts
    | BadIndex(key: string)    // `int()` of a feature index fails

  /** The table's text: attributes, class variable, and one row of cells per
      example (attribute values, `?` where absent, then the class label). */
  datatype LibSvmTable = LibSvmTable(attributes: seq<Variable>, classVar: Variable, rows: seq<seq<string>>)

  // ---------------------------------------------------------------------
  // Lines and items
  // ---------------------------------------------------------------------

  /** Line 441: the words of every line that is not blank. */
  function Examples(lines: seq<string>): (exs: seq<seq<string>>)
    ensures |exs| <= |lines|
    ensures forall k :: 0 <= k < |exs| ==> |exs[k]| > 0
    ensures |exs| == 0 <==> forall k :: 0 <= k < |lines| ==> IsBlank(lines[k])
    // one line gives its white-space separated words, or nothing when blank
    ensures |lines| == 1 ==> exs == if IsBlank(lines[0]) then [] else [Words(lines[0])]
  {
    if |lines| == 0 then []
    else
      var rest := Examples(lines[1..]);
      assert forall k :: 1 <= k < |lines| ==> lines[k] == lines[1..][k - 1];
      if IsBlank(lines[0]) then rest else [Words(lines[0])] + rest
  }

  /** Reading lines in two parts reads them as a whole: every non-blank
      line contributes its words, in order, and a blank one nothing. */
  lemma {:induction false} ExamplesAppend(a: seq<string>, b: seq<string>)
    ensures Examples(a + b) == Examples(a) + Examples(b)
    decreases |a|
  {
    if |a| > 0 {
      assert (a + b)[1..] == a[1..] + b;
      ExamplesAppend(a[1..], b);
    } else {
      assert a + b == b;
    }
  }

  /** Line 444: `val.split(":")` unpacked into an index and a value. */
  function FeatureItem(item: string): (r: Result<(string, string), LibSvmError>)
    ensures r.Success? <==> |Split(item, ':')| == 2
    ensures r.Success? ==> ':' !in r.value.0 && ':' !in r.value.1 && r.value.0 + ":" + r.value.1 == item
    ensures r.Failure? ==> r.error == BadItem(item)
  {
    var parts := Split(item, ':');
    if |parts| != 2 then Failure(BadItem(item))
    else
      assert Join(parts, ":") == parts[0] + ":" + Join(parts[1..], ":");
      Success((parts[0], parts[1]))
  }

  /** An index and a value without colons, written `index:value`, read back. */
  lemma FeatureItemRoundTrip(key: string, value: string)
    requires ':' !in key && ':' !in value
    ensures FeatureItem(key + ":" + value) == Success((key, value))
  {
    var parts := [key, value];
    assert Join(parts[1..], ":") == value;
    assert Join(parts, ":") == key + ":" + value;
    SplitJoin(parts, ':');
  }

  /** The items of one example, all of which must be well formed. */
  function Features(items: seq<string>): (r: Result<seq<(string, string)>, LibSvmError>)
    ensures r.Success? <==> forall k :: 0 <= k < |items| ==> FeatureItem(items[k]).Success?
    ensures r.Success? ==> (|r.value| == |items|
        && forall k :: 0 <= k < |items| ==> FeatureItem(items[k]) == Success(r.value[k]))
    ensures r.Failure? ==> exists k :: 0 <= k < |items| && r.error == BadItem(items[k])
  {
    if |items| == 0 then Success([])
    else
      var first :- FeatureItem(items[0]);
      var rest :- Features(items[1..]);
      assert forall k :: 1 <= k < |items| ==> items[k] == items[1..][k - 1];
      Success([first] + rest)
  }

  /** Line 444 over every example: the feature pairs of each, in order. */
  function AllFeatures(exs: seq<seq<string>>): (r: Result<seq<seq<(string, string)>>, LibSvmError>)
    requires forall k :: 0 <= k < |exs| ==> |exs[k]| > 0
    ensures r.Success? <==> forall k :: 0 <= k < |exs| ==> Features(exs[k][1..]).Success?
    ensures r.Success? ==> (|r.value| == |exs|
        && forall k :: 0 <= k < |exs| ==> Features(exs[k][1..]) == Success(r.value[k]))
    ensures r.Failure? ==> exists k :: 0 <= k < |exs| && Features(exs[k][1..]) == Failure(r.error) && r.error.BadItem?
  {
    if |exs| == 0 then Success([])
    else
      var first :- Features(exs[0][1..]);
      var rest :- AllFeatures(exs[1..]);
      assert forall k :: 1 <= k < |exs| ==> exs[k] == exs[1..][k - 1];
      Success([first] + rest)
  }

  // ---------------------------------------------------------------------
  // Attributes
  // ---------------------------------------------------------------------

  /** The indexes of all feature pairs, example by example. */
  function IndexesOf(feats: seq<seq<(string, string)>>): (keys: seq<string>)
    ensures forall e, k :: 0 <= e < |feats| && 0 <= k < |feats[e]| ==> feats[e][k].0 in keys
    ensures forall key :: key in keys ==> exists e, k :: 0 <= e < |feats| && 0 <= k < |feats[e]| && feats[e][k].0 == key
  {
    if |feats| == 0 then []
    else
      var rest := IndexesOf(feats[1..]);
      var here := seq(|feats[0]|, k requires 0 <= k < |feats[0]| => feats[0][k].0);
      IndexesCons(feats, here, rest);
      here + rest
  }

  lemma IndexesCons(feats: seq<seq<(string, string)>>, here: seq<string>, rest: seq<string>)
    requires |feats| > 0
    requires |here| == |feats[0]| && forall k :: 0 <= k < |here| ==> here[k] == feats[0][k].0
    requires forall e, k :: 0 <= e < |feats[1..]| && 0 <= k < |feats[1..][e]| ==> feats[1..][e][k].0 in rest
    requires forall key :: key in rest ==> exists e, k :: 0 <= e < |feats[1..]| && 0 <= k < |feats[1..][e]| && feats[1..][e][k].0 == key
    ensures forall e, k :: 0 <= e < |feats| && 0 <= k < |feats[e]| ==> feats[e][k].0 in here + rest
    ensures forall key :: key in here + rest ==> exists e, k :: 0 <= e < |feats| && 0 <= k < |feats[e]| && feats[e][k].0 == key
  {
    forall e, k | 0 <= e < |feats| && 0 <= k < |feats[e]|
      ensures feats[e][k].0 in here + rest
    {
      if e == 0 {
        assert here[k] == feats[e][k].0;
      } else {
        assert feats[1..][e - 1][k] == feats[e][k];
      }
    }
    forall key | key in here + rest
      ensures exists e, k :: 0 <= e < |feats| && 0 <= k < |feats[e]| && feats[e][k].0 == key
    {
      if key in here {
        var k :| 0 <= k < |here| && here[k] == key;
        assert feats[0][k].0 == key;
      } else {
        var e, k :| 0 <= e < |feats[1..]| && 0 <= k < |feats[1..][e]| && feats[1..][e][k].0 == key;
        assert feats[e + 1][k].0 == key;
      }
    }
  }

  /** The order in which the variable dictionary creates the attributes:
      each index at its first use.  The dictionary's own iteration order is
      not specified by Python; first use is the order chosen here. */
  function FirstSeen(keys: seq<string>, seen: seq<string>): (r: seq<string>)
    requires forall i, j :: 0 <= i < j < |seen| ==> seen[i] != seen[j]
    ensures forall i, j :: 0 <= i < j < |r| ==> r[i] != r[j]
    ensures forall key :: key in r <==> key in seen || key in keys
    decreases |keys|
  {
    if |keys| == 0 then seen
    else
      assert forall key :: key in keys <==> key == keys[0] || key in keys[1..];
      if keys[0] in seen then FirstSeen(keys[1..], seen) else FirstSeen(keys[1..], seen + [keys[0]])
  }

  /** The integer value of every index, or the first index `int()` rejects. */
  function IndexValues(keys: seq<string>): (r: Result<seq<(string, int)>, LibSvmError>)
    ensures r.Success? <==> forall k :: 0 <= k < |keys| ==> ParseInt(keys[k]).Some?
    ensures r.Success? ==> (|r.value| == |keys|
        && forall k :: 0 <= k < |keys| ==> r.value[k].0 == keys[k] && ParseInt(keys[k]) == Some(r.value[k].1))
    ensures r.Failure? ==> exists k :: 0 <= k < |keys| && r.error == BadIndex(keys[k]) && ParseInt(keys[k]).None?
  {
    if |keys| == 0 then Success([])
    else
      match ParseInt(keys[0])
      case None => Failure(BadIndex(keys[0]))
      case Some(n) =>
        var rest :- IndexValues(keys[1..]);
        assert forall k :: 1 <= k < |keys| ==> keys[k] == keys[1..][k - 1];
        Success([(keys[0], n)] + rest)
  }

  /** Both names are integer indexes, the first no greater than the second. */
  predicate IndexAtMost(a: string, b: string) {
    match (ParseInt(a), ParseInt(b))
    case (Some(m), Some(n)) => m <= n
    case _ => false
  }

  /** The attributes of a set of indexes: one continuous variable per index,
      each named by an integer index, in non-decreasing order of that integer
      and without repetition. */
  predicate IndexedAttributes(keys: set<string>, attrs: seq<Variable>) {
    && (forall k :: 0 <= k < |attrs| ==> attrs[k] == Make(attrs[k].name, Continuous) && ParseInt(attrs[k].name).Some?)
    && (forall i, j :: 0 <= i < j < |attrs| ==> IndexAtMost(attrs[i].name, attrs[j].name))
    && (forall i, j :: 0 <= i < j < |attrs| ==> attrs[i].name != attrs[j].name)
    && (forall k :: 0 <= k < |attrs| ==> attrs[k].name in keys)
    && (forall key :: key in keys ==> exists k :: 0 <= k < |attrs| && attrs[k].name == key)
  }

  /** Line 447: the attributes sorted by the integer value of their index. */
  function Attributes(keys: seq<string>): (r: Result<seq<Variable>, LibSvmError>)
    requires forall i, j :: 0 <= i < j < |keys| ==> keys[i] != keys[j]
    ensures r.Success? <==> forall k :: 0 <= k < |keys| ==> ParseInt(keys[k]).Some?
    ensures r.Failure? ==> exists k :: 0 <= k < |keys| && r.error == BadIndex(keys[k]) && ParseInt(keys[k]).None?
    ensures r.Success? ==> |r.value| == |keys| && IndexedAttributes((set key | key in keys), r.value)
  {
    var pairs :- IndexValues(keys);
    var sorted := SortBy(pairs, (p: (string, int)) => p.1);
    SortedPairs(keys, pairs, sorted);
    ColumnsOfSorted(keys, sorted);
    Success(ContinuousColumns(sorted))
  }

  /** One continuous variable per sorted index. */
  function ContinuousColumns(sorted: seq<(string, int)>): (attrs: seq<Variable>)
    ensures |attrs| == |sorted|
    ensures forall k :: 0 <= k < |sorted| ==> attrs[k] == Make(sorted[k].0, Continuous)
  {
    seq(|sorted|, k requires 0 <= k < |sorted| => Make(sorted[k].0, Continuous))
  }

  /** The variables made from the sorted indexes are the attributes of those indexes. */
  lemma ColumnsOfSorted(keys: seq<string>, sorted: seq<(string, int)>)
    requires forall k :: 0 <= k < |sorted| ==> ParseInt(sorted[k].0) == Some(sorted[k].1)
    requires forall i, j :: 0 <= i < j < |sorted| ==> sorted[i].1 <= sorted[j].1
    requires forall i, j :: 0 <= i < j < |sorted| ==> sorted[i].0 != sorted[j].0
    requires forall key :: key in keys <==> exists k :: 0 <= k < |sorted| && sorted[k].0 == key
    ensures IndexedAttributes((set key | key in keys), ContinuousColumns(sorted))
  {
    var attrs := ContinuousColumns(sorted);
    assert forall k :: 0 <= k < |sorted| ==> attrs[k].name == sorted[k].0;
    forall i, j | 0 <= i < j < |attrs|
      ensures IndexAtMost(attrs[i].name, attrs[j].name)
    {
      assert ParseInt(attrs[i].name) == Some(sorted[i].1) && ParseInt(attrs[j].name) == Some(sorted[j].1);
    }
    forall key | key in keys
      ensures exists k :: 0 <= k < |attrs| && attrs[k].name == key
    {
      var k :| 0 <= k < |sorted| && sorted[k].0 == key;
      assert attrs[k].name == key;
    }
  }

  /** What the sort keeps of the indexed names: every name once, each with
      its own integer value, in non-decreasing order of that value. */
  lemma SortedPairs(keys: seq<string>, pairs: seq<(string, int)>, sorted: seq<(string, int)>)
    requires forall i, j :: 0 <= i < j < |keys| ==> keys[i] != keys[j]
    requires |pairs| == |keys| && forall k :: 0 <= k < |keys| ==> pairs[k].0 == keys[k] && ParseInt(keys[k]) == Some(pairs[k].1)
    requires SortedBy(sorted, (p: (string, int)) => p.1) && multiset(sorted) == multiset(pairs)
    ensures |sorted| == |keys|
    ensures forall k :: 0 <= k < |sorted| ==> ParseInt(sorted[k].0) == Some(sorted[k].1)
    ensures forall i, j :: 0 <= i < j < |sorted| ==> sorted[i].1 <= sorted[j].1
    ensures forall i, j :: 0 <= i < j < |sorted| ==> sorted[i].0 != sorted[j].0
    ensures forall key :: key in keys <==> exists k :: 0 <= k < |sorted| && sorted[k].0 == key
  {
    assert |sorted| == |multiset(sorted)| == |multiset(pairs)| == |pairs|;
    forall k | 0 <= k < |sorted|
      ensures ParseInt(sorted[k].0) == Some(sorted[k].1) && sorted[k].0 in keys
    {
      var i := PositionIn(pairs, sorted, k);
    }
    forall key | key in keys
      ensures exists k :: 0 <= k < |sorted| && sorted[k].0 == key
    {
      var i :| 0 <= i < |keys| && keys[i] == key;
      var k := PositionIn(sorted, pairs, i);
    }
    assert forall x, y :: 0 <= x < y < |pairs| ==> pairs[x] != pairs[y];
    forall i, j | 0 <= i < j < |sorted|
      ensures sorted[i].0 != sorted[j].0
    {
      if sorted[i].0 == sorted[j].0 {
        SameNameSamePair(sorted, i, j);
        DistinctOnce(pairs, sorted[i]);
        Repeated(sorted, i, j);
        assert false;
      }
    }
  }

  /** Where an element of one ordering of a multiset sits in another. */
  lemma PositionIn<T>(s: seq<T>, t: seq<T>, k: nat) returns (i: nat)
    requires multiset(s) == multiset(t) && k < |t|
    ensures i < |s| && s[i] == t[k]
  {
    assert t[k] in multiset(s);
    i :| 0 <= i < |s| && s[i] == t[k];
  }

  /** Two sorted pairs with the same index name carry the same value. */
  lemma SameNameSamePair(sorted: seq<(string, int)>, i: nat, j: nat)
    requires i < j < |sorted| && sorted[i].0 == sorted[j].0
    requires forall k :: 0 <= k < |sorted| ==> ParseInt(sorted[k].0) == Some(sorted[k].1)
    ensures sorted[i] == sorted[j]
  {
    assert ParseInt(sorted[i].0) == ParseInt(sorted[j].0);
  }

  /** An element of a sequence without repetitions occurs in it at most once. */
  lemma {:induction false} DistinctOnce<T>(s: seq<T>, x: T)
    requires forall i, j :: 0 <= i < j < |s| ==> s[i] != s[j]
    ensures multiset(s)[x] <= 1
    decreases |s|
  {
    if |s| > 0 {
      var init := s[..|s| - 1];
      assert s == init + [s[|s| - 1]];
      DistinctOnce(init, x);
      if x == s[|s| - 1] {
        assert x !in init;
      }
    }
  }

  /** An element at two positions occurs at least twice. */
  lemma Repeated<T>(s: seq<T>, i: nat, j: nat)
    requires i < j < |s| && s[i] == s[j]
    ensures multiset(s)[s[i]] >= 2
  {
    assert s == s[..j] + s[j..];
    assert s[i] in s[..j];
    assert s[j] == s[j..][0];
  }

  // ---------------------------------------------------------------------
  // Class variable
  // ---------------------------------------------------------------------

  /** Line 446: the labels are discrete when none holds a `.`. */
  predicate AllDiscrete(classes: seq<string>) {
    forall k :: 0 <= k < |classes| ==> '.' !in classes[k]
  }

  /** Line 448: `class` over the sorted distinct labels, or a continuous `target`. */
  function ClassVariable(classes: seq<string>): (v: Variable)
    ensures v.kind.Discrete? <==> AllDiscrete(classes)
    ensures v.kind.Discrete? ==> (v.name == "class" && Ascending(v.kind.values)
        && forall c :: c in v.kind.values <==> c in classes)
    ensures v.kind.Discrete? ==> v == Make("class", v.kind)
    ensures !v.kind.Discrete? ==> v == Make("target", Continuous)
  {
    if AllDiscrete(classes) then Make("class", Discrete(SortedSet(classes))) else Make("target", Continuous)
  }

  // ---------------------------------------------------------------------
  // The table
  // ---------------------------------------------------------------------

  /** Line 452: an example's cells, `?` for every attribute it does not mention. */
  function Row(feats: seq<(string, string)>, attributes: seq<Variable>, cls: string): (row: seq<string>)
    ensures |row| == |attributes| + 1 && row[|attributes|] == cls
    ensures forall k :: 0 <= k < |attributes| ==>
      row[k] == (match LastValue(feats, attributes[k].name) case Some(v) => v case None => "?")
  {
    seq(|attributes|, k requires 0 <= k < |attributes| =>
          match LastValue(feats, attributes[k].name) case Some(v) => v case None => "?")
      + [cls]
  }

  /** Line 452: the table of the examples over the sorted attributes. */
  function Assemble(exs: seq<seq<string>>, feats: seq<seq<(string, string)>>, attributes: seq<Variable>): (t: LibSvmTable)
    requires |feats| == |exs| && forall e :: 0 <= e < |exs| ==> |exs[e]| > 0
    ensures t.attributes == attributes && |t.rows| == |exs|
    ensures forall e :: 0 <= e < |exs| ==> t.rows[e] == Row(feats[e], attributes, exs[e][0])
    ensures t.classVar == ClassVariable(seq(|exs|, e requires 0 <= e < |exs| => exs[e][0]))
  {
    var classes := seq(|exs|, e requires 0 <= e < |exs| => exs[e][0]);
    LibSvmTable(attributes, ClassVariable(classes),
                seq(|exs|, e requires 0 <= e < |exs| => Row(feats[e], attributes, classes[e])))
  }

  /** io.py `loadLibSVM` on the lines of a file. */
  function LoadLibSvm(lines: seq<string>): (r: Result<LibSvmTable, LibSvmError>)
    ensures var feats := AllFeatures(Examples(lines));
      && (feats.Failure? ==> r.Failure? && r.error.BadItem?)
      && (feats.Success? ==>
            (r.Success? <==> forall key :: key in IndexesOf(feats.value) ==> ParseInt(key).Some?))
      && (feats.Success? && r.Failure? ==>
            (r.error.BadIndex? && r.error.key in IndexesOf(feats.value) && ParseInt(r.error.key).None?))
    ensures r.Success? ==> var exs := Examples(lines); var feats := AllFeatures(exs);
      && feats.Success?
      && r.value == Assemble(exs, feats.value, r.value.attributes)
    ensures r.Success? ==> var feats := AllFeatures(Examples(lines));
      feats.Success? && IndexedAttributes((set key | key in IndexesOf(feats.value)), r.value.attributes)
  {
    var exs := Examples(lines);
    var feats :- AllFeatures(exs);
    Table(exs, feats)
  }

  /** Lines 447-452 once every item has parsed: the attributes of all the
      indexes used, and the table over them. */
  function Table(exs: seq<seq<string>>, feats: seq<seq<(string, string)>>): (r: Result<LibSvmTable, LibSvmError>)
    requires |feats| == |exs| && forall e :: 0 <= e < |exs| ==> |exs[e]| > 0
    ensures var keys := IndexesOf(feats);
      && (r.Success? <==> forall key :: key in keys ==> ParseInt(key).Some?)
      && (r.Failure? ==> r.error.BadIndex? && r.error.key in keys && ParseInt(r.error.key).None?)
      && (r.Success? ==> r.value == Assemble(exs, feats, r.value.attributes)
                         && IndexedAttributes((set key | key in keys), r.value.attributes))
  {
    var keys := IndexesOf(feats);
    var order := FirstSeen(keys, []);
    SameIndexes(order, keys);
    var attributes :- Attributes(order);
    Success(Assemble(exs, feats, attributes))
  }

  /** Two lists of the same indexes: the same set, and every index of one
      is an integer exactly when every index of the other is. */
  lemma SameIndexes(order: seq<string>, keys: seq<string>)
    requires forall key :: key in order <==> key in keys
    ensures (set key | key in order) == (set key | key in keys)
    ensures (forall k :: 0 <= k < |order| ==> ParseInt(order[k]).Some?) <==> (forall key :: key in keys ==> ParseInt(key).Some?)
  {
  }
}

=== FILE: r_export.dfy ===
/** The R writer of io.py (`toR`, lines 362-418): a script building a
    `data.frame` with one vector per variable, `c(...)` of numbers for a
    continuous variable and `factor(...)` / `ordered(...)` over `"x"`-prefixed
    levels for a discrete one.  Values come in already rendered by `str`;
    `None` stands for a special (missing) value. */
module RExport {
  import opened Wrappers
  import opened Text
  import opened Feature

  datatype RError = UnknownType(name: string)   // a variable neither continuous nor discrete

  // ---------------------------------------------------------------------
  // The writer's loops
  // ---------------------------------------------------------------------

  /** The loop shape `toR` uses everywhere: each item, then `closer` after
      the last one and `sep` after every other.  Nothing at all, not even
      the closer, is written for no items. */
  function Loop(items: seq<string>, sep: string, closer: string): string
  {
    if |items| == 0 then ""
    else if |items| == 1 then items[0] + closer
    else items[0] + sep + Loop(items[1..], sep, closer)
  }

  /** The loop writes the items joined by `sep` and then the closer, when
      there is at least one item. */
  lemma {:induction false} LoopJoin(items: seq<string>, sep: string, closer: string)
    ensures |items| == 0 ==> Loop(items, sep, closer) == ""
    ensures |items| > 0 ==> Loop(items, sep, closer) == Join(items, sep) + closer
    decreases |items|
  {
    if |items| > 1 {
      LoopJoin(items[1..], sep, closer);
      assert Join(items, sep) == items[0] + sep + Join(items[1..], sep);
    }
  }

  /** Lines 385-388 and 406-409: a value as R reads it. */
  function Cell(c: Option<string>, discrete: bool): string
  {
    match c
    case None => "NA"
    case Some(v) => if discrete then "\"x" + v + "\"" else v
  }

  function Cells(cells: seq<Option<string>>, discrete: bool): (r: seq<string>)
    ensures |r| == |cells| && forall j :: 0 <= j < |cells| ==> r[j] == Cell(cells[j], discrete)
  {
    seq(|cells|, j requires 0 <= j < |cells| => Cell(cells[j], discrete))
  }

  /** Lines 399-404: the levels, `"x"`-prefixed. */
  function Levels(values: seq<string>): (r: seq<string>)
    ensures |r| == |values| && forall j :: 0 <= j < |values| ==> r[j] == "\"x" + values[j] + "\""
  {
    seq(|values|, j requires 0 <= j < |values| => "\"x" + values[j] + "\"")
  }

  // ---------------------------------------------------------------------
  // Columns
  // ---------------------------------------------------------------------

  /** Lines 382-415: the vector of one variable over its column of values,
      as written. */
  function Column(v: Variable, cells: seq<Option<string>>): (r: Result<string, RError>)
    ensures r.Failure? <==> !(v.kind.Continuous? || v.kind.Discrete?)
    ensures r.Failure? ==> r.error == UnknownType(v.name)
  {
    var head := "\"" + v.name + "\" = ";
    match v.kind
    case Continuous => Success(head + "c(" + Loop(Cells(cells, false), ",", ")"))
    case Discrete(values) =>
      Success(head + (if v.ordered then "ordered(" else "factor(") + "levels=c("
              + Loop(Levels(values), ",", "),c(") + Loop(Cells(cells, true), ",", "))"))
    case _ => Failure(UnknownType(v.name))
  }

  /** The column as evidently intended: every bracket closed even when the
      table or the value list is empty. */
  function ColumnIntended(v: Variable, cells: seq<Option<string>>): (r: Result<string, RError>)
    ensures r.Failure? <==> !(v.kind.Continuous? || v.kind.Discrete?)
    ensures r.Failure? ==> r.error == UnknownType(v.name)
  {
    var head := "\"" + v.name + "\" = ";
    match v.kind
    case Continuous => Success(head + "c(" + Join(Cells(cells, false), ",") + ")")
    case Discrete(values) =>
      Success(head + (if v.ordered then "ordered(" else "factor(") + "levels=c("
              + Join(Levels(values), ",") + "),c(" + Join(Cells(cells, true), ",") + "))")
    case _ => Failure(UnknownType(v.name))
  }

  /** On a table with examples, and for a discrete variable with values,
      the column as written is the intended one. */
  lemma ColumnAsIntended(v: Variable, cells: seq<Option<string>>)
    requires |cells| > 0 && (v.kind.Discrete? ==> |v.kind.values| > 0)
    ensures Column(v, cells) == ColumnIntended(v, cells)
  {
    var head := "\"" + v.name + "\" = ";
    if v.kind.Continuous? {
      LoopJoin(Cells(cells, false), ",", ")");
      assert Column(v, cells).value == head + "c(" + Loop(Cells(cells, false), ",", ")");
      var j := Join(Cells(cells, false), ",");
      assert (head + "c(") + (j + ")") == head + "c(" + j + ")";
    } else if v.kind.Discrete? {
      var opener := if v.ordered then "ordered(" else "factor(";
      var levels, body := Levels(v.kind.values), Cells(cells, true);
      LoopJoin(levels, ",", "),c(");
      LoopJoin(body, ",", "))");
      var x := head + opener + "levels=c(";
      assert Column(v, cells).value == x + Loop(levels, ",", "),c(") + Loop(body, ",", "))");
      assert ColumnIntended(v, cells).value == x + Join(levels, ",") + "),c(" + Join(body, ",") + "))";
      var l, b := Join(levels, ","), Join(body, ",");
      assert x + (l + "),c(") + (b + "))") == x + l + "),c(" + b + "))";
    }
  }

  // ---------------------------------------------------------------------
  // Bracket balance
  // ---------------------------------------------------------------------

  /** The number of occurrences of `c` in `s`. */
  function Count(s: string, c: char): (n: nat)
    ensures n == 0 <==> c !in s
    ensures n <= |s|
  {
    if |s| == 0 then 0 else (if s[0] == c then 1 else 0) + Count(s[1..], c)
  }

  lemma {:induction false} CountAppend(a: string, b: string, c: char)
    ensures Count(a + b, c) == Count(a, c) + Count(b, c)
    decreases |a|
  {
    if |a| > 0 {
      assert (a + b)[1..] == a[1..] + b;
      CountAppend(a[1..], b, c);
    } else {
      assert a + b == b;
    }
  }

  /** Text in which no bracket appears. */
  predicate NoBrackets(s: string) {
    '(' !in s && ')' !in s
  }

  /** The names and values hold no bracket, so the only brackets in a
      column are the ones the writer adds. */
  predicate PlainColumn(v: Variable, cells: seq<Option<string>>) {
    && NoBrackets(v.name)
    && (v.kind.Discrete? ==> forall j :: 0 <= j < |v.kind.values| ==> NoBrackets(v.kind.values[j]))
    && forall j :: 0 <= j < |cells| ==> cells[j].Some? ==> NoBrackets(cells[j].value)
  }

  /** A bracket-free join of bracket-free parts. */
  lemma JoinNoBrackets(parts: seq<string>)
    requires forall k :: 0 <= k < |parts| ==> NoBrackets(parts[k])
    ensures NoBrackets(Join(parts, ","))
  {
    JoinAvoids(parts, ",", '(');
    JoinAvoids(parts, ",", ')');
  }

  lemma CellsNoBrackets(cells: seq<Option<string>>, discrete: bool)
    requires forall j :: 0 <= j < |cells| ==> cells[j].Some? ==> NoBrackets(cells[j].value)
    ensures NoBrackets(Join(Cells(cells, discrete), ","))
  {
    var r := Cells(cells, discrete);
    forall j | 0 <= j < |r|
      ensures NoBrackets(r[j])
    {
      if cells[j].Some? && discrete {
        assert r[j] == "\"x" + cells[j].value + "\"";
      }
    }
    JoinNoBrackets(r);
  }

  lemma LevelsNoBrackets(values: seq<string>)
    requires forall j :: 0 <= j < |values| ==> NoBrackets(values[j])
    ensures NoBrackets(Join(Levels(values), ","))
  {
    var r := Levels(values);
    forall j | 0 <= j < |r|
      ensures NoBrackets(r[j])
    {
      assert r[j] == "\"x" + values[j] + "\"";
    }
    JoinNoBrackets(r);
  }

  /** Balanced brackets: as many closing as opening ones. */
  predicate Balanced(s: string) {
    Count(s, '(') == Count(s, ')')
  }

  /** The intended column closes every bracket it opens, for every table,
      empty or not. */
  lemma ColumnIntendedBalanced(v: Variable, cells: seq<Option<string>>)
    requires PlainColumn(v, cells) && ColumnIntended(v, cells).Success?
    ensures Balanced(ColumnIntended(v, cells).value)
  {
    var head := "\"" + v.name + "\" = ";
    assert NoBrackets(head);
    if v.kind.Continuous? {
      var body := Join(Cells(cells, false), ",");
      CellsNoBrackets(cells, false);
      var s := head + "c(" + body + ")";
      assert ColumnIntended(v, cells).value == s;
      CountAppend(head + "c(" + body, ")", '(');
      CountAppend(head + "c(" + body, ")", ')');
      CountAppend(head + "c(", body, '(');
      CountAppend(head + "c(", body, ')');
      CountAppend(head, "c(", '(');
      CountAppend(head, "c(", ')');
      EndsWithOpen("c(");
    } else {
      var opener := if v.ordered then "ordered(" else "factor(";
      var levels := Join(Levels(v.kind.values), ",");
      var body := Join(Cells(cells, true), ",");
      LevelsNoBrackets(v.kind.values);
      CellsNoBrackets(cells, true);
      DiscreteBalanced(head, opener, levels, body);
    }
  }

  /** The bracket count of an intended discrete column, piece by piece. */
  lemma DiscreteBalanced(head: string, opener: string, levels: string, body: string)
    requires NoBrackets(head) && NoBrackets(levels) && NoBrackets(body)
    requires opener == "ordered(" || opener == "factor("
    ensures Balanced(head + opener + "levels=c(" + levels + "),c(" + body + "))")
  {
    BracketCounts(opener);
    var s1 := head + opener;
    var s2 := s1 + "levels=c(";
    var s3 := s2 + levels;
    var s4 := s3 + "),c(";
    var s5 := s4 + body;
    var s6 := s5 + "))";
    CountAppend(head, opener, '(');
    CountAppend(head, opener, ')');
    CountAppend(s1, "levels=c(", '(');
    CountAppend(s1, "levels=c(", ')');
    CountAppend(s2, levels, '(');
    CountAppend(s2, levels, ')');
    CountAppend(s3, "),c(", '(');
    CountAppend(s3, "),c(", ')');
    CountAppend(s4, body, '(');
    CountAppend(s4, body, ')');
    CountAppend(s5, "))", '(');
    CountAppend(s5, "))", ')');
  }

  /** The brackets in the pieces the writer adds. */
  lemma BracketCounts(opener: string)
    requires opener == "ordered(" || opener == "factor("
    ensures Count(opener, '(') == 1 && Count(opener, ')') == 0
    ensures Count("levels=c(", '(') == 1 && Count("levels=c(", ')') == 0
    ensures Count("),c(", '(') == 1 && Count("),c(", ')') == 1
    ensures Count("))", '(') == 0 && Count("))", ')') == 2
  {
    OpenerBrackets(opener);
    LevelsBrackets();
    CloseThenOpen();
    CloseClose();
  }

  lemma OpenerBrackets(opener: string)
    requires opener == "ordered(" || opener == "factor("
    ensures Count(opener, '(') == 1 && Count(opener, ')') == 0
  {
    if opener == "ordered(" {
      OrderedBrackets();
    } else {
      FactorBrackets();
    }
  }

  lemma OrderedBrackets()
    ensures Count("ordered(", '(') == 1 && Count("ordered(", ')') == 0
  {
    EndsWithOpen("ordered(");
  }

  lemma FactorBrackets()
    ensures Count("factor(", '(') == 1 && Count("factor(", ')') == 0
  {
    EndsWithOpen("factor(");
  }

  lemma LevelsBrackets()
    ensures Count("levels=c(", '(') == 1 && Count("levels=c(", ')') == 0
  {
    EndsWithOpen("levels=c(");
  }

  /** A word ending in its only bracket, an opening one. */
  lemma EndsWithOpen(s: string)
    requires |s| > 0 && s[|s| - 1] == '(' && NoBrackets(s[..|s| - 1])
    ensures Count(s, '(') == 1 && Count(s, ')') == 0
  {
    var word := s[..|s| - 1];
    assert s == word + "(";
    CountAppend(word, "(", '(');
    CountAppend(word, "(", ')');
  }

  lemma CloseThenOpen()
    ensures Count("),c(", '(') == 1 && Count("),c(", ')') == 1
  {
    assert "),c("[1..] == ",c(";
    EndsWithOpen(",c(");
  }

  lemma CloseClose()
    ensures Count("))", '(') == 0 && Count("))", ')') == 2
  {
    assert "))"[1..] == ")";
  }

  /** As written, a continuous column of a table with no examples opens
      `c(` and never closes it. */
  lemma EmptyTableColumnOpen(v: Variable)
    requires v.kind.Continuous? && NoBrackets(v.name)
    ensures Column(v, []) == Success("\"" + v.name + "\" = " + "c(")
    ensures Count(Column(v, []).value, '(') == Count(Column(v, []).value, ')') + 1
  {
    var head := "\"" + v.name + "\" = ";
    assert NoBrackets(head);
    assert Cells([], false) == [];
    assert Loop([], ",", ")") == "";
    assert Column(v, []).value == head + "c(" + "";
    assert head + "c(" + "" == head + "c(";
    CountAppend(head, "c(", '(');
    CountAppend(head, "c(", ')');
    EndsWithOpen("c(");
  }

  // ---------------------------------------------------------------------
  // The script
  // ---------------------------------------------------------------------

  /** The column of values of variable `i`. */
  function ColumnOf(rows: seq<seq<Option<string>>>, i: nat): (cells: seq<Option<string>>)
    requires forall j :: 0 <= j < |rows| ==> i < |rows[j]|
    ensures |cells| == |rows| && forall j :: 0 <= j < |rows| ==> cells[j] == rows[j][i]
  {
    seq(|rows|, j requires 0 <= j < |rows| => rows[j][i])
  }

  /** The kinds R has a vector for. */
  predicate HasVector(v: Variable) {
    v.kind.Continuous? || v.kind.Discrete?
  }

  /** One column as written (`intended` false) or as evidently intended. */
  function ColumnAs(intended: bool, v: Variable, cells: seq<Option<string>>): Result<string, RError>
  {
    if intended then ColumnIntended(v, cells) else Column(v, cells)
  }

  /** The columns of the variables in order, or the first variable of a
      kind R has no vector for. */
  function ColumnsAs(intended: bool, variables: seq<Variable>, rows: seq<seq<Option<string>>>, from: nat)
    : (r: Result<seq<string>, RError>)
    requires from <= |variables|
    requires forall j :: 0 <= j < |rows| ==> |rows[j]| == |variables|
    ensures r.Success? <==> forall i :: from <= i < |variables| ==> HasVector(variables[i])
    ensures r.Success? ==> (|r.value| == |variables| - from
      && forall i :: from <= i < |variables| ==> Success(r.value[i - from]) == ColumnAs(intended, variables[i], ColumnOf(rows, i)))
    ensures r.Failure? ==> exists i :: from <= i < |variables| && r.error == UnknownType(variables[i].name)
                                     && !HasVector(variables[i]) && forall j :: from <= j < i ==> HasVector(variables[j])
    decreases |variables| - from
  {
    if from == |variables| then Success([])
    else
      var first :- ColumnAs(intended, variables[from], ColumnOf(rows, from));
      var rest :- ColumnsAs(intended, variables, rows, from + 1);
      Success([first] + rest)
  }

  /** Lines 380-415: the columns as io.py writes them. */
  function Columns(variables: seq<Variable>, rows: seq<seq<Option<string>>>, from: nat): (r: Result<seq<string>, RError>)
    requires from <= |variables|
    requires forall j :: 0 <= j < |rows| ==> |rows[j]| == |variables|
    ensures r.Success? <==> forall i :: from <= i < |variables| ==> HasVector(variables[i])
    ensures r.Success? ==> (|r.value| == |variables| - from
      && forall i :: from <= i < |variables| ==> Success(r.value[i - from]) == Column(variables[i], ColumnOf(rows, i)))
    ensures r.Failure? ==> exists i :: from <= i < |variables| && r.error == UnknownType(variables[i].name)
                                     && !HasVector(variables[i]) && forall j :: from <= j < i ==> HasVector(variables[j])
  {
    ColumnsAs(false, variables, rows, from)
  }

  /** The columns with every vector closed (see `ColumnIntended`). */
  function ColumnsIntended(variables: seq<Variable>, rows: seq<seq<Option<string>>>, from: nat): (r: Result<seq<string>, RError>)
    requires from <= |variables|
    requires forall j :: 0 <= j < |rows| ==> |rows[j]| == |variables|
    ensures r.Success? <==> forall i :: from <= i < |variables| ==> HasVector(variables[i])
    ensures r.Success? ==> (|r.value| == |variables| - from
      && forall i :: from <= i < |variables| ==> Success(r.value[i - from]) == ColumnIntended(variables[i], ColumnOf(rows, i)))
    ensures r.Failure? ==> exists i :: from <= i < |variables| && r.error == UnknownType(variables[i].name)
                                     && !HasVector(variables[i]) && forall j :: from <= j < i ==> HasVector(variables[j])
  {
    ColumnsAs(true, variables, rows, from)
  }

  /** Lines 362-418: the script around the columns; the loop writes no separator after the last one. */
  function Script(cols: seq<string>): (text: string)
    ensures |cols| == 0 ==> text == "data <- data.frame(\n)\n"
    ensures |cols| > 0 ==> text == "data <- data.frame(\n" + Join(cols, ",\n") + ")\n"
  {
    LoopJoin(cols, ",\n", "");
    assert |cols| > 0 ==> Join(cols, ",\n") + "" == Join(cols, ",\n");
    "data <- data.frame(\n" + Loop(cols, ",\n", "") + ")\n"
  }

  /** io.py `toR`: the script text, the columns as written (see `Column`).
      Every example holds one value per variable (attributes and class). */
  function ToR(variables: seq<Variable>, rows: seq<seq<Option<string>>>): (r: Result<string, RError>)
    requires forall j :: 0 <= j < |rows| ==> |rows[j]| == |variables|
    ensures r.Success? <==> forall i :: 0 <= i < |variables| ==> HasVector(variables[i])
    ensures r.Failure? ==> exists i :: 0 <= i < |variables| && r.error == UnknownType(variables[i].name)
                                     && !HasVector(variables[i]) && forall j :: 0 <= j < i ==> HasVector(variables[j])
    ensures r.Success? ==> var cols := Columns(variables, rows, 0).value;
      && |cols| == |variables|
      && (|variables| == 0 ==> r.value == "data <- data.frame(\n)\n")
      && (|variables| > 0 ==> r.value == "data <- data.frame(\n" + Join(cols, ",\n") + ")\n")
  {
    var cols :- Columns(variables, rows, 0);
    Success(Script(cols))
  }

  /** `toR` with every column written as evidently intended. */
  function ToRIntended(variables: seq<Variable>, rows: seq<seq<Option<string>>>): (r: Result<string, RError>)
    requires forall j :: 0 <= j < |rows| ==> |rows[j]| == |variables|
    ensures r.Success? <==> forall i :: 0 <= i < |variables| ==> HasVector(variables[i])
    ensures r.Failure? ==> exists i :: 0 <= i < |variables| && r.error == UnknownType(variables[i].name)
                                     && !HasVector(variables[i]) && forall j :: 0 <= j < i ==> HasVector(variables[j])
    ensures r.Success? ==> var cols := ColumnsIntended(variables, rows, 0).value;
      && |cols| == |variables|
      && (|variables| == 0 ==> r.value == "data <- data.frame(\n)\n")
      && (|variables| > 0 ==> r.value == "data <- data.frame(\n" + Join(cols, ",\n") + ")\n")
  {
    var cols :- ColumnsIntended(variables, rows, 0);
    Success(Script(cols))
  }

  /** On a table with examples, where every discrete variable has values,
      the script as written is the intended one. */
  lemma ToRAsIntended(variables: seq<Variable>, rows: seq<seq<Option<string>>>)
    requires |rows| > 0 && forall j :: 0 <= j < |rows| ==> |rows[j]| == |variables|
    requires forall i :: 0 <= i < |variables| && variables[i].kind.Discrete? ==> |variables[i].kind.values| > 0
    ensures ToR(variables, rows) == ToRIntended(variables, rows)
  {
    var a, b := Columns(variables, rows, 0), ColumnsIntended(variables, rows, 0);
    if a.Success? {
      forall i | 0 <= i < |variables|
        ensures a.value[i] == b.value[i]
      {
        ColumnAsIntended(variables[i], ColumnOf(rows, i));
      }
      assert a.value == b.value;
    }
  }
}

=== FILE: tab_grammar.dfy ===
/** The cell and row grammar of Orange's tab-delimited format: the type row
    (io.py `var_type`, `is_var_types_row`), the annotation row
    (`var_attribute`, `_var_attribute_label_parse`, `is_var_attributes_row`)
    and the one-row "simplified header" (`parse_simplified_header`). */
module TabGrammar {
  import opened Wrappers
  import opened Text
  import opened Feature

  /** What a type-row cell declares.  `TUnspecified` is the blank cell
      (`variable.Descriptor`): the type is deduced from the data. */
  datatype TypeDef =
    | TContinuous
    | TDiscrete
    | TString
    | TPython
    | TUnspecified
    | TDiscreteList(values: seq<string>)

  /** The role an annotation cell gives a column; no role means ordinary attribute. */
  datatype Role = Meta | Class | MultiClass | Ignore

  datatype Annotation = Annotation(role: Option<Role>, labels: Labels)

  datatype GrammarError =
    | UnknownTypeDefinition(cell: string)
    | InvalidLabelDefinition(item: string)

  /** The escape character of the tab format. */
  const Esc: char := '\\'

  // ---------------------------------------------------------------------
  // Type row
  // ---------------------------------------------------------------------

  /** io.py `var_type`: keywords first, then the `python` prefix, then the
      blank cell, then a list of at least two space-separated values. */
  function VarType(cell: string): (r: Result<TypeDef, GrammarError>)
    ensures r.Success? && r.value.TDiscreteList? ==> r.value.values == SplitEscaped(cell, ' ', Esc) && |r.value.values| >= 2
    ensures r.Failure? ==> r.error == UnknownTypeDefinition(cell) && |SplitEscaped(cell, ' ', Esc)| == 1
    // the keywords and the blank cell
    ensures cell == "c" || cell == "continuous" ==> r == Success(TContinuous)
    ensures cell == "d" || cell == "discrete" ==> r == Success(TDiscrete)
    ensures cell == "s" || cell == "string" ==> r == Success(TString)
    ensures cell == "" ==> r == Success(TUnspecified)
    // a cell is rejected exactly when it is no keyword, not `python...`, not blank and a single word
    ensures r.Failure? <==>
      && cell !in ["c", "continuous", "d", "discrete", "s", "string", ""]
      && !StartsWith(cell, "python")
      && |SplitEscaped(cell, ' ', Esc)| <= 1
  {
    if cell == "c" || cell == "continuous" then Success(TContinuous)
    else if cell == "d" || cell == "discrete" then Success(TDiscrete)
    else if cell == "s" || cell == "string" then Success(TString)
    else if StartsWith(cell, "python") then Success(TPython)
    else if cell == "" then Success(TUnspecified)
    else if |SplitEscaped(cell, ' ', Esc)| > 1 then Success(TDiscreteList(SplitEscaped(cell, ' ', Esc)))
    else Failure(UnknownTypeDefinition(cell))
  }

  /** The `python` prefix is checked before the value-list rule, so a cell
      such as `python a b` declares a Python column, not three values. */
  lemma PythonPrefixFirst(cell: string)
    requires StartsWith(cell, "python")
    ensures VarType(cell) == Success(TPython)
  {
    assert cell[0] == 'p';
  }

  /** io.py `is_standard_var_def` */
  predicate IsStandardVarDef(cell: string) {
    VarType(cell).Success?
  }

  /** io.py `is_var_types_row`: every cell is a type definition (vacuously so for an empty row). */
  predicate IsVarTypesRow(row: seq<string>) {
    forall i :: 0 <= i < |row| ==> IsStandardVarDef(row[i])
  }

  /** io.py `var_types`: the type of every cell, or the error of the first bad cell. */
  function VarTypes(row: seq<string>): (r: Result<seq<TypeDef>, GrammarError>)
    ensures r.Success? <==> IsVarTypesRow(row)
    ensures r.Success? ==> |r.value| == |row| && forall i :: 0 <= i < |row| ==> VarType(row[i]) == Success(r.value[i])
    ensures r.Failure? ==> exists i :: 0 <= i < |row| && VarType(row[i]) == Failure(r.error)
                                     && forall j :: 0 <= j < i ==> IsStandardVarDef(row[j])
  {
    MapCells(VarType, row)
  }

  /** `[f(cell) for cell in row]` where `f` raises on a bad cell: every
      result, or the error of the first cell `f` rejects. */
  function MapCells<T>(f: string -> Result<T, GrammarError>, row: seq<string>): (r: Result<seq<T>, GrammarError>)
    ensures r.Success? <==> forall i :: 0 <= i < |row| ==> f(row[i]).Success?
    ensures r.Success? ==> |r.value| == |row| && forall i :: 0 <= i < |row| ==> f(row[i]) == Success(r.value[i])
    ensures r.Failure? ==> exists i :: 0 <= i < |row| && f(row[i]) == Failure(r.error)
                                     && forall j :: 0 <= j < i ==> f(row[j]).Success?
  {
    if |row| == 0 then Success([])
    else
      match f(row[0])
      case Failure(e) => Failure(e)
      case Success(t) =>
        match MapCells(f, row[1..])
        case Failure(e) =>
          assert forall i :: 0 <= i < |row| - 1 ==> row[1..][i] == row[i + 1];
          Failure(e)
        case Success(ts) =>
          assert forall i :: 0 < i < |row| ==> row[i] == row[1..][i - 1];
          Success([t] + ts)
  }

  // ---------------------------------------------------------------------
  // Annotation row
  // ---------------------------------------------------------------------

  /** The role keyword a first token may be. */
  function RoleKeyword(token: string): Option<Role>
  {
    if token == "m" || token == "meta" then Some(Meta)
    else if token == "c" || token == "class" then Some(Class)
    else if token == "multiclass" then Some(MultiClass)
    else if token == "i" || token == "ignore" then Some(Ignore)
    else None
  }

  /** io.py `_var_attribute_label_parse`: `key=value`, split on an unescaped `=`. */
  function LabelParse(item: string): (r: Result<(string, string), GrammarError>)
    ensures r.Success? <==> |SplitEscaped(item, '=', Esc)| == 2
    ensures r.Success? ==> SplitEscaped(item, '=', Esc) == [r.value.0, r.value.1]
    ensures r.Failure? ==> r.error == InvalidLabelDefinition(item)
  {
    var kv := SplitEscaped(item, '=', Esc);
    if |kv| == 2 then Success((kv[0], kv[1])) else Failure(InvalidLabelDefinition(item))
  }

  /** `map(_var_attribute_label_parse, items)`: fails on the first bad item. */
  function LabelsParse(items: seq<string>): (r: Result<seq<(string, string)>, GrammarError>)
    ensures r.Success? <==> forall i :: 0 <= i < |items| ==> LabelParse(items[i]).Success?
    ensures r.Success? ==> |r.value| == |items| && forall i :: 0 <= i < |items| ==> LabelParse(items[i]) == Success(r.value[i])
    ensures r.Failure? ==> exists i :: 0 <= i < |items| && LabelParse(items[i]) == Failure(r.error)
                                     && forall j :: 0 <= j < i ==> LabelParse(items[j]).Success?
  {
    MapCells(LabelParse, items)
  }

  /** The words of an annotation cell that must be `key=value` labels: all
      of them but a leading role keyword. */
  function LabelWords(cell: string): (words: seq<string>)
    ensures var items := SplitEscaped(cell, ' ', Esc);
      words == if RoleKeyword(items[0]).Some? then items[1..] else items
  {
    var items := SplitEscaped(cell, ' ', Esc);
    if RoleKeyword(items[0]).Some? then items[1..] else items
  }

  /** io.py `var_attribute`: an optional leading role keyword, then `key=value` labels. */
  function VarAttribute(cell: string): (r: Result<Annotation, GrammarError>)
    ensures cell == "" ==> r == Success(Annotation(None, []))
    // every word after the role must split on an unescaped `=` into exactly two parts
    ensures cell != "" ==>
      (r.Success? <==> forall i :: 0 <= i < |LabelWords(cell)| ==> |SplitEscaped(LabelWords(cell)[i], '=', Esc)| == 2)
    // the error names the first word that does not
    ensures r.Failure? ==>
      exists i ::
      && 0 <= i < |LabelWords(cell)|
      && r.error == InvalidLabelDefinition(LabelWords(cell)[i])
      && |SplitEscaped(LabelWords(cell)[i], '=', Esc)| != 2
      && forall j :: 0 <= j < i ==> |SplitEscaped(LabelWords(cell)[j], '=', Esc)| == 2
    // the role is the first word's keyword, the labels a dictionary of the pairs
    ensures r.Success? && cell != "" ==>
      r.value == Annotation(RoleKeyword(SplitEscaped(cell, ' ', Esc)[0]), DictOf(LabelsParse(LabelWords(cell)).value))
    ensures r.Success? ==> DistinctKeys(r.value.labels)
  {
    if cell == "" then Success(Annotation(None, []))
    else
      var role := RoleKeyword(SplitEscaped(cell, ' ', Esc)[0]);
      match LabelsParse(LabelWords(cell))
      case Failure(e) => Failure(e)
      case Success(pairs) => Success(Annotation(role, DictOf(pairs)))
  }

  /** io.py `is_var_attributes_def` */
  predicate IsVarAttributesDef(cell: string) {
    VarAttribute(cell).Success?
  }

  /** io.py `is_var_attributes_row` */
  predicate IsVarAttributesRow(row: seq<string>) {
    forall i :: 0 <= i < |row| ==> IsVarAttributesDef(row[i])
  }

  /** io.py `var_attributes` */
  function VarAttributes(row: seq<string>): (r: Result<seq<Annotation>, GrammarError>)
    ensures r.Success? <==> IsVarAttributesRow(row)
    ensures r.Success? ==> |r.value| == |row| && forall i :: 0 <= i < |row| ==> VarAttribute(row[i]) == Success(r.value[i])
  {
    MapCells(VarAttribute, row)
  }

  /** A role keyword alone is that role with no labels. */
  lemma RoleKeywordAlone(token: string)
    requires RoleKeyword(token).Some?
    ensures VarAttribute(token) == Success(Annotation(RoleKeyword(token), []))
  {
    assert ' ' !in token && Esc !in token;
    SplitEscapedNoSeparator(token, ' ', Esc);
  }

  /** A single word that is not a role keyword and has no `=` is rejected:
      every remaining token must be a `key=value` pair. */
  lemma BareWordRejected(word: string)
    requires word != "" && ' ' !in word && '=' !in word && Esc !in word
    requires RoleKeyword(word).None?
    ensures VarAttribute(word) == Failure(InvalidLabelDefinition(word))
  {
    SplitEscapedNoSeparator(word, ' ', Esc);
    SplitEscapedNoSeparator(word, '=', Esc);
  }

  /** A cell ending in an unescaped space leaves an empty last token, which is
      not a `key=value` pair, so the cell is rejected. */
  lemma TrailingSpaceRejected(cell: string)
    requires |cell| > 0 && cell[|cell| - 1] == ' '
    requires |cell| >= 2 ==> cell[|cell| - 2] != Esc
    ensures VarAttribute(cell).Failure?
  {
    TrailingEmptyWord(cell);
    EmptyItemRejected(cell, SplitEscaped(cell, ' ', Esc));
  }

  /** An unescaped trailing space ends the words with an empty one. */
  lemma TrailingEmptyWord(cell: string)
    requires |cell| > 0 && cell[|cell| - 1] == ' '
    requires |cell| >= 2 ==> cell[|cell| - 2] != Esc
    ensures var items := SplitEscaped(cell, ' ', Esc); |items| >= 2 && items[|items| - 1] == ""
  {
    var s := cell[..|cell| - 1];
    assert s + [' '] == cell;
    SplitRawTrailingSeparator(s, ' ', Esc, false);
    var raw := SplitRaw(cell, ' ', Esc, false);
    assert Unescape(raw[|raw| - 1], ' ', Esc) == "";
  }

  /** A cell whose words, after the first, include an empty one is rejected. */
  lemma EmptyItemRejected(cell: string, items: seq<string>)
    requires cell != "" && items == SplitEscaped(cell, ' ', Esc)
    requires |items| >= 2 && items[|items| - 1] == ""
    ensures VarAttribute(cell).Failure?
  {
    var rest := if RoleKeyword(items[0]).Some? then items[1..] else items;
    assert rest[|rest| - 1] == "";
    EmptyLabelRejected();
  }

  lemma EmptyLabelRejected()
    ensures LabelParse("").Failure?
  {
    assert SplitEscaped("", '=', Esc) == [""];
  }

  /** The raw split of text followed by an unescaped separator ends with an empty piece. */
  lemma {:induction false} SplitRawTrailingSeparator(s: string, sep: char, esc: char, afterEsc: bool)
    requires sep != esc
    requires if |s| == 0 then !afterEsc else s[|s| - 1] != esc
    ensures var p := SplitRaw(s + [sep], sep, esc, afterEsc); |p| >= 2 && p[|p| - 1] == ""
  {
    var t := s + [sep];
    if |s| == 0 {
      assert t == [sep];
      assert SplitRaw(t, sep, esc, afterEsc) == [""] + SplitRaw("", sep, esc, false);
    } else {
      assert t[1..] == s[1..] + [sep] && t[0] == s[0];
      if s[0] == sep && !afterEsc {
        SplitRawTrailingSeparator(s[1..], sep, esc, sep == esc);
      } else {
        SplitRawTrailingSeparator(s[1..], sep, esc, s[0] == esc);
      }
    }
  }

  // ---------------------------------------------------------------------
  // Simplified header
  // ---------------------------------------------------------------------

  predicate IsRoleLetter(c: char) {
    c == 'c' || c == 'm' || c == 'i'
  }

  predicate IsTypeLetter(c: char) {
    c == 'D' || c == 'C' || c == 'S'
  }

  /** The regular expression `^([cmi][DCS]|[cmi]|[DCS])#`. */
  predicate MatchesPrefix(cell: string) {
    || (|cell| >= 3 && IsRoleLetter(cell[0]) && IsTypeLetter(cell[1]) && cell[2] == '#')
    || (|cell| >= 2 && (IsRoleLetter(cell[0]) || IsTypeLetter(cell[0])) && cell[1] == '#')
  }

  /** Position of the first occurrence of `c`, or `|s|`. */
  function FirstIndex(s: string, c: char): (i: nat)
    ensures i <= |s|
    ensures i < |s| ==> s[i] == c
    ensures forall j :: 0 <= j < i ==> s[j] != c
  {
    if |s| == 0 then 0 else if s[0] == c then 0 else 1 + FirstIndex(s[1..], c)
  }

  /** The role letter of the simplified syntax: the inverse of the role the prefix gives. */
  function RoleLetter(role: Option<Role>): string
  {
    match role
    case Some(Class) => "c"
    case Some(Meta) => "m"
    case Some(Ignore) => "i"
    case _ => ""
  }

  /** The type letter of the simplified syntax. */
  function TypeLetter(t: TypeDef): string
  {
    match t
    case TDiscrete => "D"
    case TContinuous => "C"
    case TString => "S"
    case _ => ""
  }

  lemma AnnotationOfLetter(letter: string)
    requires letter == "" || letter == "c" || letter == "m" || letter == "i"
    ensures VarAttribute(letter).Success?
    ensures VarAttribute(letter).value.labels == []
    ensures RoleLetter(VarAttribute(letter).value.role) == letter
    ensures letter == "" ==> VarAttribute(letter).value.role == None
  {
    if letter != "" {
      RoleKeywordAlone(letter);
    }
  }

  /** The annotation cell the prefix stands for: its first letter when that is a role letter. */
  function SpecAnnotation(spec: string): string
    requires |spec| > 0
  {
    if IsRoleLetter(spec[0]) then [spec[0]] else ""
  }

  /** The type cell the prefix stands for: its last letter, lower-cased, when that is a type letter. */
  function SpecType(spec: string): string
    requires |spec| > 0
  {
    if IsTypeLetter(spec[|spec| - 1]) then [LowerChar(spec[|spec| - 1])] else ""
  }

  /** The prefix letters a matched cell may carry before its `#`. */
  predicate IsSpec(spec: string) {
    || (|spec| == 2 && IsRoleLetter(spec[0]) && IsTypeLetter(spec[1]))
    || (|spec| == 1 && (IsRoleLetter(spec[0]) || IsTypeLetter(spec[0])))
  }

  /** What a prefix declares, through `var_type` and `var_attribute` of its letters. */
  function DecodeSpec(spec: string): (r: (TypeDef, Annotation))
    requires IsSpec(spec)
    ensures RoleLetter(r.1.role) + TypeLetter(r.0) == spec
    ensures r.1.labels == [] && r.1.role != Some(MultiClass)
    ensures r.0 in {TDiscrete, TContinuous, TString, TUnspecified}
  {
    var annotDef := SpecAnnotation(spec);
    var typeDef := SpecType(spec);
    SpecSplit(spec);
    AnnotationOfLetter(annotDef);
    SpecTypeDecoded(spec);
    (VarType(typeDef).value, VarAttribute(annotDef).value)
  }

  /** A prefix is its role letter, if any, followed by its type letter, if any. */
  lemma SpecSplit(spec: string)
    requires IsSpec(spec)
    ensures var c := spec[|spec| - 1];
      && SpecAnnotation(spec) + (if IsTypeLetter(c) then [c] else "") == spec
      && (SpecAnnotation(spec) == "" || SpecAnnotation(spec) == "c" || SpecAnnotation(spec) == "m" || SpecAnnotation(spec) == "i")
  {
  }

  /** The type cell of a prefix reads as one of the letter types, whose letter is the prefix's last one. */
  lemma SpecTypeDecoded(spec: string)
    requires |spec| > 0
    ensures var t := VarType(SpecType(spec)); var c := spec[|spec| - 1];
      && t.Success? && t.value in {TDiscrete, TContinuous, TString, TUnspecified}
      && TypeLetter(t.value) == (if IsTypeLetter(c) then [c] else "")
  {
    var c := spec[|spec| - 1];
    if c == 'D' {
      assert SpecType(spec) == "d";
    } else if c == 'C' {
      assert SpecType(spec) == "c";
    } else if c == 'S' {
      assert SpecType(spec) == "s";
    } else {
      assert SpecType(spec) == "";
    }
  }

  /** One cell of `parse_simplified_header`: the name, type and annotation it declares. */
  function SimplifiedCell(cell: string): (r: (string, TypeDef, Annotation))
    ensures MatchesPrefix(cell) ==> RoleLetter(r.2.role) + TypeLetter(r.1) + "#" + r.0 == cell
    ensures !MatchesPrefix(cell) ==> r == (cell, TUnspecified, Annotation(None, []))
    ensures r.2.labels == [] && r.2.role != Some(MultiClass)
    ensures r.1 in {TDiscrete, TContinuous, TString, TUnspecified}
  {
    if MatchesPrefix(cell) then
      var k := FirstIndex(cell, '#');
      PrefixSplit(cell);
      var d := DecodeSpec(cell[..k]);
      (cell[k + 1..], d.0, d.1)
    else
      AnnotationOfLetter("");
      (cell, VarType("").value, VarAttribute("").value)
  }

  /** A matching cell is its prefix letters, the first `#`, and the name. */
  lemma PrefixSplit(cell: string)
    requires MatchesPrefix(cell)
    ensures var k := FirstIndex(cell, '#');
      k < |cell| && IsSpec(cell[..k]) && cell[..k] + "#" + cell[k + 1..] == cell
  {
    var k := FirstIndex(cell, '#');
    var at := if cell[1] == '#' then 1 else 2;
    assert cell[at] == '#' && forall j :: 0 <= j < at ==> cell[j] != '#';
    assert k == at;
    var spec := cell[..k];
    assert |spec| == at && spec[0] == cell[0] && (at == 2 ==> spec[1] == cell[1]);
    assert cell == spec + [cell[k]] + cell[k + 1..];
  }

  /** io.py `parse_simplified_header`: names, types and annotations, one per cell. */
  function ParseSimplifiedHeader(row: seq<string>): (r: (seq<string>, seq<TypeDef>, seq<Annotation>))
    ensures |r.0| == |row| && |r.1| == |row| && |r.2| == |row|
    ensures forall i :: 0 <= i < |row| ==> SimplifiedCell(row[i]) == (r.0[i], r.1[i], r.2[i])
  {
    (seq(|row|, i requires 0 <= i < |row| => SimplifiedCell(row[i]).0),
     seq(|row|, i requires 0 <= i < |row| => SimplifiedCell(row[i]).1),
     seq(|row|, i requires 0 <= i < |row| => SimplifiedCell(row[i]).2))
  }

  lemma FirstIndexAfter(pre: string, rest: string, c: char)
    requires c !in pre && |rest| > 0 && rest[0] == c
    ensures FirstIndex(pre + rest, c) == |pre|
  {
    if |pre| > 0 {
      assert (pre + rest)[1..] == pre[1..] + rest;
      FirstIndexAfter(pre[1..], rest, c);
    }
  }

  lemma TypeOfLetter(t: TypeDef)
    requires t in {TDiscrete, TContinuous, TString}
    ensures VarType([LowerChar(TypeLetter(t)[0])]) == Success(t)
  {
  }

  /** A prefix reads back as the role and type it was written from. */
  lemma DecodeSpecOfLetters(role: Option<Role>, t: TypeDef)
    requires role != Some(MultiClass)
    requires t in {TDiscrete, TContinuous, TString, TUnspecified}
    requires role.Some? || t != TUnspecified
    ensures IsSpec(RoleLetter(role) + TypeLetter(t))
    ensures DecodeSpec(RoleLetter(role) + TypeLetter(t)) == (t, Annotation(role, []))
  {
    var spec := RoleLetter(role) + TypeLetter(t);
    LettersAreSpec(role, t);
    var d := DecodeSpec(spec);
    RoleLetterSplit(d.1.role, d.0, role, t);
    RoleLetterInjective(d.1.role, role);
    TypeLetterInjective(d.0, t);
  }

  /** A role letter and a type letter, not both empty, form a prefix. */
  lemma LettersAreSpec(role: Option<Role>, t: TypeDef)
    requires role != Some(MultiClass)
    requires t in {TDiscrete, TContinuous, TString, TUnspecified}
    requires role.Some? || t != TUnspecified
    ensures IsSpec(RoleLetter(role) + TypeLetter(t))
  {
    var a, b := RoleLetter(role), TypeLetter(t);
    assert |a| <= 1 && (|a| == 1 ==> IsRoleLetter(a[0]));
    assert |b| <= 1 && (|b| == 1 ==> IsTypeLetter(b[0]));
    assert |a| + |b| > 0;
    if |a| == 1 && |b| == 1 {
      assert (a + b)[0] == a[0] && (a + b)[1] == b[0];
    } else if |a| == 1 {
      assert a + b == a;
    } else {
      assert a + b == b;
    }
  }

  lemma RoleLetterSplit(r1: Option<Role>, t1: TypeDef, r2: Option<Role>, t2: TypeDef)
    requires RoleLetter(r1) + TypeLetter(t1) == RoleLetter(r2) + TypeLetter(t2)
    ensures RoleLetter(r1) == RoleLetter(r2) && TypeLetter(t1) == TypeLetter(t2)
  {
    var a := RoleLetter(r1) + TypeLetter(t1);
    RoleLetterLength(r1, t1);
    RoleLetterLength(r2, t2);
    assert RoleLetter(r1) == a[..|RoleLetter(r1)|] == RoleLetter(r2);
  }

  /** Role letters are lower case and type letters upper case, so the prefix says which is present. */
  lemma RoleLetterLength(r: Option<Role>, t: TypeDef)
    ensures var a := RoleLetter(r) + TypeLetter(t);
      |RoleLetter(r)| == (if |a| > 0 && 'a' <= a[0] <= 'z' then 1 else 0)
  {
  }

  lemma RoleLetterInjective(r1: Option<Role>, r2: Option<Role>)
    requires r1 != Some(MultiClass) && r2 != Some(MultiClass)
    requires RoleLetter(r1) == RoleLetter(r2)
    ensures r1 == r2
  {
  }

  lemma TypeLetterInjective(t1: TypeDef, t2: TypeDef)
    requires t1 in {TDiscrete, TContinuous, TString, TUnspecified}
    requires t2 in {TDiscrete, TContinuous, TString, TUnspecified}
    requires TypeLetter(t1) == TypeLetter(t2)
    ensures t1 == t2
  {
  }

  /** Writing a role letter, a type letter, `#` and a name, then reading the
      cell back, gives the name, type and role. */
  lemma SimplifiedRoundTrip(role: Option<Role>, t: TypeDef, name: string)
    requires role != Some(MultiClass)
    requires t in {TDiscrete, TContinuous, TString, TUnspecified}
    requires role.Some? || t != TUnspecified
    ensures SimplifiedCell(RoleLetter(role) + TypeLetter(t) + "#" + name) == (name, t, Annotation(role, []))
  {
    var pre := RoleLetter(role) + TypeLetter(t);
    var cell := pre + "#" + name;
    assert cell == pre + ("#" + name);
    assert '#' !in pre && 1 <= |pre| <= 2;
    FirstIndexAfter(pre, "#" + name, '#');
    assert MatchesPrefix(cell);
    assert cell[..|pre|] == pre;
    assert cell[|pre| + 1..] == name;
    DecodeSpecOfLetters(role, t);
  }
}

=== FILE: text.dfy ===
/** String primitives of Python 2 `str` that the tabular readers and writers
    rely on: joining, splitting on a character, splitting on a separator that
    is not escaped, stripping, lower-casing and decimal integers. */
module Text {
  import opened Wrappers

  /** The characters Python 2 `str.strip()` and `str.split()` treat as white space. */
  predicate IsSpace(c: char) {
    c == ' ' || c == '\t' || c == '\n' || c == '\r' || c == '\U{0B}' || c == '\U{0C}'
  }

  predicate StartsWith(s: string, prefix: string) {
    |prefix| <= |s| && s[..|prefix|] == prefix
  }

  /** `sep.join(parts)` */
  function Join(parts: seq<string>, sep: string): string
  {
    if |parts| == 0 then ""
    else if |parts| == 1 then parts[0]
    else parts[0] + sep + Join(parts[1..], sep)
  }

  /** `s.split(sep)` for a one-character separator: every occurrence of `sep`
      ends a piece, and empty pieces are kept. */
  function Split(s: string, sep: char): (pieces: seq<string>)
    ensures |pieces| >= 1
    ensures forall k :: 0 <= k < |pieces| ==> sep !in pieces[k]
    ensures Join(pieces, [sep]) == s
  {
    if |s| == 0 then [""]
    else
      var rest := Split(s[1..], sep);
      if s[0] == sep then
        assert [sep] + s[1..] == s;
        [""] + rest
      else
        var pieces := [[s[0]] + rest[0]] + rest[1..];
        assert [s[0]] + Join(rest, [sep]) == s;
        JoinConsFirst(s[0], rest, [sep]);
        pieces
  }

  /** The last character of a non-empty string, `s[-1]`. */
  function Last(s: string): char
    requires |s| > 0
  {
    s[|s| - 1]
  }

  /** A character absent from the parts and the separator is absent from their join. */
  lemma {:induction false} JoinAvoids(parts: seq<string>, sep: string, c: char)
    requires c !in sep && forall k :: 0 <= k < |parts| ==> c !in parts[k]
    ensures c !in Join(parts, sep)
  {
    if |parts| > 1 {
      JoinAvoids(parts[1..], sep, c);
    }
  }

  /** Prepending a character to the first piece prepends it to the joined text. */
  lemma JoinConsFirst(c: char, parts: seq<string>, sep: string)
    requires |parts| >= 1
    ensures Join([[c] + parts[0]] + parts[1..], sep) == [c] + Join(parts, sep)
  {
    var ps := [[c] + parts[0]] + parts[1..];
    if |parts| > 1 {
      assert ps[1..] == parts[1..];
    }
  }

  /** Splitting the join of pieces that do not contain the separator gives the pieces back. */
  lemma {:induction false} SplitJoin(parts: seq<string>, sep: char)
    requires |parts| >= 1
    requires forall k :: 0 <= k < |parts| ==> sep !in parts[k]
    ensures Split(Join(parts, [sep]), sep) == parts
  {
    if |parts| == 1 {
      SplitNoSeparator(parts[0], sep);
    } else {
      assert [parts[0]] + parts[1..] == parts;
      SplitJoin(parts[1..], sep);
      SplitJoinStep(parts[0], parts[1..], sep);
    }
  }

  /** One more piece in front of a join that splits back. */
  lemma SplitJoinStep(p: string, rest: seq<string>, sep: char)
    requires sep !in p && |rest| >= 1
    requires Split(Join(rest, [sep]), sep) == rest
    ensures Split(p + [sep] + Join(rest, [sep]), sep) == [p] + rest
  {
    SplitAtSeparator(p, Join(rest, [sep]), sep);
  }

  /** A leading separator ends an empty first piece. */
  lemma SplitSeparatorFirst(tail: string, sep: char)
    ensures Split([sep] + tail, sep) == [""] + Split(tail, sep)
  {
    assert ([sep] + tail)[1..] == tail;
  }

  lemma {:induction false} SplitNoSeparator(s: string, sep: char)
    requires sep !in s
    ensures Split(s, sep) == [s]
  {
    if |s| > 0 {
      SplitNoSeparator(s[1..], sep);
      assert [s[0]] + s[1..] == s;
    }
  }

  /** A separator after text without one ends the first piece there. */
  lemma SplitAtSeparator(a: string, t: string, sep: char)
    requires sep !in a
    ensures Split(a + [sep] + t, sep) == [a] + Split(t, sep)
  {
    var S := Split([sep] + t, sep);
    assert a + [sep] + t == a + ([sep] + t);
    SplitPrefix(a, [sep] + t, sep);
    SplitSeparatorFirst(t, sep);
    assert S[0] == "" && S[1..] == Split(t, sep);
    assert a + S[0] == a;
  }

  /** Text without the separator just lengthens the first piece. */
  lemma {:induction false} SplitPrefix(p: string, t: string, sep: char)
    requires sep !in p
    ensures Split(p + t, sep) == [p + Split(t, sep)[0]] + Split(t, sep)[1..]
  {
    if |p| > 0 {
      SplitPrefix(p[1..], t, sep);
      var S := Split(t, sep);
      assert (p + t)[1..] == p[1..] + t;
      assert (p + t)[0] == p[0] && p[0] != sep;
      var rest := Split(p[1..] + t, sep);
      assert Split(p + t, sep) == [[p[0]] + rest[0]] + rest[1..];
      assert rest == [p[1..] + S[0]] + S[1..];
      assert [p[0]] + (p[1..] + S[0]) == p + S[0];
    } else {
      assert p + t == t;
      assert p + Split(t, sep)[0] == Split(t, sep)[0];
      assert [Split(t, sep)[0]] + Split(t, sep)[1..] == Split(t, sep);
    }
  }

  // ---------------------------------------------------------------------
  // Splitting on an unescaped separator (io.py `split_escaped_str`)
  // ---------------------------------------------------------------------

  /** The split of a regular expression `(?<!esc)sep`: `s` is cut at every
      `sep` whose preceding character is not `esc`.  `afterEsc` says whether
      the character before `s` was the escape character. */
  function SplitRaw(s: string, sep: char, esc: char, afterEsc: bool): (pieces: seq<string>)
    ensures |pieces| >= 1
  {
    if |s| == 0 then [""]
    else if s[0] == sep && !afterEsc then [""] + SplitRaw(s[1..], sep, esc, sep == esc)
    else
      var rest := SplitRaw(s[1..], sep, esc, s[0] == esc);
      [[s[0]] + rest[0]] + rest[1..]
  }

  /** `piece.replace(esc + sep, sep)`: leftmost, non-overlapping replacement. */
  function Unescape(piece: string, sep: char, esc: char): string
  {
    if |piece| == 0 then ""
    else if |piece| >= 2 && piece[0] == esc && piece[1] == sep then [sep] + Unescape(piece[2..], sep, esc)
    else [piece[0]] + Unescape(piece[1..], sep, esc)
  }

  function UnescapeAll(pieces: seq<string>, sep: char, esc: char): (r: seq<string>)
    ensures |r| == |pieces|
    ensures forall k :: 0 <= k < |r| ==> r[k] == Unescape(pieces[k], sep, esc)
  {
    if |pieces| == 0 then [] else [Unescape(pieces[0], sep, esc)] + UnescapeAll(pieces[1..], sep, esc)
  }

  /** io.py `split_escaped_str(string, sep, escapechar)`. */
  function SplitEscaped(s: string, sep: char, esc: char): (pieces: seq<string>)
    ensures |pieces| >= 1
  {
    UnescapeAll(SplitRaw(s, sep, esc, false), sep, esc)
  }

  /** `value.replace(sep, esc + sep)`, the escaping `save_csv` applies to discrete values. */
  function Escape(value: string, sep: char, esc: char): (r: string)
    ensures |r| >= |value|
  {
    if |value| == 0 then ""
    else if value[0] == sep then [esc, sep] + Escape(value[1..], sep, esc)
    else [value[0]] + Escape(value[1..], sep, esc)
  }

  /** An escaped separator between two characters does not split them. */
  lemma EscapedSpaceJoins(a: char, b: char, sep: char, esc: char)
    requires a != sep && a != esc && b != sep && b != esc && sep != esc
    ensures SplitEscaped([a, esc, sep, b], sep, esc) == [[a, sep, b]]
  {
    var t1, t2, t3 := [esc, sep, b], [sep, b], [b];
    assert [a, esc, sep, b][1..] == t1 && t1[1..] == t2 && t2[1..] == t3 && t3[1..] == [];
    assert SplitRaw([], sep, esc, false) == [[]];
    assert [b] + [] == t3;
    assert SplitRaw(t3, sep, esc, false) == [t3];
    assert [sep] + t3 == t2 && [esc] + t2 == t1 && [a] + t1 == [a, esc, sep, b];
    assert SplitRaw(t2, sep, esc, true) == [t2];
    assert SplitRaw(t1, sep, esc, false) == [t1];
    assert SplitRaw([a, esc, sep, b], sep, esc, false) == [[a, esc, sep, b]];
    assert t1[2..] == t3;
    assert Unescape([], sep, esc) == [];
    assert Unescape(t3, sep, esc) == t3;
    assert Unescape(t1, sep, esc) == [sep] + t3 == t2;
    assert Unescape([a, esc, sep, b], sep, esc) == [a] + t2 == [a, sep, b];
    assert UnescapeAll([[a, esc, sep, b]], sep, esc) == [[a, sep, b]];
  }

  /** A value without the separator is written as it is. */
  lemma {:induction false} EscapeKeeps(value: string, sep: char, esc: char)
    requires sep !in value
    ensures Escape(value, sep, esc) == value
    decreases |value|
  {
    if |value| > 0 {
      EscapeKeeps(value[1..], sep, esc);
      assert [value[0]] + value[1..] == value;
    }
  }

  function EscapeAll(values: seq<string>, sep: char, esc: char): (r: seq<string>)
    ensures |r| == |values|
    ensures forall k :: 0 <= k < |r| ==> r[k] == Escape(values[k], sep, esc)
  {
    if |values| == 0 then [] else [Escape(values[0], sep, esc)] + EscapeAll(values[1..], sep, esc)
  }

  /** Text that contains no separator is one piece, unchanged. */
  lemma {:induction false} SplitEscapedNoSeparator(s: string, sep: char, esc: char)
    requires sep !in s && esc !in s
    ensures SplitEscaped(s, sep, esc) == [s]
  {
    SplitRawNoSeparator(s, sep, esc, false);
    UnescapeNoEscape(s, sep, esc);
  }

  lemma {:induction false} SplitRawNoSeparator(s: string, sep: char, esc: char, afterEsc: bool)
    requires sep !in s
    ensures SplitRaw(s, sep, esc, afterEsc) == [s]
  {
    if |s| > 0 {
      SplitRawNoSeparator(s[1..], sep, esc, s[0] == esc);
      assert [s[0]] + s[1..] == s;
    }
  }

  lemma {:induction false} UnescapeNoEscape(s: string, sep: char, esc: char)
    requires esc !in s
    ensures Unescape(s, sep, esc) == s
  {
    if |s| > 0 {
      UnescapeNoEscape(s[1..], sep, esc);
      assert [s[0]] + s[1..] == s;
    }
  }

  /** An escaped value followed by more text, read from a position not
      preceded by the escape character, extends the first raw piece. */
  lemma {:induction false} SplitRawEscapedPrefix(v: string, t: string, sep: char, esc: char)
    requires sep != esc && esc !in v
    ensures SplitRaw(Escape(v, sep, esc) + t, sep, esc, false)
         == [Escape(v, sep, esc) + SplitRaw(t, sep, esc, false)[0]] + SplitRaw(t, sep, esc, false)[1..]
  {
    if |v| > 0 {
      SplitRawEscapedPrefix(v[1..], t, sep, esc);
      EscapedPrefixStep(v, t, sep, esc);
    } else {
      var R := SplitRaw(t, sep, esc, false);
      assert Escape(v, sep, esc) + t == t;
      assert Escape(v, sep, esc) + R[0] == R[0];
      assert [R[0]] + R[1..] == R;
    }
  }

  /** The inductive step of `SplitRawEscapedPrefix`: one more leading character of the value. */
  lemma EscapedPrefixStep(v: string, t: string, sep: char, esc: char)
    requires sep != esc && esc !in v && |v| > 0
    requires var e', R := Escape(v[1..], sep, esc), SplitRaw(t, sep, esc, false);
      SplitRaw(e' + t, sep, esc, false) == [e' + R[0]] + R[1..]
    ensures var R := SplitRaw(t, sep, esc, false);
      SplitRaw(Escape(v, sep, esc) + t, sep, esc, false) == [Escape(v, sep, esc) + R[0]] + R[1..]
  {
    var e' := Escape(v[1..], sep, esc);
    var R := SplitRaw(t, sep, esc, false);
    var h: string := if v[0] == sep then [esc, sep] else [v[0]];
    assert v[0] in v;
    EscapeHead(v, sep, esc);
    HeadStep(h, e', t, R[0], R[1..], sep, esc);
  }

  /** Escaping works character by character from the front. */
  lemma EscapeHead(v: string, sep: char, esc: char)
    requires |v| > 0
    ensures Escape(v, sep, esc) == (if v[0] == sep then [esc, sep] else [v[0]]) + Escape(v[1..], sep, esc)
  {
  }

  /** An escaped separator, or a character that is neither separator nor
      escape, in front of text extends its first raw piece. */
  lemma HeadStep(h: string, e: string, t: string, first: string, rest: seq<string>, sep: char, esc: char)
    requires sep != esc
    requires h == [esc, sep] || (|h| == 1 && h[0] != sep && h[0] != esc)
    requires SplitRaw(e + t, sep, esc, false) == [e + first] + rest
    ensures SplitRaw(h + e + t, sep, esc, false) == [h + e + first] + rest
  {
    var u, w := e + t, e + first;
    assert h + e + t == h + u && h + e + first == h + w;
    if h == [esc, sep] {
      SplitRawSepStep(u, sep, esc, w, rest);
    } else {
      SplitRawCharStep(h[0], u, sep, esc, w, rest);
      assert h == [h[0]];
    }
  }

  /** An escaped separator in front of text extends its first raw piece. */
  lemma SplitRawSepStep(u: string, sep: char, esc: char, first: string, rest: seq<string>)
    requires sep != esc
    requires SplitRaw(u, sep, esc, false) == [first] + rest
    ensures SplitRaw([esc, sep] + u, sep, esc, false) == [[esc, sep] + first] + rest
  {
    var s := [esc, sep] + u;
    assert s[1..] == [sep] + u;
    assert ([sep] + u)[1..] == u;
    var mid := SplitRaw([sep] + u, sep, esc, true);
    assert mid == [[sep] + first] + rest;
    assert [esc] + ([sep] + first) == [esc, sep] + first;
  }

  /** A character that is neither separator nor escape in front of text extends its first raw piece. */
  lemma SplitRawCharStep(c: char, u: string, sep: char, esc: char, first: string, rest: seq<string>)
    requires c != sep && c != esc
    requires SplitRaw(u, sep, esc, false) == [first] + rest
    ensures SplitRaw([c] + u, sep, esc, false) == [[c] + first] + rest
  {
    assert ([c] + u)[1..] == u;
  }

  /** The raw split of escaped values joined by the separator is the list of escaped values. */
  lemma {:induction false} SplitRawJoinEscaped(values: seq<string>, sep: char, esc: char)
    requires |values| >= 1 && sep != esc
    requires forall k :: 0 <= k < |values| ==> esc !in values[k]
    ensures SplitRaw(Join(EscapeAll(values, sep, esc), [sep]), sep, esc, false) == EscapeAll(values, sep, esc)
  {
    var es := EscapeAll(values, sep, esc);
    if |values| == 1 {
      SplitRawEscapedPrefix(values[0], "", sep, esc);
      assert Escape(values[0], sep, esc) + "" == Escape(values[0], sep, esc);
    } else {
      SplitRawJoinEscaped(values[1..], sep, esc);
      assert EscapeAll(values[1..], sep, esc) == es[1..];
      var tail := Join(es[1..], [sep]);
      var t := [sep] + tail;
      assert Join(es, [sep]) == es[0] + t;
      SplitRawEscapedPrefix(values[0], t, sep, esc);
      assert t[1..] == tail;
      assert SplitRaw(t, sep, esc, false) == [""] + es[1..];
      assert es[0] + "" == es[0];
      assert [es[0]] + es[1..] == es;
    }
  }

  lemma {:induction false} UnescapeEscape(v: string, sep: char, esc: char)
    requires sep != esc && esc !in v
    ensures Unescape(Escape(v, sep, esc), sep, esc) == v
  {
    if |v| > 0 {
      UnescapeEscape(v[1..], sep, esc);
      var e' := Escape(v[1..], sep, esc);
      if v[0] == sep {
        assert ([esc, sep] + e')[2..] == e';
      } else {
        assert ([v[0]] + e')[1..] == e';
      }
      assert [v[0]] + v[1..] == v;
    }
  }

  /** Escaping every value, joining with the separator and splitting with
      `SplitEscaped` returns the values, provided none contains the escape
      character. */
  lemma EscapeRoundTrip(values: seq<string>, sep: char, esc: char)
    requires |values| >= 1 && sep != esc
    requires forall k :: 0 <= k < |values| ==> esc !in values[k]
    ensures SplitEscaped(Join(EscapeAll(values, sep, esc), [sep]), sep, esc) == values
  {
    SplitRawJoinEscaped(values, sep, esc);
    var r := SplitEscaped(Join(EscapeAll(values, sep, esc), [sep]), sep, esc);
    forall k | 0 <= k < |values|
      ensures r[k] == values[k]
    {
      UnescapeEscape(values[k], sep, esc);
    }
  }

  // ---------------------------------------------------------------------
  // Stripping, white-space splitting, case
  // ---------------------------------------------------------------------

  /** `s.lstrip(chars)` */
  function LStrip(s: string, chars: string): (r: string)
    ensures |r| <= |s| && r == s[|s| - |r|..]
    ensures |r| > 0 ==> r[0] !in chars
    ensures forall k :: 0 <= k < |s| - |r| ==> s[k] in chars
  {
    if |s| > 0 && s[0] in chars then LStrip(s[1..], chars) else s
  }

  /** `s.rstrip(chars)` */
  function RStrip(s: string, chars: string): (r: string)
    ensures |r| <= |s| && r == s[..|r|]
    ensures |r| > 0 ==> r[|r| - 1] !in chars
    ensures forall k :: |r| <= k < |s| ==> s[k] in chars
  {
    if |s| > 0 && s[|s| - 1] in chars then RStrip(s[..|s| - 1], chars) else s
  }

  /** `s.strip(chars)` */
  function Strip(s: string, chars: string): string
  {
    RStrip(LStrip(s, chars), chars)
  }

  const Whitespace: string := " \t\n\r\U{0B}\U{0C}"

  lemma WhitespaceIsSpace(c: char)
    ensures c in Whitespace <==> IsSpace(c)
  {
    assert Whitespace[0] == ' ' && Whitespace[1] == '\t' && Whitespace[2] == '\n';
    assert Whitespace[3] == '\r' && Whitespace[4] == '\U{0B}' && Whitespace[5] == '\U{0C}';
  }

  /** `s.strip()` */
  function StripSpace(s: string): string
  {
    Strip(s, Whitespace)
  }

  predicate IsBlank(s: string) {
    forall k :: 0 <= k < |s| ==> IsSpace(s[k])
  }

  /** `s.split()` with no argument: maximal runs of non-white-space characters. */
  function Words(s: string): (ws: seq<string>)
    ensures forall k :: 0 <= k < |ws| ==> |ws[k]| > 0 && forall j :: 0 <= j < |ws[k]| ==> !IsSpace(ws[k][j])
    ensures |ws| == 0 <==> IsBlank(s)
  {
    WordsFrom(s, "")
  }

  /** Helper of `Words`: `pending` is the word being read. */
  function WordsFrom(s: string, pending: string): (ws: seq<string>)
    requires forall j :: 0 <= j < |pending| ==> !IsSpace(pending[j])
    ensures forall k :: 0 <= k < |ws| ==> |ws[k]| > 0 && forall j :: 0 <= j < |ws[k]| ==> !IsSpace(ws[k][j])
    ensures |ws| == 0 <==> (|pending| == 0 && IsBlank(s))
    decreases |s|
  {
    if |s| == 0 then (if |pending| == 0 then [] else [pending])
    else if IsSpace(s[0]) then
      (if |pending| == 0 then WordsFrom(s[1..], "") else [pending] + WordsFrom(s[1..], ""))
    else WordsFrom(s[1..], pending + [s[0]])
  }

  /** A white-space character separates the words before it from the words after it. */
  lemma WordsAtSpace(a: string, c: char, b: string)
    requires IsSpace(c)
    ensures Words(a + [c] + b) == Words(a) + Words(b)
  {
    WordsFromAtSpace(a, c, b, "");
  }

  lemma {:induction false} WordsFromAtSpace(a: string, c: char, b: string, pending: string)
    requires IsSpace(c) && forall j :: 0 <= j < |pending| ==> !IsSpace(pending[j])
    ensures WordsFrom(a + [c] + b, pending) == WordsFrom(a, pending) + WordsFrom(b, "")
    decreases |a|
  {
    var s := a + [c] + b;
    if |a| == 0 {
      assert s[0] == c && s[1..] == b;
    } else {
      assert s[0] == a[0] && s[1..] == a[1..] + [c] + b;
      if IsSpace(a[0]) {
        WordsFromAtSpace(a[1..], c, b, "");
      } else {
        WordsFromAtSpace(a[1..], c, b, pending + [a[0]]);
      }
    }
  }

  /** Words joined by single spaces split back into those words. */
  lemma {:induction false} WordsOfJoin(ws: seq<string>)
    requires forall k :: 0 <= k < |ws| ==> |ws[k]| > 0 && forall j :: 0 <= j < |ws[k]| ==> !IsSpace(ws[k][j])
    ensures Words(Join(ws, " ")) == ws
    decreases |ws|
  {
    if |ws| == 1 {
      WordsOfWord(ws[0], "");
      assert "" + ws[0] == ws[0];
    } else if |ws| > 1 {
      WordsOfJoin(ws[1..]);
      WordsOfWord(ws[0], "");
      assert "" + ws[0] == ws[0];
      assert Join(ws, " ") == ws[0] + [' '] + Join(ws[1..], " ");
      WordsAtSpace(ws[0], ' ', Join(ws[1..], " "));
      assert [ws[0]] + ws[1..] == ws;
    }
  }

  /** Non-empty pieces of `s.split(sep)`: the words of a line split on one character. */
  function NonEmptyPieces(pieces: seq<string>): (r: seq<string>)
    ensures forall k :: 0 <= k < |r| ==> |r[k]| > 0
    ensures forall k :: 0 <= k < |r| ==> r[k] in pieces
  {
    if |pieces| == 0 then []
    else if |pieces[0]| > 0 then [pieces[0]] + NonEmptyPieces(pieces[1..])
    else NonEmptyPieces(pieces[1..])
  }

  /** The words of a line (its non-empty pieces on one character) exist
      whenever the line holds any other character. */
  lemma {:induction false} NonEmptyPiecesOfText(s: string, sep: char, k: nat)
    requires k < |s| && s[k] != sep
    ensures |NonEmptyPieces(Split(s, sep))| > 0
  {
    var pieces := Split(s, sep);
    if |NonEmptyPieces(pieces)| == 0 {
      NonEmptyPiecesEmpty(pieces);
      JoinOfEmptyPieces(pieces, sep);
    }
  }

  lemma {:induction false} NonEmptyPiecesEmpty(pieces: seq<string>)
    requires |NonEmptyPieces(pieces)| == 0
    ensures forall k :: 0 <= k < |pieces| ==> pieces[k] == ""
  {
    if |pieces| > 0 {
      NonEmptyPiecesEmpty(pieces[1..]);
      assert forall k :: 1 <= k < |pieces| ==> pieces[k] == pieces[1..][k - 1];
    }
  }

  lemma {:induction false} JoinOfEmptyPieces(pieces: seq<string>, sep: char)
    requires forall k :: 0 <= k < |pieces| ==> pieces[k] == ""
    ensures forall i :: 0 <= i < |Join(pieces, [sep])| ==> Join(pieces, [sep])[i] == sep
  {
    if |pieces| > 1 {
      JoinOfEmptyPieces(pieces[1..], sep);
      assert Join(pieces, [sep]) == [sep] + Join(pieces[1..], [sep]);
    }
  }

  /** Pieces that are all non-empty are their own non-empty pieces. */
  lemma {:induction false} NonEmptyPiecesAll(pieces: seq<string>)
    requires forall k :: 0 <= k < |pieces| ==> |pieces[k]| > 0
    ensures NonEmptyPieces(pieces) == pieces
  {
    if |pieces| > 0 {
      NonEmptyPiecesAll(pieces[1..]);
      assert [pieces[0]] + pieces[1..] == pieces;
    }
  }

  /** `sep.join(xs + ys) == sep.join(xs) + sep + sep.join(ys)` for non-empty lists. */
  lemma {:induction false} JoinAppend(xs: seq<string>, ys: seq<string>, sep: string)
    requires |xs| >= 1 && |ys| >= 1
    ensures Join(xs + ys, sep) == Join(xs, sep) + sep + Join(ys, sep)
  {
    if |xs| > 1 {
      JoinAppend(xs[1..], ys, sep);
      assert (xs + ys)[1..] == xs[1..] + ys;
    } else {
      assert (xs + ys)[1..] == ys;
    }
  }

  /** Extending the last part extends the joined text. */
  lemma {:induction false} JoinLastExtended(parts: seq<string>, t: string, sep: string)
    requires |parts| >= 1
    ensures Join(parts[..|parts| - 1] + [parts[|parts| - 1] + t], sep) == Join(parts, sep) + t
  {
    var n := |parts|;
    var q := parts[..n - 1] + [parts[n - 1] + t];
    if n > 1 {
      var rest := parts[1..];
      JoinLastExtended(rest, t, sep);
      assert q[0] == parts[0];
      assert q[1..] == rest[..|rest| - 1] + [rest[|rest| - 1] + t];
    }
  }

  /** Stripping stops at once at a character outside the set. */
  lemma StripKeeps(s: string, chars: string)
    requires |s| > 0 && s[0] !in chars && s[|s| - 1] !in chars
    ensures Strip(s, chars) == s
  {
  }

  /** A word without white space is its own `split()`. */
  lemma {:induction false} WordsOfWord(s: string, pending: string)
    requires forall j :: 0 <= j < |pending| ==> !IsSpace(pending[j])
    requires forall j :: 0 <= j < |s| ==> !IsSpace(s[j])
    requires |pending + s| > 0
    ensures WordsFrom(s, pending) == [pending + s]
    decreases |s|
  {
    if |s| > 0 {
      WordsOfWord(s[1..], pending + [s[0]]);
      assert pending + [s[0]] + s[1..] == pending + s;
    } else {
      assert pending + s == pending;
    }
  }

  function LowerChar(c: char): char {
    if 'A' <= c <= 'Z' then (c as int - 'A' as int + 'a' as int) as char else c
  }

  /** `str.lower(s)` for the ASCII letters. */
  function Lower(s: string): (r: string)
    ensures |r| == |s|
    ensures forall k :: 0 <= k < |s| ==> r[k] == LowerChar(s[k])
  {
    if |s| == 0 then "" else [LowerChar(s[0])] + Lower(s[1..])
  }

  /** Lower-casing leaves text without capital ASCII letters unchanged. */
  lemma LowerKeeps(s: string)
    requires forall k :: 0 <= k < |s| ==> !('A' <= s[k] <= 'Z')
    ensures Lower(s) == s
  {
  }

  /** `s.replace(a, b)` for single characters. */
  function ReplaceChar(s: string, a: char, b: char): (r: string)
    ensures |r| == |s|
    ensures forall k :: 0 <= k < |s| ==> r[k] == (if s[k] == a then b else s[k])
  {
    if |s| == 0 then "" else [if s[0] == a then b else s[0]] + ReplaceChar(s[1..], a, b)
  }

  // ---------------------------------------------------------------------
  // Decimal integers (`"%i" % n` and `int(s)`)
  // ---------------------------------------------------------------------

  predicate IsDigit(c: char) {
    '0' <= c <= '9'
  }

  predicate AllDigits(s: string) {
    forall k :: 0 <= k < |s| ==> IsDigit(s[k])
  }

  function DigitChar(d: nat): char
    requires d < 10
  {
    ('0' as int + d) as char
  }

  /** Decimal rendering of a natural number, as `"%i" % n`. */
  function NatToString(n: nat): (s: string)
    ensures |s| > 0 && AllDigits(s)
    decreases n
  {
    if n < 10 then [DigitChar(n)] else NatToString(n / 10) + [DigitChar(n % 10)]
  }

  /** Value of a string of decimal digits. */
  function DigitsValue(s: string): nat
    requires AllDigits(s)
  {
    if |s| == 0 then 0 else DigitsValue(s[..|s| - 1]) * 10 + (s[|s| - 1] as int - '0' as int)
  }

  /** `int(s)` in base 10: surrounding white space is ignored, then an
      optional sign and at least one decimal digit. */
  function ParseInt(s: string): Option<int>
  {
    ParseSigned(StripSpace(s))
  }

  /** An optional sign and at least one decimal digit, nothing else. */
  function ParseSigned(t: string): Option<int>
  {
    if |t| >= 2 && t[0] == '-' && AllDigits(t[1..]) then Some(-(DigitsValue(t[1..]) as int))
    else if |t| >= 2 && t[0] == '+' && AllDigits(t[1..]) then Some(DigitsValue(t[1..]))
    else if |t| >= 1 && AllDigits(t) then Some(DigitsValue(t))
    else None
  }

  lemma {:induction false} DigitsValueOfNatToString(n: nat)
    ensures DigitsValue(NatToString(n)) == n
    decreases n
  {
    if n >= 10 {
      DigitsValueOfNatToString(n / 10);
      var s := NatToString(n);
      assert s[..|s| - 1] == NatToString(n / 10);
    }
  }

  /** Reading back a rendered natural number gives the number. */
  lemma ParseIntOfNatToString(n: nat)
    ensures ParseInt(NatToString(n)) == Some(n)
  {
    DigitsValueOfNatToString(n);
    var s := NatToString(n);
    assert IsDigit(s[0]) && IsDigit(s[|s| - 1]);
    WhitespaceIsSpace(s[0]);
    WhitespaceIsSpace(s[|s| - 1]);
    StripKeeps(s, Whitespace);
    assert s[0] != '-' && s[0] != '+';
  }

  /** Like Python's `int()`, white space around the text is ignored. */
  lemma ParseIntPadded(s: string, a: string, b: string)
    requires IsBlank(a) && IsBlank(b)
    requires |s| > 0 && !IsSpace(s[0]) && !IsSpace(s[|s| - 1])
    ensures ParseInt(a + s + b) == ParseInt(s)
  {
    StripPadded(s, a, b);
  }

  /** `strip()` removes the blank text on both sides of a text that does not start or end blank. */
  lemma StripPadded(s: string, a: string, b: string)
    requires IsBlank(a) && IsBlank(b)
    requires |s| > 0 && !IsSpace(s[0]) && !IsSpace(s[|s| - 1])
    ensures StripSpace(a + s + b) == s && StripSpace(s) == s
  {
    WhitespaceIsSpace(s[0]);
    WhitespaceIsSpace(s[|s| - 1]);
    forall k | 0 <= k < |a| ensures a[k] in Whitespace { WhitespaceIsSpace(a[k]); }
    forall k | 0 <= k < |b| ensures b[k] in Whitespace { WhitespaceIsSpace(b[k]); }
    assert a + s + b == a + (s + b);
    LStripPrefix(a, s + b, Whitespace);
    RStripSuffix(s, b, Whitespace);
    StripKeeps(s, Whitespace);
  }

  /** A padded rendered natural number reads back as that number. */
  lemma ParseIntPaddedNat(n: nat, a: string, b: string)
    requires IsBlank(a) && IsBlank(b)
    ensures ParseInt(a + NatToString(n) + b) == Some(n)
  {
    var s := NatToString(n);
    assert IsDigit(s[0]) && IsDigit(s[|s| - 1]);
    ParseIntPadded(s, a, b);
    ParseIntOfNatToString(n);
  }

  /** `lstrip` removes a leading run of stripped characters and stops at the first other one. */
  lemma {:induction false} LStripPrefix(a: string, rest: string, chars: string)
    requires forall k :: 0 <= k < |a| ==> a[k] in chars
    requires |rest| > 0 && rest[0] !in chars
    ensures LStrip(a + rest, chars) == rest
    decreases |a|
  {
    if |a| > 0 {
      assert (a + rest)[1..] == a[1..] + rest;
      LStripPrefix(a[1..], rest, chars);
    } else {
      assert a + rest == rest;
    }
  }

  /** `rstrip` removes a trailing run of stripped characters and stops at the last other one. */
  lemma {:induction false} RStripSuffix(s: string, b: string, chars: string)
    requires forall k :: 0 <= k < |b| ==> b[k] in chars
    requires |s| > 0 && s[|s| - 1] !in chars
    ensures RStrip(s + b, chars) == s
    decreases |b|
  {
    if |b| > 0 {
      var b' := b[..|b| - 1];
      assert (s + b)[..|s + b| - 1] == s + b';
      RStripSuffix(s, b', chars);
    } else {
      assert s + b == s;
    }
  }
}

=== FILE: wrappers.dfy ===
/** Failure-compatible Option and Result types used throughout the model. */
module Wrappers {

  datatype Option<+T> = None | Some(value: T)

  /** The outcome of an operation that Python reports by raising an exception. */
  datatype Result<+R, +E> = Success(value: R) | Failure(error: E) {

    predicate IsFailure() {
      Failure?
    }

    function PropagateFailure<U>(): Result<U, E>
      requires Failure?
    {
      Failure(error)
    }

    function Extract(): R
      requires Success?
    {
      value
    }

    function MapFailure<F>(wrap: E -> F): Result<R, F>
    {
      match this
      case Success(v) => Success(v)
      case Failure(e) => Failure(wrap(e))
    }
  }
}
